=== FILE: README.md ===
# smtp-server in Dafny

A model of the core of the `smtp-server` project: the small SMTP server of
`src/` and the documentation tool that draws its state machine
(`doc/utils/fsm2dot.py`). The server pieces are modelled one module per
source file, as pure functions over immutable datatypes. Every system call,
allocation and clock reading is an explicit parameter that names its
outcome. The modules are:

| module | file | what it covers |
|---|---|---|
| `FsmToDot` | fsm2dot.dfy | the scan of state, event and transition declarations, the wildcard expansion against the vocabulary of the moment, the triple set and the DOT document |
| `Buffer` | buffer.dfy | `buffer_t` with its read/write cursors, search, consume-through-delimiter and compaction |
| `ReplyQueue` | reply_queue.dfy | the FIFO of reply buffers of `buffer_tailq.c` |
| `Fsm` | fsm.dfy | the state and event names of the session machine |
| `Protocol` | protocol.dfy | command-word extraction, the per-state command tables (the ordering rules of section 4.1.4 of RFC 5321), the 451 on a transition into ERROR, and `process_client` |
| `Handle` | handle.dfy | the command handlers of `handle.c` and the replies they queue (codes of section 4.2 of RFC 5321) |
| `Transaction` | transaction.dfy | the mail transaction: active flag, domain, reverse-path, recipients, first recipient, write status and commit |
| `Server` | server.dfy | the first-signal latch, the `wildcard` rule, worker pool initialisation, round-robin worker selection and client delegation |
| `Time` | time.dfy | `timeval` difference and the microsecond and millisecond conversions |
| `Maildir` | maildir.dfy | the Maildir path and its length guard, the prefixes `make_path` creates, and the paths of the file operations |
| `Context` | context.dfy | `context_t`, `context_init` with the UUID hex rendering, and `context_destroy` |
| `CText`, `Optional` | ctext.dfy, optional.dfy | C-string helpers (`strlen`, `strncmp` as a prefix test, `strncpy`, `tolower`, `snprintf` truncation) and the option type |

Conventions:
- A C buffer is a `seq<char>`, and its string content is the part before the first NUL (`CText.CStr`).
- A pointer into a buffer is an index. `buffer_end` is the index `|data|`.
- A C function that returns -1 or NULL on failure returns `None`, or a status next to the new state.
- The session machine `smtp_server_step` is generated into `fsm.h`, which is not part of this model. It is the function parameter `Protocol.Machine`.
- The handlers take what `parse.c` extracts (a domain, a reverse-path or a forward-path) as an `Option` parameter, because the patterns that parser uses are not part of this model.

Four points where the source behaves differently from its own documentation or from what its callers assume:
- A transition record needs both a `tst` and a `tev` field; only `next` is optional. This is what the transition pattern requires (`doc/utils/fsm2dot.py` lines 8-14), so the model follows it.
- `transaction_init` always returns 0, so `context_init` never takes its clean-up branch.
- `process_client` returns 0, not an error, when the first `gettimeofday` fails.
- The blanks before a command are skipped in every session state, message text included (`src/protocol.c` lines 372-380). `handle_data` then writes from the shifted read cursor, so a message line loses its leading spaces and tabs, and a line `" ."` ends the message. The model does the same (`Protocol.SkipBlanks`, `Handle.HandleData`).

## Model

| member | source | states |
|---|---|---|
| FsmToDot.Split | doc/utils/fsm2dot.py:43 | `split(',')` always gives at least one piece |
| FsmToDot.JoinSplit | doc/utils/fsm2dot.py:43-45 | joining the pieces `split(',')` produces gives back the declared text, so the split loses nothing |
| FsmToDot.StripLeftSpec | doc/utils/fsm2dot.py:43-45 | `lstrip` removes exactly the leading white space: the result is a suffix, everything cut is white space and the result does not start with white space |
| FsmToDot.StripRightSpec | doc/utils/fsm2dot.py:43-45 | `rstrip` removes exactly the trailing white space |
| FsmToDot.StripSlice | doc/utils/fsm2dot.py:43-45 | `strip` keeps the slice between the outer white space, and what remains neither starts nor ends with white space |
| FsmToDot.Sources | doc/utils/fsm2dot.py:53-56 | a `*` source stands for the current states minus `done` and `invalid`; a literal source stands for itself |
| FsmToDot.Events | doc/utils/fsm2dot.py:57-60 | a `*` event stands for every event declared so far; a literal event stands for itself |
| FsmToDot.Expand | doc/utils/fsm2dot.py:50-71 | a triple is produced exactly when its source, event and target come from the resolved sets, and a missing `next` becomes a self-loop on each source |
| FsmToDot.Spaced | doc/utils/fsm2dot.py:21-22 | underscores become spaces, no underscore remains, and every other character is kept in place |
| FsmToDot.Norm | doc/utils/fsm2dot.py:21-22 | the display form is the spaced name between double quotes |
| FsmToDot.Render | doc/utils/fsm2dot.py:24-32 | printing a relation in any iteration order gives the header first, the footer last and, between them, the edge line of each triple in that order |
| FsmToDot.EdgeLine | doc/utils/fsm2dot.py:28-29 | an edge line starts with the source's display form and ends with a line break |
| FsmToDot.EdgeLineSingle | doc/utils/fsm2dot.py:28-29 | with names free of line breaks, an edge line holds exactly one line break |
| FsmToDot.EdgesLines | doc/utils/fsm2dot.py:73-74 | with names free of line breaks, the edges printed for `n` triples are exactly `n` lines |
| FsmToDot.RenderHasEveryEdge | doc/utils/fsm2dot.py:72-75 | every triple of the relation has its edge line between the header and the footer |
| FsmToDot.RenderLineCount | doc/utils/fsm2dot.py:72-75 | with names free of line breaks, the text between header and footer holds exactly one line per triple of the relation |
| FsmToDot.EnumerationSize | doc/utils/fsm2dot.py:73-74 | an iteration that lists every triple once has exactly as many lines as the set has triples |
| FsmToDot.RunEmpty | doc/utils/fsm2dot.py:35-37 | before any line the states are `init`, `done` and `invalid`, and there are no events and no triples |
| FsmToDot.StepPriority | doc/utils/fsm2dot.py:39-47 | a line changes at most one accumulator, with priority state, then event, then transition; other lines change nothing |
| FsmToDot.RedeclarationIsNoOp | doc/utils/fsm2dot.py:43 | declaring states that are already known changes nothing |
| FsmToDot.DeclarationIdempotent | doc/utils/fsm2dot.py:43-45 | declaring the same list twice equals declaring it once, for states and for events |
| FsmToDot.FoldMonotone | doc/utils/fsm2dot.py:38-71 | states, events and triples only grow during the scan |
| FsmToDot.FoldAppend | doc/utils/fsm2dot.py:38-71 | scanning `a + b` is scanning `a`, then `b` from where `a` left off |
| FsmToDot.ExpansionUsesCurrentVocabulary | doc/utils/fsm2dot.py:38-71 | a rule adds the expansion against the vocabulary of the lines before it, and adds no states |
| FsmToDot.DeclarationsAddNoTriples | doc/utils/fsm2dot.py:42-45 | lines that are not transition records never add a triple |
| FsmToDot.LaterDeclarationsDoNotReachBack | doc/utils/fsm2dot.py:38-71 | declarations after a rule never add triples for that rule |
| FsmToDot.SplitNoSeparator | doc/utils/fsm2dot.py:43 | a piece without commas splits into itself |
| FsmToDot.SplitFirst | doc/utils/fsm2dot.py:43 | a comma-free head splits off as the first piece |
| FsmToDot.NamesOfPairText | doc/utils/fsm2dot.py:43 | `a,b` declares the stripped `a` and the stripped `b` |
| FsmToDot.NamesOfOne | doc/utils/fsm2dot.py:43 | a plain name declares exactly itself |
| FsmToDot.NamesOfPair | doc/utils/fsm2dot.py:43 | `a, b` declares exactly `a` and `b` when both are plain names |
| FsmToDot.StripPlain | doc/utils/fsm2dot.py:43 | a name with no outer white space strips to itself, also after one leading blank |
| FsmToDot.RunTwo | doc/utils/fsm2dot.py:38-71 | a two-line scan is two steps from the initial scan |
| FsmToDot.RunThree | doc/utils/fsm2dot.py:38-71 | a three-line scan is three steps from the initial scan |
| FsmToDot.OrderMatters | doc/utils/fsm2dot.py:38-71 | a wildcard-source rule covers a state declared before it and does not cover the same state declared after it |
| FsmToDot.LiteralRule | doc/utils/fsm2dot.py:53-71 | a rule without wildcards denotes exactly its one triple, whatever the vocabulary |
| FsmToDot.MissingTargetIsSelfLoop | doc/utils/fsm2dot.py:61-69 | a literal rule without `next` denotes exactly the self-loop on its source |
| FsmToDot.WildcardSourceSkipsTerminals | doc/utils/fsm2dot.py:53-54 | a triple from any rule has a known source; a wildcard-source triple never starts at `done` or `invalid` |
| FsmToDot.WildcardTargetKeepsTerminals | doc/utils/fsm2dot.py:61-62 | a `*` target reaches every current state, `done` and `invalid` included, and nothing else |
| FsmToDot.WildcardEventBeforeEvents | doc/utils/fsm2dot.py:57-58 | a `*` event denotes no triple while no event is declared |
| FsmToDot.DuplicateRulesCollapse | doc/utils/fsm2dot.py:37-71 | the same triple from two rules is one element of the relation |
| FsmToDot.DeclareThenWildcard | doc/utils/fsm2dot.py:38-71 | two declarations and a wildcard-source rule give an edge from every non-terminal state to the target |
| FsmToDot.EndToEndExample | doc/utils/fsm2dot.py:34-71 | the `running`/`stopped` example gives edges from `init`, `running` and `stopped` to `running`, labelled `start` |
| FsmToDot.RenderEmpty | doc/utils/fsm2dot.py:72-75 | with no triples the document is the header followed by the footer |
| FsmToDot.NoDeclarationsRenderEmpty | doc/utils/fsm2dot.py:34-75 | an input without declarations leaves the initial scan and renders as header and footer only |
| FsmToDot.NoiseFold | doc/utils/fsm2dot.py:38-47 | noise lines leave the scan as it was |
| FsmToDot.DisplayDoesNotDeduplicate | doc/utils/fsm2dot.py:21-74 | `a_b` and `a b` are different triples that print the same edge line, so the display form does not deduplicate |
| Buffer.Init | src/buffer.c:6-25 | a fresh buffer has both cursors at 0, the requested size and every byte zero |
| Buffer.Allocate | src/buffer.c:6-25 | the result is a fresh buffer exactly when `malloc` succeeds |
| Buffer.ResetRead | src/buffer.c:34-38 | only the read cursor goes back to 0 |
| Buffer.ResetWrite | src/buffer.c:40-44 | only the write cursor goes back to 0 |
| Buffer.Reset | src/buffer.c:46-50 | both cursors go back to 0 and the bytes stay |
| Buffer.Space | src/buffer.c:123-128 | the free bytes and the write cursor add up to the size |
| Buffer.Left | src/buffer.c:130-135 | the read cursor plus the unread bytes is the write cursor |
| Buffer.ShiftRead | src/buffer.c:137-142 | the read cursor advances by the shift and nothing else changes |
| Buffer.ShiftWrite | src/buffer.c:144-149 | the write cursor advances by the shift and nothing else changes |
| Buffer.Write | src/buffer.c:151-158 | the bytes land at the old write cursor, the cursor advances past them, all other bytes are kept, and the unread input gains exactly those bytes at its end |
| Buffer.WriteString | src/buffer.c:160-164 | the unread input gains the string's bytes without its NUL |
| Buffer.Search | src/buffer.c:166-194 | the result is the first match at or after the start index, or none when no index matches |
| Buffer.Find | src/buffer.c:166-194 | the result is the first match in the unread bytes, or the end sentinel when there is none; it is always the sentinel when the pattern is longer than the unread bytes |
| Buffer.FindLoop | src/buffer.c:166-194 | the nested C loop computes the same index as `Find` |
| Buffer.MatchLength | src/buffer.c:182-186 | the inner comparison stops at the first character where the data differs from the pattern, or after the whole pattern |
| Buffer.SearchStep | src/buffer.c:172-190 | one round of the outer loop either stops at a full match or moves the search one index on |
| Buffer.ShiftReadAfter | src/buffer.c:196-209 | not found gives -1 with the buffer kept; found moves the read cursor just past the first match |
| Buffer.DropRead | src/buffer.c:211-224 | the unread bytes move to the start unchanged, the read cursor is 0, the write cursor is the old unread count, and the rest is zero |
| Buffer.InitIsEmpty | src/buffer.c:6-25 | a fresh buffer has no unread bytes and all its bytes free |
| Buffer.ShiftReadKeepsOrder | src/buffer.c:137-142 | the cursor order survives a shift exactly when it consumes no more than the unread bytes |
| Buffer.WriteThenUnread | src/buffer.c:151-158 | writing into a fresh buffer and reading back gives the written bytes, and the free space shrinks by their count |
| Buffer.DropReadFreesConsumed | src/buffer.c:211-224 | compaction frees the consumed bytes, and compacting twice is compacting once |
| Buffer.LineEnd | src/buffer.c:166-194 | the first CRLF of `line + CRLF + rest` ends `line` when `line` holds no CRLF |
| Buffer.ConsumeLine | src/buffer.c:196-209 | consuming through CRLF removes exactly one line and leaves `rest` |
| ReplyQueue.Replies | src/buffer_tailq.h:26-27 | the queue's texts are the unread bytes of its buffers, front first |
| ReplyQueue.Init | src/buffer_tailq.c:6-10 | a new queue holds no reply |
| ReplyQueue.PushBack | src/buffer_tailq.c:25-47 | success exactly when both allocations succeed; the old entries are kept and one full buffer holding exactly the data is appended |
| ReplyQueue.PushBackString | src/buffer_tailq.c:49-53 | the string's bytes without the NUL are appended |
| ReplyQueue.Front | src/buffer_tailq.c:55-59 | the head entry, or NULL exactly on an empty queue |
| ReplyQueue.PopFront | src/buffer_tailq.c:61-68 | exactly the head is removed and the rest keeps its order |
| ReplyQueue.Destroy | src/buffer_tailq.c:12-23 | the queue ends empty |
| ReplyQueue.PushBackAppends | src/buffer_tailq.c:25-47 | a push appends its text to the replies and keeps the queue valid |
| ReplyQueue.PopFrontRemovesOldest | src/buffer_tailq.c:55-68 | the front is the oldest reply and a pop removes exactly it |
| ReplyQueue.PushPopCommute | src/buffer_tailq.c:25-68 | on a non-empty queue, pushing then popping equals popping then pushing |
| ReplyQueue.FirstInFirstOut | src/buffer_tailq.c:25-68 | two pushes leave in the order they came, and then the queue is empty |
| Fsm.EventString | src/protocol.c:9-35 | every event has a printable name, `undefined` for the timeout event the switch does not list |
| Fsm.StateString | src/protocol.c:37-61 | every state has its printable name |
| Fsm.StateNamesDistinct | src/protocol.c:37-61 | different states print differently |
| Fsm.EventNamesDistinct | src/protocol.c:9-35 | different listed events print differently |
| CText.Strlen | src/protocol.c:189 | the length is the index of the first NUL, or the whole buffer when there is none, and no NUL comes before it |
| CText.CStr | src/maildir.c:42 | the string content is the NUL-free prefix that ends at the first NUL |
| CText.ToLower | src/protocol.c:66 | upper-case ASCII letters move to lower case and every other character is kept |
| CText.LowerAll | src/protocol.c:63-68 | every character is lower-cased in place and the length is kept |
| CText.Snprintf | src/maildir.c:60 | the output is the longest prefix of the text that fits with its NUL, and is the whole text exactly when it fits |
| CText.Strchr | src/maildir.c:49-54 | the first occurrence of the character, or none exactly when it does not occur |
| CText.StrNEqualIsPrefix | src/protocol.c:188-197 | `strncmp(command, name, strlen(name)) == 0` holds exactly when the command starts with the name |
| CText.StringToLower | src/protocol.c:63-68 | at most `max_length` characters are lower-cased, stopping at the first NUL; the rest is untouched and the string length is kept |
| CText.StringToLowerLoop | src/protocol.c:63-68 | the C loop computes the same buffer |
| CText.StrNCopy | src/protocol.c:386 | the copy holds the source's content up to `n` characters and is NUL-padded to `n` |
| Protocol.Name | src/protocol.h:7-16 | every command word is three or four NUL-free characters, so it fits the COMMAND_SIZE buffer |
| Protocol.WordKeysDistinct | src/protocol.h:7-16 | two different command words differ in their first two characters |
| Protocol.FirstMatch | src/protocol.c:184-201 | no match exactly when no listed word starts the command; otherwise a listed word that does |
| Protocol.Lookup | src/protocol.c:184-203 | the accepted list is searched first, then the out-of-sequence list; the command is unrecognized exactly when neither matches |
| Protocol.Dispatch | src/protocol.c:207-411 | a command gets an action in every state with a table and in WAIT_MORE_DATA, and in no other state |
| Protocol.WordsExclusive | src/protocol.h:7-16 | no command can start with two different command words |
| Protocol.MatchOfWord | src/protocol.c:184-201 | for a command starting with a known word, the search finds that word exactly when it is listed |
| Protocol.AcceptedListed | src/protocol.c:207-329 | every word a state accepts is in its accepted table |
| Protocol.RejectedListed | src/protocol.c:207-329 | every word a state does not accept is in its out-of-sequence table |
| Protocol.KnownWordsAreOrdered | src/protocol.c:184-329 | a known word runs its handler in the states that accept it and gets 503 in every other state with a table |
| Protocol.DataOnlyAfterRecipient | src/protocol.c:216-324 | DATA is accepted only in WAIT_RCPT_OR_DATA and is out of sequence in every other table |
| Protocol.GreetingFirst | src/protocol.c:207-228 | in WAIT_EHLO only EHLO, HELO, NOOP and RSET are accepted; the other known words get 503 |
| Protocol.UnknownIsUnrecognized | src/protocol.c:184-203 | a command starting with no known word gets 500 in every state with a table |
| Protocol.MessageTextNeverRejected | src/protocol.c:299-306 | in WAIT_MORE_DATA a line starting with ".\r\n" fires data_end and any other line fires more_data |
| Protocol.HandleEvent | src/protocol.c:70-80 | the state becomes the machine's next state; -1 exactly when that is ERROR, and then "451" is queued |
| Protocol.RunAction | src/protocol.c:82-177 | a handler that fires an event runs the machine; NOOP, VRFY and the rejections consume one line and queue their reply without touching state or transaction |
| Protocol.SkipBlanks | src/protocol.c:372-378 | the result is the first index before the line end that is not space, tab, CR or LF, and everything skipped is blank |
| Protocol.CommandWord | src/protocol.c:386-388 | the command is no longer than the copied characters, holds no NUL and no upper-case letter |
| Protocol.CommandWordIsLowered | src/protocol.c:386-388 | `strncpy`, the terminating NUL and `string_to_lower` leave in the command buffer exactly the lower-cased content of the copied characters |
| Protocol.CommandLength | src/protocol.c:382-384 | the command takes at least one and at most COMMAND_SIZE - 1 characters, ending no later than just after the CRLF |
| Protocol.ExtractCommand | src/protocol.c:359-389 | nothing happens until a CRLF is buffered; then the read cursor moves past the blanks, only the input and the command change, and the command is lower case |
| Protocol.CommandOfLine | src/protocol.c:359-389 | a line after blanks yields the lower-cased first four characters of `line + CRLF` as the command, and leaves `line + CRLF + rest` as the input |
| Protocol.PrefixSurvivesCopy | src/protocol.c:386-388 | a word without NUL that starts the lower-cased line still starts the command after the copy, the cut at the first NUL and the lower-casing |
| Protocol.LineDispatched | src/protocol.c:184-389 | a line whose lower-cased start spells a known word is dispatched as that word, accepted or answered 503 by the state's table |
| Protocol.ProcessClient | src/protocol.c:331-412 | INIT fires BEGIN and DONE does nothing; a failing clock reading changes nothing; a timeout fires TIMEOUT before any parsing; without a complete line nothing changes; a failing second clock reading gives -1; otherwise the command (the old one during a wait transition) is run as the state's table dispatches it, with the new action time |
| Protocol.ReceivedLineRuns | src/protocol.c:331-412 | a session in time given a line with a known word runs that word, or answers 503, on the input that follows the command's blanks |
| Protocol.MessageLineRuns | src/protocol.c:299-306 | in WAIT_MORE_DATA, a session in time fires data_end for a command starting with ".\r\n" and more_data for any other |
| Protocol.UnknownLineAnswered | src/protocol.c:184-203 | a fresh command that starts with no known word keeps state and transaction, and succeeds exactly when the line is consumed and "500" is queued |
| Handle.ConsumeLine | src/handle.c:67-69 | the line is consumed exactly when a CRLF is buffered, and the read cursor moves past it |
| Handle.CompactIfFull | src/handle.c:71-73 | compaction keeps the unread input |
| Handle.Push | src/buffer_tailq.h:26-27 | queueing succeeds exactly when allocation does, and then the reply is appended |
| Handle.Answer | src/handle.c:47-81 | the handler's result exactly when the line is consumed and the reply queued, ERROR otherwise; the transaction is untouched |
| Handle.HandleBegin | src/handle.c:6-14 | "220 Service ready" is queued and the result is SUCCEED, with the input untouched |
| Handle.HandleEhlo | src/handle.c:16-45 | an active transaction is rolled back; the domain is replaced only when one was parsed, and becomes NULL when its copy fails; SUCCEED exactly when the copy, the line and "250 Ok" all succeed |
| Handle.HandleRset | src/handle.c:47-63 | an active transaction is rolled back (write cancelled, header, reverse-path and recipients dropped) and an inactive one kept; the domain stays; SUCCEED exactly when the line is consumed and "250 Ok" queued |
| Handle.HandleVrfy | src/handle.c:65-81 | one line is consumed and 502 queued, with the transaction untouched |
| Handle.HandleMail | src/handle.c:83-127 | without a reverse-path: 555 and FAILED with the transaction untouched; with one: an active transaction with no recipients and no first recipient, holding the reverse-path when its copy succeeds; SUCCEED exactly when the copy, the line and "250 Ok" all succeed |
| Handle.HandleRcpt | src/handle.c:129-167 | without a forward-path: 555 and FAILED; a failed copy leaves the transaction and gives ERROR; otherwise exactly one recipient is added at the head of the list, the first recipient is recorded only when there was none, and the reverse-path and activity stay |
| Handle.HandleDataBegin | src/handle.c:169-202 | the first call waits exactly when a line is consumed and the header write starts, and the transaction is then the one `transaction_add_header` leaves; a later call with the write done clears the flag and queues 354, and a running write keeps waiting |
| Handle.HandleData | src/handle.c:204-241 | a first call waits exactly when a CRLF is buffered and the whole line, CRLF included, is handed to the message write, and the transaction is then the one that write leaves; without a CRLF it is ERROR with nothing changed; a later call clears the flag once the write is done; nothing is queued |
| Handle.HandleDataEnd | src/handle.c:243-273 | commit done clears the flag, consumes the line and queues "250 Ok"; commit waiting sets the flag and waits; anything else is ERROR |
| Handle.HandleQuit | src/handle.c:275-291 | one line is consumed and 221 queued |
| Handle.HandleInvalid | src/handle.c:293-309 | one line is consumed and 451 queued |
| Handle.ReplyShape | src/handle.c:10 | a reply built from a code is a reply line with that code |
| Handle.RepliesWellFormed | src/handle.c:6-309 | each reply the handlers queue is a well-formed reply line with its code (220, 250, 502, 555, 354, 221, 451) |
| Handle.AnswerTakesOneLine | src/handle.c:67-69 | with one CRLF-terminated line buffered, an answering handler takes exactly that line |
| Handle.DataBeginTwoPhases | src/handle.c:169-202 | DATA first waits for the header write, and then the second call queues 354 and stops waiting |
| Handle.DataBeginOpensMessage | src/handle.c:187-201 | on a transaction with no write yet, the first DATA call consumes its line, stores the header, opens the message file and waits |
| Handle.DataBeginConfirms | src/handle.c:171-179 | once the header is written, the second DATA call queues 354 and stops waiting, with the transaction kept |
| Handle.MessageLineSubmitted | src/handle.c:223-240 | a line of text after a finished write is submitted to the same message file and the session waits, with nothing queued |
| Handle.MessageLineConfirmed | src/handle.c:208-215 | once that write is done, the second call succeeds and stops waiting |
| Handle.DataEndCommits | src/handle.c:243-273 | the "." line commits a finished write: the transaction ends with its file closed, the line is consumed and "250 Ok" queued |
| Handle.EnvelopeReadyForData | src/handle.c:83-167 | MAIL and one RCPT leave an active transaction with that recipient, no header and no write |
| Handle.DataPhase | src/handle.c:169-202 | the two DATA calls write the header to a new message file and queue 354 |
| Handle.TextPhase | src/handle.c:204-241 | the two calls for a text line write it to the message file and let the session read on |
| Handle.MessageSession | src/handle.c:169-273 | DATA, a text line and "." write the header and then the line to one message file and deliver it; the client sees 354 then "250 Ok", the transaction ends, and exactly the three lines are consumed |
| Handle.RsetDiscardsEnvelope | src/handle.c:47-63 | RSET drops the envelope of an active transaction so that a following MAIL starts from its own reverse-path only, and keeps an inactive transaction |
| Handle.RejectionsKeepTransaction | src/handle.c:87-145 | a rejected MAIL or RCPT leaves the transaction as it was |
| Handle.MailThenRecipients | src/handle.c:83-167 | MAIL then two RCPTs with successful copies leave an active transaction with both recipients, newest first, and the first accepted as first recipient, whatever the reply queue does |
| Transaction.Init | src/transaction.c:345-365 | inactive, with nothing set, no recipients and no write |
| Transaction.ResetData | src/transaction.c:453-465 | the write channel is reset and every other field is kept |
| Transaction.Begin | src/transaction.c:513-529 | requires an inactive transaction; afterwards it is active, with no header, reverse-path or recipients, and the domain is kept |
| Transaction.Rollback | src/transaction.c:376-388 | inactive, with header, reverse-path and recipients dropped; the domain and the stale first recipient are kept |
| Transaction.SetDomain | src/transaction.c:390-413 | the domain is replaced; a failed copy leaves no domain |
| Transaction.SetReversePath | src/transaction.c:390-419 | requires no reverse-path; sets it, or changes nothing when the copy fails |
| Transaction.AddForwardPath | src/transaction.c:421-451 | the recipient goes first in the list and becomes the first recipient only when there is none; a failed allocation changes nothing |
| Transaction.GetWriteStatus | src/transaction.c:133-164 | no descriptor means the write has not started; otherwise running, done or error as the AIO reports |
| Transaction.AddDataStatus | src/transaction.c:482-493 | not started or done map to DONE, waiting to WAIT, and error to ERROR |
| Transaction.DumpData | src/transaction.c:186-211 | a running write waits; a failed one is aborted; a finished one submits the next chunk; the first chunk opens the file first |
| Transaction.AddData | src/transaction.c:467-480 | the result is the size when submitted, 0 while waiting and -1 on error |
| Transaction.AddHeader | src/transaction.c:495-511 | no header gives failure with nothing changed; otherwise the header is stored and the write state is exactly that of writing the header as the first chunk |
| Transaction.Commit | src/transaction.c:531-577 | an inactive transaction is an error; done exactly when the write finished, the file closed and moved to the first recipient, and linked for the other recipients when there are any; then the transaction ends |
| Transaction.Reverse | src/transaction.c:421-451 | reversing keeps the length |
| Transaction.AddAllKeepsFirst | src/transaction.c:421-451 | a run of RCPTs lists the recipients newest first and keeps the first recipient the earliest |
| Transaction.FirstRecipientOfTransaction | src/transaction.c:421-529 | after begin and a run of recipients, the first recipient is the first one added |
| Transaction.ReverseLast | src/transaction.c:421-451 | the last element of the reversed list is the first added |
| Transaction.Destroy | src/transaction.c:367-374 | header, domain, reverse-path and recipients are freed; the descriptor becomes -1 exactly when the write was pending, finished or never started (a failed write's descriptor stays open); the active flag and the first recipient are kept |
| Transaction.DestroyAgreesWithRollback | src/transaction.c:367-388 | destroying equals rolling back with the domain also dropped and the active flag kept, and with the descriptor kept open after a failed write |
| Transaction.RollbackThenBegin | src/transaction.c:376-529 | rollback then begin equals a fresh begin apart from the remembered domain |
| Transaction.RollbackLeavesStaleFirst | src/transaction.c:376-388 | after a rollback the first recipient no longer belongs to the empty list, until the next begin |
| Transaction.DomainKept | src/transaction.c:376-577 | begin, rollback and commit keep the domain |
| Transaction.CommitThenBegin | src/transaction.c:531-577 | a successful commit ends the transaction, so a new one may begin |
| Transaction.NoWriteIsDone | src/transaction.c:133-493 | with no write started, every status query reports DONE |
| Server.SetDone | src/server.c:12-17 | the first SIGTERM or SIGINT is latched and later or other signals change nothing |
| Server.Deliver | src/server.c:12-17 | once latched, no signal changes the latch, and the latch only ever holds its start value or one of the delivered signals |
| Server.FirstStop | src/server.c:12-17 | the first stopping signal of a run is 0 or one of the run's signals |
| Server.LatchKeepsFirst | src/server.c:12-17 | after any run of signals the latch holds the first stopping signal |
| Server.Wildcard | src/server.c:24-37 | NULL, empty, or an address starting with one of `-?*:` becomes NULL; any other address is kept |
| Server.WildcardExamples | src/server.c:24-37 | `*`, `-`, the empty address and `::1` mean any address; `0.0.0.0` is kept |
| Server.Offset | src/server.c:225-230 | the index `k + 1` places after the current one, wrapping around |
| Server.Distance | src/server.c:225-230 | the inverse of `Offset` |
| Server.DistanceOffset | src/server.c:225-230 | `Distance` undoes `Offset` |
| Server.Scan | src/server.c:228-230 | the first running worker in cyclic order from an offset, or none when none runs |
| Server.SelectWorker | src/server.c:223-242 | NULL exactly when no worker runs, and then the cursor goes to the last index; otherwise the first running worker after the cursor, which becomes the cursor |
| Server.SelectWorkerLoop | src/server.c:223-242 | the C loop selects as `SelectWorker` does |
| Server.Wrap | src/server.c:226-229 | the `% size` step of the loop wraps only at the size |
| Server.LastOffset | src/server.c:225-230 | the scan reaches the current worker only at its last offset |
| Server.RoundRobin | src/server.c:223-242 | with every worker running, selection takes the next one in turn |
| Server.InitPoolAsWritten | src/server.c:47-85 | size 0 or a failed `calloc` gives -1 without destroying anything |
| Server.InitSlotsAsWritten | src/server.c:62-76 | as written, the pool is ready exactly when every worker after slot 0 starts; a failure destroys one slot, the failing one, which is never slot 0 |
| Server.FirstFailureIgnored | src/server.c:62-76 | as written, a failing first worker still gives a ready pool with a zero-filled slot that reads as running |
| Server.LaterFailureLeaksStarted | src/server.c:62-76 | as written, a failing second worker destroys only its own slot and leaves the first worker running |
| Server.Range | src/server.c:66-68 | the indices 0 to n - 1 in order |
| Server.InitSlots | src/server.c:62-76 | corrected, the pool is ready exactly when every worker starts; a failure at slot `f` destroys slots 0 to `f - 1` |
| Server.InitPool | src/server.c:47-85 | size 0 or a failed `calloc` gives -1 without destroying anything |
| Server.InitSlotsSpec | src/server.c:55-82 | the corrected pool is ready exactly when every worker started, and otherwise every worker before the first failure is destroyed |
| Server.InitPoolReady | src/server.c:47-85 | a pool of started workers is ready, holds them and has the cursor on the last slot, so the first selection starts at slot 0 |
| Server.InitPoolFailureCleansUp | src/server.c:62-76 | in the corrected pool a failure destroys every worker started before it |
| Server.RunningCount | src/server.c:244-266 | the running workers are at most all of them |
| Server.BreakLowersCount | src/server.c:244-266 | marking a running worker broken lowers the running count by one |
| Server.DelegateClient | src/server.c:244-266 | ends with 0 and a running worker whose send succeeded, or with -1 when no worker runs; only the workers whose send failed change, and they become broken |
| Time.CeilDiv | src/time.c:28-32 | division rounded toward positive infinity |
| Time.Diff | src/time.c:9-21 | the difference borrows at most one second, and normalised inputs give a normalised difference |
| Time.ToUsec | src/time.c:23-26 | a normalised value is recovered from its microseconds by division and remainder |
| Time.ToMsec | src/time.c:28-32 | the milliseconds are the microseconds rounded up to a whole millisecond |
| Time.UtimevalDiff | src/time.c:34-38 | the microsecond difference is exactly the difference of the microsecond values |
| Time.MtimevalDiff | src/time.c:40-44 | the millisecond difference is the exact microsecond difference rounded up to a whole millisecond |
| Time.CeilDivShift | src/time.c:28-32 | shifting by whole thousands commutes with rounding up |
| Time.MillisecondsRoundUp | src/time.c:28-44 | the millisecond difference is the microsecond difference rounded up |
| Time.TimeoutThreshold | src/protocol.c:349-353 | the rounded-up millisecond duration exceeds `timeout` exactly when more than `timeout` times 1000 microseconds have passed |
| Time.ElapsedNonNegative | src/time.c:9-44 | between two ordered clock readings no negative time elapses |
| Maildir.SlashPrefixesSpec | src/maildir.c:22-35 | the collected prefixes are exactly those ending just before a '/', shortest first |
| Maildir.Trimmed | src/maildir.c:9-20 | the result is a prefix of the path that fits the buffer; a path that fits loses exactly its trailing '/', if it has one |
| Maildir.MakePathTargets | src/maildir.c:7-38 | the last `mkdir` target is the trimmed path itself |
| Maildir.MakePath | src/maildir.c:7-38 | failure exactly when some `mkdir` of a parent or of the path fails for a reason other than "exists"; otherwise the outcome of the last `mkdir`, that of the trimmed path |
| Maildir.RunMkdirs | src/maildir.c:22-37 | failure exactly when some `mkdir` fails for a reason other than "exists"; otherwise the outcome of the last one |
| Maildir.MaildirPath | src/maildir.c:56-62 | the path is as long as base, recipient and `/Maildir` together plus one |
| Maildir.MaildirInitAsWritten | src/maildir.c:40-83 | as written, success exactly when the length guard passes, the recipient has an '@' and every subdirectory `make_path` succeeds, and then the path is `base/domain/local/Maildir` |
| Maildir.MaildirInit | src/maildir.c:40-83 | with the corrected guard, success exactly when the guard passes, the recipient has an '@' and every subdirectory is made, with the same path and subdirectory paths that are never cut |
| Maildir.CreateFile | src/maildir.c:85-102 | the file opened is `<dir>/tmp/<name>` cut to the buffer, and exactly that path when it fits |
| Maildir.RemoveFile | src/maildir.c:104-119 | the file removed is the one `CreateFile` opens, `<dir>/tmp/<name>` when it fits |
| Maildir.MoveToNew | src/maildir.c:121-143 | the file created in `tmp` is renamed to `<dir>/new/<name>` |
| Maildir.CloneFile | src/maildir.c:145-168 | the source's `new` file is linked as the destination's `new` file |
| Maildir.PathFits | src/maildir.c:44-62 | whenever the guard passes, the path and its NUL fit the buffer |
| Maildir.PathLayout | src/maildir.c:49-62 | the path is `base/domain/local/Maildir`, split at the first '@' |
| Maildir.NoAtRejected | src/maildir.c:49-54 | a recipient without '@' never gets a Maildir |
| Maildir.MakePathOrder | src/maildir.c:16-37 | `make_path` creates the parents before the child: each '/'-terminated prefix, shortest first, then the path |
| Maildir.MakePathFlat | src/maildir.c:22-37 | a path with no inner '/' is made by one `mkdir` |
| Maildir.SlashPrefixesNone | src/maildir.c:22-35 | a text without '/' has no prefixes to create |
| Maildir.FileNameKept | src/maildir.c:121-168 | when nothing is cut, moving and cloning keep the file name |
| Maildir.SubdirectoryCut | src/maildir.c:44-79 | the guard as written admits paths whose subdirectory paths are cut back to the Maildir path itself |
| Maildir.SubdirectoryCutExample | src/maildir.c:44-79 | "a@b" under a 243-character base passes the written guard with a 255-character path and, with every `mkdir` succeeding, is reported ready while its `tmp` path is cut back to the Maildir path itself, while the corrected guard rejects it |
| Context.HexDigit | src/context.c:35-37 | a digit of `%x` is a lower-case hex digit |
| Context.HexValue | src/context.c:35-37 | the value of a lower-case hex digit is below 16 |
| Context.HexDigitValue | src/context.c:35-37 | reading a hex digit back gives its value |
| Context.HexByte | src/context.c:36 | `%02x` prints two digits |
| Context.Hex | src/context.c:35-37 | two digits per byte |
| Context.HexDigitsAt | src/context.c:35-37 | byte `i` is printed high digit first at positions `2i` and `2i + 1` |
| Context.UuidString | src/context.c:31-39 | byte `i` as two lower-case digits at `2i` and `2i + 1`, a NUL at the end, and the content is the 32 digits |
| Context.CStrOfTerminated | src/context.c:39 | a NUL-terminated NUL-free text is its own content |
| Context.HexHasNoNul | src/context.c:35-37 | the digits hold no NUL |
| Context.UnhexHex | src/context.c:35-37 | reading the digits back gives the bytes |
| Context.UuidRoundTrip | src/context.c:31-39 | the session identifier decodes back to the generated UUID |
| Context.ContextInit | src/context.c:10-48 | success exactly when the buffer allocation and the clock succeed; then state INIT, no wait, socket and settings stored, last action at the start time, empty input and queue, an inactive transaction and the UUID string |
| Context.ContextDestroy | src/context.c:50-78 | the reply queue is emptied and the transaction is destroyed (Transaction.Destroy); the other fields are kept |
| Context.DestroyDrains | src/context.c:67-75 | a destroyed session has no reply left to send and no envelope, and its message file is closed unless the write had failed |

## Left out

- I/O of every kind is replaced by outcome parameters. This covers socket reads and writes, `mkdir`/`open`/`rename`/`link`/`remove`, `gettimeofday`, `uuid_generate` and the AIO write with its `aio_error`/`aio_return`.
- Allocation failures are parameters. Memory ownership is not modelled: `free`, leaks, and the buffer `context_init` leaks when the clock fails.
- `buffer_destroy`, `buffer_begin`/`buffer_read_begin`/`buffer_write_begin`/`buffer_end`: pointer accessors, which are indices here.
- `buffer_resize`: its allocation behaviour does not keep the contents consistently, and nothing in this model calls it.
- The 3-argument calls `handle.c` makes to `buffer_find`/`buffer_shift_read_after` do not match `buffer.h`. They are modelled with the 2-argument meaning of `buffer.c`.
- `smtp_server_step` and `fsm.h` are generated and not part of this model. The step is a parameter, and the only assumption is that it keeps a context well formed (`Protocol.KeepsValid`).
- `parse.c`: its regular expressions are not part of this model. The parse results are parameters of the handlers.
- `generate_filename` and `generate_header` (host names, time, pid, random numbers): the header is a parameter, and the file name does not appear.
- `worker.c`, `log.c`, `settings.c`, `signal_handle.c` and `main.c`: process plumbing. The logging calls are dropped; `worker_init` and `worker_send_socket` are oracle parameters.
- `server_run`, `make_listen_socket`, `bind_socket`, `accept_connection`, `reinit_bad_workers` and `serve_listen_socket`: socket set-up and the accept loop.
- The regular expressions of `fsm2dot.py` are not matched as text. A line is given by what each pattern captured (`FsmToDot.RawLine`). The edge order of set iteration is a parameter of `FsmToDot.Render`.
- Integer widths: `size_t`, `ssize_t` and `long long` are unbounded integers. The `double` and `ceil` of `timeval_to_msec` are integer ceiling division, which is exact for the microsecond values `gettimeofday` produces.
- `snprintf` returning a negative value, which the sources check for, is not modelled. Only its truncation is.
- Protocol.RunAction: one allocation outcome covers every push a single handler call makes.
- Protocol.ProcessClient: the command left from a previous call is reused during a wait transition. The command buffer `context_init` leaves uninitialised starts empty here.
- Protocol.Dispatch: the handler of a command word is fixed per word (`HandlerOf`), as in every table of the source; the tables only choose between accepting and rejecting.
- Transaction.AddData: a chunk of size 0 that is submitted gives 0, the same as waiting. The handlers never submit an empty chunk.
- Transaction.Destroy: the removal of the message file from `tmp` by `abort_write` is file-system I/O and is not modelled; only the descriptor it closes is.
- Transaction.Rollback: keeps `__first_recipient` pointing into the freed list, as the source does. The model keeps the value rather than a dangling pointer.
- Time.Diff: inputs are not required to be normalised. The borrow is modelled exactly as written.

## Findings

| source | as written | input that shows it | evidently intended | confidence | as-written member | corrected member |
|---|---|---|---|---|---|---|
| src/server.c:62-76 | when `worker_init` fails at slot `i`, the clean-up loop destroys `workers[i]` instead of `workers[j]`. At slot 0 the loop body never runs, so the `case -1` falls through into `case 0` and the pool is reported ready | size 2, the first `worker_init` failing: the pool is ready with a zero-filled slot that reads as a running worker on socket 0. Size 2, the second failing: the started first worker is left running | destroy every worker started before the failure and return -1 | not executed | Server.FirstFailureIgnored | Server.InitSlotsSpec |
| src/maildir.c:44-70 | the length guard leaves room for the Maildir path and its NUL but not for the `/tmp`, `/new` and `/cur` suffixes; `snprintf` then cuts the subdirectory paths | a 243-character base with recipient `a@b` passes the guard with a 255-character Maildir path; `snprintf` cuts each of `<path>/tmp`, `<path>/new` and `<path>/cur` back to the Maildir path itself, so `make_path` creates only that directory, `tmp`, `new` and `cur` are never created, and `maildir_init` still returns 0 | reserve room for the longest suffix `/tmp` in the guard | not executed | Maildir.SubdirectoryCutExample | Maildir.MaildirInit |

=== FILE: buffer.dfy ===
/**
 * The byte buffer of src/buffer.c: a block of `size` bytes with a read
 * cursor and a write cursor. The bytes between the cursors are the unread
 * input; the bytes after the write cursor are free space.
 *
 * Pointers into the block are modelled as indices; `buffer_end` is the
 * index `|data|`.
 */
module Buffer {
  import opened Optional
  import opened CText

  /** `buffer_t`; `|data|` is `__size`. */
  datatype Buffer = Buffer(data: seq<char>, readPos: nat, writePos: nat)

  /** The cursor order every operation keeps: read <= write <= size. */
  predicate Valid(b: Buffer) {
    b.readPos <= b.writePos <= |b.data|
  }

  /** The bytes written and not yet consumed. */
  function Unread(b: Buffer): seq<char>
    requires Valid(b)
  {
    b.data[b.readPos..b.writePos]
  }

  /** `buffer_init`: a zero-filled block of `size` bytes, both cursors at 0. */
  function Init(size: nat): (b: Buffer)
    ensures Valid(b) && |b.data| == size
    ensures b.readPos == 0 && b.writePos == 0
    ensures forall i :: 0 <= i < size ==> b.data[i] == NUL
  {
    Buffer(Repeat(NUL, size), 0, 0)
  }

  /**
   * `buffer_init` with the allocation outcome as a parameter: `None` is the
   * -1 return when `malloc` fails.
   */
  function Allocate(size: nat, mallocOk: bool): (r: Option<Buffer>)
    ensures r.Some? <==> mallocOk
    ensures r.Some? ==> r.value == Init(size)
  {
    if mallocOk then Some(Init(size)) else None
  }

  /** `buffer_reset_read`. */
  function ResetRead(b: Buffer): (r: Buffer)
    ensures r.readPos == 0 && r.writePos == b.writePos && r.data == b.data
  {
    b.(readPos := 0)
  }

  /** `buffer_reset_write`. */
  function ResetWrite(b: Buffer): (r: Buffer)
    ensures r.writePos == 0 && r.readPos == b.readPos && r.data == b.data
  {
    b.(writePos := 0)
  }

  /** `buffer_reset`: both cursors back to 0, the bytes kept. */
  function Reset(b: Buffer): (r: Buffer)
    ensures Valid(r) && r.readPos == 0 && r.writePos == 0 && r.data == b.data
  {
    ResetWrite(ResetRead(b))
  }

  /** `buffer_space`: the free bytes after the write cursor. */
  function Space(b: Buffer): (n: nat)
    requires b.writePos <= |b.data|
    ensures b.writePos + n == |b.data|
  {
    |b.data| - b.writePos
  }

  /** `buffer_left`: the unread bytes. */
  function Left(b: Buffer): (n: nat)
    requires b.readPos <= b.writePos
    ensures b.readPos + n == b.writePos
  {
    b.writePos - b.readPos
  }

  /** `buffer_shift_read`: consume `shift` bytes. */
  function ShiftRead(b: Buffer, shift: nat): (r: Buffer)
    requires b.readPos + shift <= |b.data|
    ensures r.readPos == b.readPos + shift
    ensures r.writePos == b.writePos && r.data == b.data
  {
    b.(readPos := b.readPos + shift)
  }

  /** `buffer_shift_write`: mark `shift` more bytes as written. */
  function ShiftWrite(b: Buffer, shift: nat): (r: Buffer)
    requires b.writePos + shift <= |b.data|
    ensures r.writePos == b.writePos + shift
    ensures r.readPos == b.readPos && r.data == b.data
  {
    b.(writePos := b.writePos + shift)
  }

  /**
   * `buffer_write`: copy `bytes` to the write cursor and advance it. The
   * unread bytes gain exactly `bytes` at their end; nothing else changes.
   */
  function Write(b: Buffer, bytes: seq<char>): (r: Buffer)
    requires b.writePos <= |b.data| && Space(b) >= |bytes|
    ensures |r.data| == |b.data| && r.readPos == b.readPos
    ensures r.writePos == b.writePos + |bytes|
    ensures r.data[b.writePos..r.writePos] == bytes
    ensures r.data[..b.writePos] == b.data[..b.writePos]
    ensures r.data[r.writePos..] == b.data[r.writePos..]
    ensures Valid(b) ==> Valid(r) && Unread(r) == Unread(b) + bytes
  {
    var w := b.writePos;
    var data := b.data[..w] + bytes + b.data[w + |bytes|..];
    assert data[w..w + |bytes|] == bytes;
    assert data[..w] == b.data[..w];
    var r := Buffer(data, b.readPos, w + |bytes|);
    assert Valid(b) ==> Unread(r) == data[b.readPos..w] + data[w..w + |bytes|];
    r
  }

  /** `buffer_write_string`: the bytes of a C string, without its NUL. */
  function WriteString(b: Buffer, s: seq<char>): (r: Buffer)
    requires b.writePos <= |b.data| && Space(b) >= |CStr(s)|
    ensures Valid(b) ==> Valid(r) && Unread(r) == Unread(b) + CStr(s)
  {
    Write(b, CStr(s))
  }

  // ---------------------------------------------------------------------------
  // Search
  // ---------------------------------------------------------------------------

  /** `pattern` occurs at index `i`, inside the written bytes. */
  predicate MatchAt(b: Buffer, pattern: seq<char>, i: nat) {
    i + |pattern| <= b.writePos <= |b.data| && b.data[i..i + |pattern|] == pattern
  }

  /** The first index at or after `from` where `pattern` occurs. */
  function Search(b: Buffer, pattern: seq<char>, from: nat): (r: Option<nat>)
    requires Valid(b)
    ensures r.Some? ==> from <= r.value && MatchAt(b, pattern, r.value)
    ensures r.Some? ==> forall k :: from <= k < r.value ==> !MatchAt(b, pattern, k)
    ensures r.None? ==> forall k :: from <= k ==> !MatchAt(b, pattern, k)
    decreases b.writePos - from
  {
    if from + |pattern| > b.writePos then None
    else if b.data[from..from + |pattern|] == pattern then Some(from)
    else Search(b, pattern, from + 1)
  }

  /**
   * `buffer_find`: the index of the first occurrence of `pattern` in the
   * unread bytes, or the end sentinel `|data|` when there is none.
   */
  function Find(b: Buffer, pattern: seq<char>): (r: nat)
    requires Valid(b)
    ensures r == |b.data| || (b.readPos <= r && MatchAt(b, pattern, r))
    ensures forall k :: b.readPos <= k < r && k < |b.data| ==> !MatchAt(b, pattern, k)
    ensures |pattern| > Left(b) ==> r == |b.data|
  {
    if |pattern| > b.writePos - b.readPos then |b.data|
    else
      match Search(b, pattern, b.readPos)
      case Some(i) => i
      case None => |b.data|
  }

  /**
   * The inner comparison loop of `buffer_find`: how many leading characters
   * of `pattern` the data at `i` repeats.
   */
  method MatchLength(b: Buffer, pattern: seq<char>, i: nat) returns (j: nat)
    requires Valid(b) && i + |pattern| <= b.writePos
    ensures j <= |pattern|
    ensures forall m :: 0 <= m < j ==> b.data[i + m] == pattern[m]
    ensures j < |pattern| ==> b.data[i + j] != pattern[j]
  {
    j := 0;
    while j < |pattern| && b.data[i + j] == pattern[j]
      invariant 0 <= j <= |pattern|
      invariant forall m :: 0 <= m < j ==> b.data[i + m] == pattern[m]
    {
      j := j + 1;
    }
  }

  /**
   * `buffer_find` as written in C: a scan of every start index with an inner
   * comparison loop.
   */
  method FindLoop(b: Buffer, pattern: seq<char>) returns (r: nat)
    requires Valid(b)
    ensures r == Find(b, pattern)
  {
    var len := |pattern|;
    if len > b.writePos - b.readPos {
      return |b.data|;
    }
    var end := b.writePos - len + 1;
    var i := b.readPos;
    while i < end
      invariant b.readPos <= i <= end
      invariant Search(b, pattern, b.readPos) == Search(b, pattern, i)
    {
      var j := MatchLength(b, pattern, i);
      SearchStep(b, pattern, i, j);
      if j == len {
        return i;
      }
      i := i + 1;
    }
    return |b.data|;
  }

  /**
   * One round of the outer loop of `buffer_find`: after the inner loop has
   * compared `j` bytes at `i`, either all matched and the search stops at
   * `i`, or it goes on at `i + 1`.
   */
  lemma SearchStep(b: Buffer, pattern: seq<char>, i: nat, j: nat)
    requires Valid(b) && i + |pattern| <= b.writePos && j <= |pattern|
    requires forall m :: 0 <= m < j ==> b.data[i + m] == pattern[m]
    requires j < |pattern| ==> b.data[i + j] != pattern[j]
    ensures j == |pattern| ==> Search(b, pattern, i) == Some(i)
    ensures j < |pattern| ==> Search(b, pattern, i) == Search(b, pattern, i + 1)
  {
    if j == |pattern| {
      assert b.data[i..i + |pattern|] == pattern;
    } else {
      assert b.data[i..i + |pattern|][j] != pattern[j];
    }
  }

  /**
   * `buffer_shift_read_after`: consume everything up to and including the
   * first occurrence of `pattern`; `None` is the -1 return, with the buffer
   * left as it was.
   */
  function ShiftReadAfter(b: Buffer, pattern: seq<char>): (r: Option<Buffer>)
    requires Valid(b)
    ensures r.None? <==> Find(b, pattern) == |b.data|
    ensures r.Some? ==> Valid(r.value) && r.value.data == b.data && r.value.writePos == b.writePos
    ensures r.Some? ==> r.value.readPos == Find(b, pattern) + |pattern|
  {
    var f := Find(b, pattern);
    if f == |b.data| then None
    else Some(ShiftRead(b, f - b.readPos + |pattern|))
  }

  /**
   * `buffer_drop_read`: move the unread bytes to the start of the block and
   * zero the rest, so all consumed space becomes free space again.
   */
  function DropRead(b: Buffer): (r: Buffer)
    requires Valid(b)
    ensures Valid(r) && |r.data| == |b.data|
    ensures r.readPos == 0 && r.writePos == Left(b)
    ensures Unread(r) == Unread(b)
    ensures forall i :: r.writePos <= i < |r.data| ==> r.data[i] == NUL
  {
    var u := Unread(b);
    var r := Buffer(u + Repeat(NUL, |b.data| - |u|), 0, |u|);
    assert Unread(r) == u;
    r
  }

  // ---------------------------------------------------------------------------
  // Properties
  // ---------------------------------------------------------------------------

  /** A fresh buffer has no unread bytes and all its bytes free. */
  lemma InitIsEmpty(size: nat)
    ensures Unread(Init(size)) == [] && Space(Init(size)) == size
  {
  }

  /**
   * `buffer_shift_read` only checks the new read cursor against the size:
   * the cursor order survives exactly when no more than the unread bytes
   * are consumed.
   */
  lemma ShiftReadKeepsOrder(b: Buffer, shift: nat)
    requires Valid(b)
    ensures b.readPos + shift <= |b.data| ==> (Valid(ShiftRead(b, shift)) <==> shift <= Left(b))
  {
  }

  /** Writing then reading back: the new bytes follow the old unread ones. */
  lemma WriteThenUnread(size: nat, bytes: seq<char>)
    requires |bytes| <= size
    ensures Unread(Write(Init(size), bytes)) == bytes
    ensures Space(Write(Init(size), bytes)) == size - |bytes|
  {
  }

  /** Compaction keeps the unread bytes and frees the consumed ones. */
  lemma DropReadFreesConsumed(b: Buffer)
    requires Valid(b)
    ensures Space(DropRead(b)) == Space(b) + b.readPos
    ensures DropRead(DropRead(b)) == DropRead(b)
  {
  }

  const CRLF: seq<char> := "\r\n"

  /**
   * The first CRLF of `line + CRLF + rest` ends `line` when `line` holds no
   * CRLF of its own.
   */
  lemma LineEnd(b: Buffer, line: seq<char>, rest: seq<char>)
    requires Valid(b) && Unread(b) == line + CRLF + rest
    requires forall k :: 0 <= k < |line| - 1 ==> !(line[k] == '\r' && line[k + 1] == '\n')
    ensures Find(b, CRLF) == b.readPos + |line|
  {
    var u := Unread(b);
    var at := b.readPos + |line|;
    assert u[|line|] == '\r' && u[|line| + 1] == '\n';
    assert b.data[at] == '\r' && b.data[at + 1] == '\n';
    assert b.data[at..at + 2] == CRLF;
    assert MatchAt(b, CRLF, at);
    forall k | b.readPos <= k < at
      ensures !MatchAt(b, CRLF, k)
    {
      var o := k - b.readPos;
      assert b.data[k] == u[o] && b.data[k + 1] == u[o + 1];
      if o + 1 < |line| {
        assert u[o] == line[o] && u[o + 1] == line[o + 1];
      } else {
        assert u[o + 1] == '\r';
      }
    }
  }

  /**
   * Consuming through CRLF removes exactly one line: when the unread bytes
   * are `line + CRLF + rest` and `line` holds no CRLF, what is left is `rest`.
   */
  lemma ConsumeLine(b: Buffer, line: seq<char>, rest: seq<char>)
    requires Valid(b) && Unread(b) == line + CRLF + rest
    requires forall k :: 0 <= k < |line| - 1 ==> !(line[k] == '\r' && line[k + 1] == '\n')
    ensures ShiftReadAfter(b, CRLF).Some?
    ensures Unread(ShiftReadAfter(b, CRLF).value) == rest
  {
    LineEnd(b, line, rest);
    var at := b.readPos + |line|;
    var r := ShiftReadAfter(b, CRLF).value;
    assert Unread(r) == b.data[at + 2..b.writePos];
    assert Unread(b)[|line| + 2..] == rest;
  }
}

=== FILE: context.dfy ===
/**
 * The per-client session state of src/context.c: the input buffer, the
 * reply queue, the transaction, the machine state, the current command
 * word and the session UUID.
 */
module Context {
  import opened Optional
  import opened CText
  import F = Fsm
  import B = Buffer
  import Q = ReplyQueue
  import T = Transaction
  import Time

  /** `COMMAND_SIZE`: the command word buffer, NUL included. */
  const CommandSize: nat := 5

  /** `sizeof(uuid_t)`. */
  const UuidBytes: nat := 16

  /** `UUID_STRING_SIZE`: two hex digits per byte and a NUL. */
  const UuidStringSize: nat := 2 * UuidBytes + 1

  newtype byte = x: int | 0 <= x < 256

  /** The settings the session reads. */
  datatype Settings = Settings(maildir: string, maxInMessageSize: nat, timeout: int)

  /**
   * `context_t`. `command` is the content of the command buffer (its
   * bytes before the NUL); `uuid` is the whole UUID buffer.
   */
  datatype Context = Context(
    settings: Settings,
    state: F.State,
    inMessage: B.Buffer,
    outQueue: Q.Queue,
    socket: int,
    isWaitTransition: bool,
    command: string,
    uuid: seq<char>,
    transaction: T.Transaction,
    initTime: Time.Timeval,
    lastActionTime: Time.Timeval)

  /** The buffers keep their cursor order and the command fits its buffer. */
  predicate Valid(c: Context) {
    B.Valid(c.inMessage) && Q.Valid(c.outQueue) && |c.command| < CommandSize
  }

  // ---------------------------------------------------------------------------
  // UUID rendering
  // ---------------------------------------------------------------------------

  const HexDigits: string := "0123456789abcdef"

  /** One lower-case hex digit, as `%x` prints it. */
  function HexDigit(n: nat): (c: char)
    requires n < 16
    ensures c in HexDigits
  {
    HexDigits[n]
  }

  /** The value of a lower-case hex digit. */
  function HexValue(c: char): (n: nat)
    ensures n < 16
  {
    if '0' <= c <= '9' then (c as int - '0' as int)
    else if 'a' <= c <= 'f' then (c as int - 'a' as int + 10)
    else 0
  }

  lemma HexDigitValue(n: nat)
    requires n < 16
    ensures HexValue(HexDigit(n)) == n
  {
  }

  /** The high and low four bits of a byte. */
  function High(b: byte): (n: nat)
    ensures n < 16
  {
    b as int / 16
  }

  function Low(b: byte): (n: nat)
    ensures n < 16
  {
    b as int % 16
  }

  /** `sprintf("%02x", b)` without its NUL. */
  function HexByte(b: byte): (s: string)
    ensures |s| == 2
  {
    [HexDigit(High(b)), HexDigit(Low(b))]
  }

  /** The digits of every byte, in order. */
  function Hex(bytes: seq<byte>): (s: string)
    ensures |s| == 2 * |bytes|
  {
    if bytes == [] then [] else HexByte(bytes[0]) + Hex(bytes[1..])
  }

  lemma {:induction false} HexDigitsAt(bytes: seq<byte>, i: nat)
    requires i < |bytes|
    ensures Hex(bytes)[2 * i] == HexDigit(High(bytes[i]))
    ensures Hex(bytes)[2 * i + 1] == HexDigit(Low(bytes[i]))
  {
    var head := HexByte(bytes[0]);
    var rest := Hex(bytes[1..]);
    assert Hex(bytes) == head + rest;
    if i > 0 {
      var j := i - 1;
      assert rest[2 * j] == HexDigit(High(bytes[i])) && rest[2 * j + 1] == HexDigit(Low(bytes[i])) by {
        assert bytes[1..][j] == bytes[i];
        HexDigitsAt(bytes[1..], j);
      }
      assert 2 * i == 2 * j + 2;
      PairShift(head, rest, j);
    } else {
      assert Hex(bytes)[0] == head[0] && Hex(bytes)[1] == head[1];
    }
  }

  /** Past a two-character head, index `2j + 2` of the whole is index `2j` of the tail. */
  lemma PairShift(head: string, rest: string, j: nat)
    requires |head| == 2 && 2 * j + 1 < |rest|
    ensures (head + rest)[2 * j + 2] == rest[2 * j]
    ensures (head + rest)[2 * j + 3] == rest[2 * j + 1]
  {
  }

  /**
   * The UUID buffer after the `sprintf` loop: byte `i` as two lower-case
   * hex digits at positions `2i` and `2i + 1`, and the NUL at the end.
   */
  function UuidString(uuid: seq<byte>): (s: seq<char>)
    requires |uuid| == UuidBytes
    ensures |s| == UuidStringSize && s[UuidStringSize - 1] == NUL
    ensures forall i :: 0 <= i < UuidBytes ==>
      s[2 * i] == HexDigit(High(uuid[i])) && s[2 * i + 1] == HexDigit(Low(uuid[i]))
    ensures CStr(s) == s[..2 * UuidBytes]
  {
    var s := Hex(uuid) + [NUL];
    forall i | 0 <= i < UuidBytes
      ensures s[2 * i] == HexDigit(High(uuid[i])) && s[2 * i + 1] == HexDigit(Low(uuid[i]))
    {
      HexDigitsAt(uuid, i);
    }
    assert CStr(s) == Hex(uuid) by {
      HexHasNoNul(uuid);
      CStrOfTerminated(Hex(uuid));
    }
    s
  }

  lemma CStrOfTerminated(t: seq<char>)
    requires NUL !in t
    ensures CStr(t + [NUL]) == t
  {
    var s := t + [NUL];
    var n := Strlen(s);
    assert forall i :: 0 <= i < |t| ==> s[i] == t[i] && t[i] in t;
    assert s[|t|] in s && s[..|s|] == s;
    assert s[..|t|] == t;
  }

  lemma HexHasNoNul(bytes: seq<byte>)
    ensures NUL !in Hex(bytes)
  {
    forall k | 0 <= k < |Hex(bytes)|
      ensures Hex(bytes)[k] != NUL
    {
      HexDigitsAt(bytes, k / 2);
      assert k == 2 * (k / 2) || k == 2 * (k / 2) + 1;
    }
  }

  /** Reading the digits back: the rendering loses nothing. */
  function Unhex(s: string): (bytes: seq<byte>)
    decreases |s|
  {
    if |s| < 2 then [] else [UnhexByte(s[0], s[1])] + Unhex(s[2..])
  }

  /** The byte a pair of digits stands for, high digit first. */
  function UnhexByte(hi: char, lo: char): byte {
    (16 * HexValue(hi) + HexValue(lo)) as byte
  }

  lemma {:induction false} UnhexHex(bytes: seq<byte>)
    ensures Unhex(Hex(bytes)) == bytes
  {
    if bytes != [] {
      assert Hex(bytes) == HexByte(bytes[0]) + Hex(bytes[1..]);
      UnhexHex(bytes[1..]);
      UnhexCons(bytes[0], Hex(bytes[1..]), bytes[1..]);
      assert [bytes[0]] + bytes[1..] == bytes;
    }
  }

  /** The digits of one byte in front of text that reads back as `rest`. */
  lemma UnhexCons(b: byte, tail: string, rest: seq<byte>)
    requires Unhex(tail) == rest
    ensures Unhex(HexByte(b) + tail) == [b] + rest
  {
    var d := HexByte(b);
    assert UnhexByte(d[0], d[1]) == b by { ByteOfDigits(b); }
    UnhexStep(d, tail);
  }

  /** Reading a pair of digits in front of more text. */
  lemma UnhexStep(d: string, tail: string)
    requires |d| == 2
    ensures Unhex(d + tail) == [UnhexByte(d[0], d[1])] + Unhex(tail)
  {
    assert (d + tail)[2..] == tail;
  }

  /** The two digits of a byte read back as that byte. */
  lemma ByteOfDigits(b: byte)
    ensures UnhexByte(HexByte(b)[0], HexByte(b)[1]) == b
  {
    HexDigitValue(High(b));
    HexDigitValue(Low(b));
    assert 16 * High(b) + Low(b) == b as int;
  }

  /** The session identifier decodes back to the generated UUID. */
  lemma UuidRoundTrip(uuid: seq<byte>)
    requires |uuid| == UuidBytes
    ensures Unhex(CStr(UuidString(uuid))) == uuid
  {
    assert CStr(UuidString(uuid)) == Hex(uuid) by {
      HexHasNoNul(uuid);
      CStrOfTerminated(Hex(uuid));
      assert UuidString(uuid) == Hex(uuid) + [NUL];
    }
    UnhexHex(uuid);
  }

  // ---------------------------------------------------------------------------
  // context_init / context_destroy
  // ---------------------------------------------------------------------------

  /**
   * `context_init`. `bufferAllocOk` is the outcome of the input buffer's
   * `malloc`, `now` what `gettimeofday` returns (`None` for its failure)
   * and `uuid` what `uuid_generate` produces. `transaction_init` always
   * returns 0, so its failure branch is never taken. The command buffer is
   * left uninitialised by the source; here it is empty.
   */
  function ContextInit(sock: int, settings: Settings, bufferAllocOk: bool, now: Option<Time.Timeval>, uuid: seq<byte>): (r: Option<Context>)
    requires |uuid| == UuidBytes
    ensures r.Some? <==> bufferAllocOk && now.Some?
    ensures r.Some? ==> Valid(r.value)
    ensures r.Some? ==> r.value.state == F.Init && !r.value.isWaitTransition
    ensures r.Some? ==> r.value.socket == sock && r.value.settings == settings
    ensures r.Some? ==> r.value.lastActionTime == r.value.initTime == now.value
    ensures r.Some? ==> Q.Empty(r.value.outQueue) && B.Unread(r.value.inMessage) == []
    ensures r.Some? ==> |r.value.inMessage.data| == settings.maxInMessageSize
    ensures r.Some? ==> !T.IsActive(r.value.transaction) && r.value.transaction.sock == sock
    ensures r.Some? ==> r.value.uuid == UuidString(uuid)
  {
    match B.Allocate(settings.maxInMessageSize, bufferAllocOk)
    case None => None
    case Some(inMessage) =>
      match now
      case None => None
      case Some(t) =>
        Some(Context(settings, F.Init, inMessage, Q.Init(), sock, false, "", UuidString(uuid),
          T.Init(sock), t, t))
  }

  /**
   * `context_destroy`: the transaction is destroyed, which ends a pending
   * message write (`aio` is what the kernel reports about it), and every
   * queued reply is removed. The session duration it logs is left out.
   */
  function ContextDestroy(c: Context, aio: T.AioReport): (r: Context)
    ensures Q.Empty(r.outQueue)
    ensures r.transaction == T.Destroy(c.transaction, aio)
    ensures r == c.(outQueue := r.outQueue, transaction := r.transaction)
  {
    c.(outQueue := Q.Destroy(c.outQueue), transaction := T.Destroy(c.transaction, aio))
  }

  /**
   * A destroyed session has no reply left to send, no envelope, and no
   * message file open unless its write had failed.
   */
  lemma DestroyDrains(c: Context, aio: T.AioReport)
    requires Valid(c)
    ensures Q.Replies(ContextDestroy(c, aio).outQueue) == []
    ensures var t := ContextDestroy(c, aio).transaction;
      t.reversePath.None? && t.recipients == [] && t.header.None? && t.domain.None?
    ensures aio != T.AioFailed && aio != T.Finished(false) ==> ContextDestroy(c, aio).transaction.fd == -1
  {
  }
}

=== FILE: ctext.dfy ===
/**
 * C-string helpers shared by the server model. A C buffer is a `seq<char>`
 * that may contain NUL; its string content is the part before the first NUL.
 */
module CText {
  import opened Optional

  const NUL: char := '\0'

  /** The index of the first NUL of `s`, or `|s|` when there is none (strlen). */
  function Strlen(s: seq<char>): (n: nat)
    ensures n <= |s|
    ensures NUL !in s[..n]
    ensures n < |s| ==> s[n] == NUL
  {
    if |s| == 0 then 0
    else if s[0] == NUL then 0
    else
      var k := Strlen(s[1..]);
      assert s[..k + 1] == [s[0]] + s[1..][..k];
      k + 1
  }

  /** The string content of a C buffer: every character before the first NUL. */
  function CStr(s: seq<char>): (r: seq<char>)
    ensures NUL !in r
    ensures |r| <= |s| && r == s[..|r|]
    ensures |r| < |s| ==> s[|r|] == NUL
  {
    s[..Strlen(s)]
  }

  /** The character a C reader sees at index `i`: past the content it is NUL. */
  function CharAt(s: seq<char>, i: nat): char {
    if i < |s| then s[i] else NUL
  }

  /** `strncmp(a, b, n) == 0` for NUL-free contents `a` and `b`. */
  predicate StrNEqual(a: seq<char>, b: seq<char>, n: nat) {
    forall i :: 0 <= i < n ==> CharAt(a, i) == CharAt(b, i)
  }

  predicate IsPrefix(p: seq<char>, s: seq<char>) {
    |p| <= |s| && s[..|p|] == p
  }

  /**
   * Comparing the first `strlen(name)` characters, as `process_command` does,
   * is a prefix test: `command` starts with `name`.
   */
  lemma StrNEqualIsPrefix(command: seq<char>, name: seq<char>)
    requires NUL !in command && NUL !in name
    ensures StrNEqual(command, name, |name|) <==> IsPrefix(name, command)
  {
    if StrNEqual(command, name, |name|) {
      assert |command| < |name| ==> CharAt(command, |command|) != CharAt(name, |command|) by {
        if |command| < |name| {
          assert name[|command|] in name;
        }
      }
      assert forall i :: 0 <= i < |name| ==> command[i] == name[i] by {
        forall i | 0 <= i < |name|
          ensures command[i] == name[i]
        {
          assert CharAt(command, i) == CharAt(name, i);
        }
      }
    }
  }

  predicate IsUpper(c: char) {
    'A' <= c <= 'Z'
  }

  /** C `tolower` in the "C" locale: only ASCII capitals change. */
  function ToLower(c: char): (r: char)
    ensures IsUpper(c) ==> r as int == c as int + 32
    ensures !IsUpper(c) ==> r == c
    ensures !IsUpper(r)
  {
    if IsUpper(c) then (c as int + 32) as char else c
  }

  /** Every character of `s` lower-cased. */
  function LowerAll(s: seq<char>): (r: seq<char>)
    ensures |r| == |s|
    ensures forall i :: 0 <= i < |s| ==> r[i] == ToLower(s[i])
  {
    seq(|s|, i requires 0 <= i < |s| => ToLower(s[i]))
  }

  /** `n` copies of `c`, as `memset` leaves them. */
  function Repeat(c: char, n: nat): (r: seq<char>)
    ensures |r| == n
    ensures forall i :: 0 <= i < n ==> r[i] == c
  {
    seq(n, _ => c)
  }

  /** `strchr`: the index of the first `c` in the content `s`, or NULL. */
  function Strchr(s: seq<char>, c: char): (r: Option<nat>)
    ensures r.Some? ==> r.value < |s| && s[r.value] == c && c !in s[..r.value]
    ensures r.None? <==> c !in s
  {
    if |s| == 0 then None
    else if s[0] == c then Some(0)
    else match Strchr(s[1..], c)
      case None => None
      case Some(i) =>
        assert s[..i + 1] == [s[0]] + s[1..][..i];
        Some(i + 1)
  }

  /**
   * The text `snprintf` leaves in a buffer of `size` bytes: the formatted
   * text, cut to `size - 1` characters so the NUL still fits.
   */
  function Snprintf(text: seq<char>, size: nat): (r: seq<char>)
    requires size > 0
    ensures |r| < size && |r| <= |text| && r == text[..|r|]
    ensures |text| < size <==> r == text
  {
    if |text| < size then text else text[..size - 1]
  }

  /** The first NUL is the only index with no NUL before it and a NUL (or the end) at it. */
  lemma StrlenUnique(s: seq<char>, k: nat)
    requires k <= |s| && NUL !in s[..k] && (k < |s| ==> s[k] == NUL)
    ensures Strlen(s) == k
  {
    var m := Strlen(s);
    assert forall j :: 0 <= j < k ==> s[j] in s[..k];
    assert forall j :: 0 <= j < m ==> s[j] in s[..m];
  }

  /** A NUL at index `i` ends the content there or earlier. */
  lemma StrlenBound(s: seq<char>, i: nat)
    requires i < |s| && s[i] == NUL
    ensures Strlen(s) <= i
  {
    assert forall j :: 0 <= j < Strlen(s) ==> s[j] in s[..Strlen(s)];
  }

  /**
   * `strncpy(dst, src, n)`: the characters of `src` before its first NUL,
   * at most `n` of them, padded with NUL to `n` characters.
   */
  function StrNCopy(src: seq<char>, n: nat): (r: seq<char>)
    requires n <= |src|
    ensures |r| == n
    ensures Strlen(r) == Strlen(src[..n]) && CStr(r) == CStr(src[..n])
    ensures forall i :: Strlen(r) <= i < n ==> r[i] == NUL
  {
    var k := Strlen(src[..n]);
    var r := src[..k] + Repeat(NUL, n - k);
    assert r[..k] == src[..n][..k];
    StrlenUnique(r, k);
    r
  }

  /**
   * `string_to_lower(str, max_length)` of src/protocol.c: lower-case at most
   * `max_length` characters, stopping at the first NUL.
   */
  function StringToLower(s: seq<char>, maxLength: nat): (r: seq<char>)
    ensures |r| == |s| && Strlen(r) == Strlen(s)
    ensures var k := if maxLength < Strlen(s) then maxLength else Strlen(s);
      r[..k] == LowerAll(s[..k]) && r[k..] == s[k..]
  {
    var n := Strlen(s);
    var k := if maxLength < n then maxLength else n;
    var r := LowerAll(s[..k]) + s[k..];
    assert r[..k] == LowerAll(s[..k]) && r[k..] == s[k..];
    assert NUL !in r[..n] by {
      forall i | 0 <= i < n
        ensures r[i] != NUL
      {
        assert s[..n][i] == s[i];
      }
    }
    assert n < |s| ==> r[n] == s[n];
    StrlenUnique(r, n);
    r
  }

  /** The C loop of `string_to_lower`, one character at a time. */
  method StringToLowerLoop(s: seq<char>, maxLength: nat) returns (r: seq<char>)
    ensures r == StringToLower(s, maxLength)
  {
    r := s;
    var i := 0;
    var left := maxLength;
    while left != 0 && i < |r| && r[i] != NUL
      invariant 0 <= i <= |s| && |r| == |s| && i + left == maxLength
      invariant NUL !in s[..i]
      invariant forall j :: 0 <= j < i ==> r[j] == ToLower(s[j])
      invariant forall j :: i <= j < |s| ==> r[j] == s[j]
      decreases left
    {
      assert s[..i + 1] == s[..i] + [s[i]];
      r := r[i := ToLower(r[i])];
      i := i + 1;
      left := left - 1;
    }
    assert i == maxLength || i == Strlen(s) by {
      if i < |s| && left != 0 { StrlenUnique(s, i); }
      if i == |s| { StrlenUnique(s, i); }
    }
  }
}

=== FILE: fsm.dfy ===
/**
 * The states and events of the SMTP session machine. The machine itself is
 * generated into `fsm.h`, which is not part of this model; only the names
 * used by src/protocol.c are declared here, together with their printable
 * names.
 */
module Fsm {

  /** `te_smtp_server_state`. */
  datatype State =
    | Init | WaitEhlo | WaitMail | WaitRcpt | WaitRcptOrData | WaitMoreData
    | Error | Invalid | Done

  /** `te_smtp_server_event`; `InvalidEvent` is `SMTP_SERVER_EV_INVALID`. */
  datatype Event =
    | Begin | Rset | Ehlo | Mail | Rcpt | Data | MoreData | DataEnd | Quit
    | InvalidEvent | Timeout

  const Undefined: string := "undefined"

  /** `event_string`: every event but the timeout has its own name. */
  function EventString(e: Event): (s: string)
    ensures s == Undefined <==> e == Timeout
  {
    match e
    case Begin => "begin"
    case Rset => "rset"
    case Ehlo => "ehlo"
    case Mail => "mail"
    case Rcpt => "rcpt"
    case Data => "data"
    case MoreData => "more_data"
    case DataEnd => "data_end"
    case Quit => "quit"
    case InvalidEvent => "invalid"
    case Timeout => Undefined
  }

  /** `state_string`. */
  function StateString(s: State): (r: string)
    ensures r != Undefined
  {
    match s
    case Init => "init"
    case WaitEhlo => "wait_ehlo"
    case WaitMail => "wait_mail"
    case WaitRcpt => "wait_rcpt"
    case WaitRcptOrData => "wait_rcpt_or_data"
    case WaitMoreData => "wait_more_data"
    case Error => "error"
    case Invalid => "invalid"
    case Done => "done"
  }

  /** Distinct states print differently, so log lines identify the state. */
  lemma StateNamesDistinct(a: State, b: State)
    ensures StateString(a) == StateString(b) <==> a == b
  {
  }

  /** Distinct named events print differently. */
  lemma EventNamesDistinct(a: Event, b: Event)
    requires a != Timeout && b != Timeout
    ensures EventString(a) == EventString(b) <==> a == b
  {
  }
}

=== FILE: fsm2dot.dfy ===
/**
 * The documentation tool that turns the state machine declarations found in
 * the server's sources into a Graphviz digraph (doc/utils/fsm2dot.py).
 *
 * The three regular expressions are not modelled as text matching: a line is
 * given by what each pattern found on it (`RawLine`). Everything after the
 * match -- the priority between the shapes, the comma split and strip, the
 * growing vocabularies, the wildcard expansion against the vocabulary of the
 * moment and the set of triples -- is modelled as written.
 */
module FsmToDot {
  import opened Optional

  type Name = string

  /** A concrete transition `(source, event, target)`. */
  datatype Triple = Triple(source: Name, event: Name, target: Name)

  /** The `tst`, `tev` and optional `next` fields of a transition record. */
  datatype Rule = Rule(source: Name, event: Name, target: Option<Name>)

  /**
   * What the state, event and transition patterns found on one line: the
   * captured name list of a declaration, or the fields of a record.
   */
  datatype RawLine = RawLine(statesMatch: Option<string>,
                             eventsMatch: Option<string>,
                             transitionMatch: Option<Rule>)

  /** The one shape a line is handled as. */
  datatype Line = StateDecl(names: string) | EventDecl(names: string) | Trans(rule: Rule) | Noise

  /** The accumulators of the scan: both vocabularies and the relation. */
  datatype Scan = Scan(states: set<Name>, events: set<Name>, transitions: set<Triple>)

  const Wildcard: Name := "*"
  const Terminals: set<Name> := {"done", "invalid"}

  /** The scan before any line has been read. */
  const Initial: Scan := Scan({"init", "done", "invalid"}, {}, {})

  // ---------------------------------------------------------------------------
  // Name lists: `group(1).split(',')` and `x.strip()`
  // ---------------------------------------------------------------------------

  /**
   * The characters Python 3's `str.strip()` removes, those `str.isspace()`
   * accepts: tab to CR, 0x1C to 0x1F, space, NEL, no-break space, the
   * Ogham space mark, the spaces U+2000 to U+200A, the line and paragraph
   * separators, the narrow no-break space, the medium mathematical space
   * and the ideographic space.
   */
  predicate IsSpace(c: char) {
    || ('\t' <= c <= '\r') || ('\U{1C}' <= c <= '\U{1F}') || c == ' '
    || c == '\U{85}' || c == '\U{A0}' || c == '\U{1680}'
    || ('\U{2000}' <= c <= '\U{200A}') || c == '\U{2028}' || c == '\U{2029}'
    || c == '\U{202F}' || c == '\U{205F}' || c == '\U{3000}'
  }

  /** `s.split(sep)`: the pieces between separators, empty ones included. */
  function Split(s: string, sep: char): (parts: seq<string>)
    ensures |parts| >= 1
  {
    if |s| == 0 then [""]
    else
      var rest := Split(s[1..], sep);
      if s[0] == sep then [""] + rest
      else [[s[0]] + rest[0]] + rest[1..]
  }

  /** `sep.join(parts)`: the inverse of `Split`. */
  function Join(parts: seq<string>, sep: char): string
    requires |parts| >= 1
  {
    if |parts| == 1 then parts[0] else parts[0] + [sep] + Join(parts[1..], sep)
  }

  /** Splitting loses nothing: joining the pieces gives the text back. */
  lemma {:induction false} JoinSplit(s: string, sep: char)
    ensures Join(Split(s, sep), sep) == s
  {
    if |s| > 0 {
      var rest := Split(s[1..], sep);
      JoinSplit(s[1..], sep);
      if s[0] == sep {
        assert Split(s, sep)[1..] == rest;
      } else {
        var parts := Split(s, sep);
        assert parts[0] == [s[0]] + rest[0];
        if |rest| == 1 {
          assert |parts| == 1;
        } else {
          assert parts[1..] == rest[1..];
          assert Join(rest, sep) == rest[0] + [sep] + Join(rest[1..], sep);
        }
      }
    }
  }

  /** `s.lstrip()`. */
  function StripLeft(s: string): string {
    if |s| > 0 && IsSpace(s[0]) then StripLeft(s[1..]) else s
  }

  /** `s.rstrip()`. */
  function StripRight(s: string): string {
    if |s| > 0 && IsSpace(s[|s| - 1]) then StripRight(s[..|s| - 1]) else s
  }

  /** `lstrip` removes exactly the leading white space. */
  lemma {:induction false} StripLeftSpec(s: string)
    ensures |StripLeft(s)| <= |s| && StripLeft(s) == s[|s| - |StripLeft(s)|..]
    ensures forall i :: 0 <= i < |s| - |StripLeft(s)| ==> IsSpace(s[i])
    ensures |StripLeft(s)| > 0 ==> !IsSpace(StripLeft(s)[0])
  {
    if |s| > 0 && IsSpace(s[0]) {
      StripLeftSpec(s[1..]);
    }
  }

  /** `rstrip` removes exactly the trailing white space. */
  lemma {:induction false} StripRightSpec(s: string)
    ensures |StripRight(s)| <= |s| && StripRight(s) == s[..|StripRight(s)|]
    ensures forall i :: |StripRight(s)| <= i < |s| ==> IsSpace(s[i])
    ensures |StripRight(s)| > 0 ==> !IsSpace(StripRight(s)[|StripRight(s)| - 1])
  {
    if |s| > 0 && IsSpace(s[|s| - 1]) {
      StripRightSpec(s[..|s| - 1]);
    }
  }

  /** How many white-space characters `s.lstrip()` removes. */
  function Leading(s: string): nat {
    StripLeftSpec(s);
    |s| - |StripLeft(s)|
  }

  /** `s.strip()`. */
  function Strip(s: string): string {
    StripRight(StripLeft(s))
  }

  /** `Strip` keeps the slice of `s` between its outer white space. */
  lemma StripSlice(s: string)
    ensures Leading(s) + |Strip(s)| <= |s|
    ensures Strip(s) == s[Leading(s)..Leading(s) + |Strip(s)|]
    ensures forall i :: 0 <= i < Leading(s) ==> IsSpace(s[i])
    ensures forall i :: Leading(s) + |Strip(s)| <= i < |s| ==> IsSpace(s[i])
    ensures |Strip(s)| > 0 ==> !IsSpace(Strip(s)[0]) && !IsSpace(Strip(s)[|Strip(s)| - 1])
  {
    var l := StripLeft(s);
    var r := StripRight(l);
    StripLeftSpec(s);
    StripRightSpec(l);
    var k := |s| - |l|;
    assert r == s[k..k + |r|] by {
      assert l == s[k..];
      assert r == l[..|r|];
    }
    forall i | k + |r| <= i < |s|
      ensures IsSpace(s[i])
    {
      assert s[i] == l[i - k];
    }
    assert |r| > 0 ==> r[0] == l[0];
  }

  /** The names a declaration adds: each comma-separated piece, stripped. */
  function DeclaredNames(text: string): set<Name> {
    StripAll(Split(text, ','))
  }

  /** The stripped form of every piece. */
  function StripAll(parts: seq<string>): set<Name> {
    if |parts| == 0 then {} else {Strip(parts[0])} + StripAll(parts[1..])
  }

  // ---------------------------------------------------------------------------
  // Classification and wildcard expansion
  // ---------------------------------------------------------------------------

  /** The state shape wins over the event shape, which wins over a record. */
  function Classify(raw: RawLine): Line {
    if raw.statesMatch.Some? then StateDecl(raw.statesMatch.value)
    else if raw.eventsMatch.Some? then EventDecl(raw.eventsMatch.value)
    else if raw.transitionMatch.Some? then Trans(raw.transitionMatch.value)
    else Noise
  }

  /** The sources a rule stands for: `*` means every non-terminal state. */
  function Sources(rule: Rule, states: set<Name>): (r: set<Name>)
    ensures rule.source == Wildcard ==> r == states - Terminals
    ensures rule.source != Wildcard ==> r == {rule.source}
  {
    if rule.source == Wildcard then states - Terminals else {rule.source}
  }

  /** The events a rule stands for: `*` means every event declared so far. */
  function Events(rule: Rule, events: set<Name>): (r: set<Name>)
    ensures rule.event == Wildcard ==> r == events
    ensures rule.event != Wildcard ==> r == {rule.event}
  {
    if rule.event == Wildcard then events else {rule.event}
  }

  /** The targets a rule stands for; `None` is the missing `next` field. */
  function Targets(rule: Rule, states: set<Name>): set<Option<Name>> {
    if rule.target == Some(Wildcard) then set s | s in states :: Some(s) else {rule.target}
  }

  /** The target of one expanded triple: a missing `next` loops to the source. */
  function Resolve(source: Name, target: Option<Name>): Name {
    if target.None? then source else target.value
  }

  /**
   * The triples a rule denotes against the vocabulary of the moment: every
   * resolved source, every resolved event, every resolved target.
   */
  function Expand(rule: Rule, states: set<Name>, events: set<Name>): (r: set<Triple>)
    ensures forall t :: t in r <==>
      && t.source in Sources(rule, states)
      && t.event in Events(rule, events)
      && (rule.target.None? ==> t.target == t.source)
      && (rule.target == Some(Wildcard) ==> t.target in states)
      && (rule.target.Some? && rule.target != Some(Wildcard) ==> t.target == rule.target.value)
  {
    var srcs := Sources(rule, states);
    var evs := Events(rule, events);
    var tgts := Targets(rule, states);
    var r := set s, e, o | s in srcs && e in evs && o in tgts :: Triple(s, e, Resolve(s, o));
    assert rule.target == Some(Wildcard) ==> forall t | t in states :: Some(t) in tgts;
    r
  }

  /** One iteration of the scan loop. */
  function Step(sc: Scan, raw: RawLine): Scan {
    match Classify(raw)
    case StateDecl(text) => sc.(states := sc.states + DeclaredNames(text))
    case EventDecl(text) => sc.(events := sc.events + DeclaredNames(text))
    case Trans(rule) => sc.(transitions := sc.transitions + Expand(rule, sc.states, sc.events))
    case Noise => sc
  }

  /** The scan loop over `lines`, starting from `sc`. */
  function Fold(sc: Scan, lines: seq<RawLine>): Scan
    decreases |lines|
  {
    if |lines| == 0 then sc else Fold(Step(sc, lines[0]), lines[1..])
  }

  /** The whole scan of an input. */
  function Run(lines: seq<RawLine>): Scan {
    Fold(Initial, lines)
  }

  // ---------------------------------------------------------------------------
  // Rendering
  // ---------------------------------------------------------------------------

  /** Underscores shown as spaces. */
  function Spaced(s: Name): (r: string)
    ensures |r| == |s|
    ensures '_' !in r
    ensures forall i :: 0 <= i < |s| && s[i] != '_' ==> r[i] == s[i]
  {
    seq(|s|, i requires 0 <= i < |s| => if s[i] == '_' then ' ' else s[i])
  }

  /** `norm`: the display form of a name, quoted. */
  function Norm(s: Name): (r: string)
    ensures |r| == |s| + 2 && r[0] == '"' && r[|r| - 1] == '"'
    ensures r[1..|r| - 1] == Spaced(s)
  {
    "\"" + Spaced(s) + "\""
  }

  /** No name of the triple holds a line break, as no name the patterns capture does. */
  predicate SingleLine(t: Triple) {
    '\n' !in t.source && '\n' !in t.event && '\n' !in t.target
  }

  /** How often `c` occurs in `s`. */
  function Occurrences(s: string, c: char): (n: nat)
    ensures n <= |s|
    ensures n == 0 <==> c !in s
  {
    if |s| == 0 then 0 else (if s[0] == c then 1 else 0) + Occurrences(s[1..], c)
  }

  lemma {:induction false} OccurrencesAppend(a: string, b: string, c: char)
    ensures Occurrences(a + b, c) == Occurrences(a, c) + Occurrences(b, c)
  {
    if |a| > 0 {
      assert (a + b)[0] == a[0] && (a + b)[1..] == a[1..] + b;
      OccurrencesAppend(a[1..], b, c);
    } else {
      assert a + b == b;
    }
  }

  /** `print_edge`, with the newline `print` adds. */
  function EdgeLine(t: Triple): (r: string)
    ensures |r| > 0 && r[|r| - 1] == '\n'
    ensures |Norm(t.source)| < |r| && r[..|Norm(t.source)|] == Norm(t.source)
  {
    var r := Norm(t.source) + " -> " + Norm(t.target) + " [label=" + Norm(t.event) + "];\n";
    assert r[..|Norm(t.source)|] == Norm(t.source);
    r
  }

  /** With single-line names, an edge line holds exactly one line break, its last character. */
  lemma EdgeLineSingle(t: Triple)
    requires SingleLine(t)
    ensures Occurrences(EdgeLine(t), '\n') == 1
  {
    var a, b, e := Norm(t.source), Norm(t.target), Norm(t.event);
    NormSingleLine(t.source);
    NormSingleLine(t.target);
    NormSingleLine(t.event);
    OccurrencesAppend(a, " -> ", '\n');
    OccurrencesAppend(a + " -> ", b, '\n');
    OccurrencesAppend(a + " -> " + b, " [label=", '\n');
    OccurrencesAppend(a + " -> " + b + " [label=", e, '\n');
    OccurrencesAppend(a + " -> " + b + " [label=" + e, "];\n", '\n');
    assert Occurrences("];\n", '\n') == 1;
  }

  /** Display keeps a name on one line. */
  lemma NormSingleLine(s: Name)
    requires '\n' !in s
    ensures '\n' !in Norm(s)
  {
    var r := Norm(s);
    forall i | 0 <= i < |r|
      ensures r[i] != '\n'
    {
      if 0 < i < |r| - 1 {
        assert r[i] == Spaced(s)[i - 1];
        assert s[i - 1] != '\n';
      }
    }
  }

  /** `print_header`: `digraph {` and the HEADER block, each printed with a newline. */
  const Header: string := "digraph {\n" + "\n    rankdir = TB;\n    ranksep = 1;\n    nodesep = 0.05;\n" + "\n"

  /** `print_footer`. */
  const Footer: string := "}\n"

  /** The lines `line` gives for the triples of `order`, one after the other. */
  function Concat(line: Triple -> string, order: seq<Triple>): string {
    if |order| == 0 then "" else line(order[0]) + Concat(line, order[1..])
  }

  /** The edge lines of `order`, one after the other. */
  function Edges(order: seq<Triple>): string {
    Concat(EdgeLine, order)
  }

  /** `order` lists every triple of `rel` exactly once, as iterating a set does. */
  predicate Enumerates(order: seq<Triple>, rel: set<Triple>) {
    && (forall i :: 0 <= i < |order| ==> order[i] in rel)
    && (forall t :: t in rel ==> t in order)
    && (forall i, j :: 0 <= i < j < |order| ==> order[i] != order[j])
  }

  /**
   * The printed document for a relation, given the order in which the set
   * is iterated: header, one edge line per distinct triple, footer.
   */
  function Render(rel: set<Triple>, order: seq<Triple>): (doc: string)
    requires Enumerates(order, rel)
    ensures |order| == |rel|
    ensures |Header| + |Footer| <= |doc|
    ensures doc[..|Header|] == Header
    ensures doc[|doc| - |Footer|..] == Footer
    ensures doc[|Header|..|doc| - |Footer|] == Edges(order)
  {
    EnumerationSize(order, rel);
    Header + Edges(order) + Footer
  }

  /** The lines of two enumerations in a row are the lines of each in a row. */
  lemma {:induction false} ConcatAppend(line: Triple -> string, a: seq<Triple>, b: seq<Triple>)
    ensures Concat(line, a + b) == Concat(line, a) + Concat(line, b)
  {
    if |a| == 0 {
      assert a + b == b;
    } else {
      var head, tail := line(a[0]), a[1..];
      assert Concat(line, a + b) == head + Concat(line, tail + b) by {
        assert (a + b)[0] == a[0] && (a + b)[1..] == tail + b;
      }
      ConcatAppend(line, tail, b);
      assert head + (Concat(line, tail) + Concat(line, b)) == (head + Concat(line, tail)) + Concat(line, b);
    }
  }

  /** A one-triple enumeration gives just that triple's line. */
  lemma ConcatOne(line: Triple -> string, x: Triple)
    ensures Concat(line, [x]) == line(x)
  {
    assert [x][1..] == [];
  }

  /** The lines before index `k` and those from `k` on. */
  lemma ConcatTakeDrop(line: Triple -> string, order: seq<Triple>, k: nat)
    requires k <= |order|
    ensures Concat(line, order) == Concat(line, order[..k]) + Concat(line, order[k..])
  {
    assert order == order[..k] + order[k..];
    ConcatAppend(line, order[..k], order[k..]);
  }

  /** The lines up to and including index `i` end with the line of `order[i]`. */
  lemma ConcatLast(line: Triple -> string, order: seq<Triple>, i: nat)
    requires i < |order|
    ensures Concat(line, order[..i + 1]) == Concat(line, order[..i]) + line(order[i])
  {
    assert order[..i + 1] == order[..i] + [order[i]];
    ConcatAppend(line, order[..i], [order[i]]);
    ConcatOne(line, order[i]);
  }

  /** The line of the `i`-th triple sits between the lines before it and those after it. */
  lemma ConcatSplit(line: Triple -> string, order: seq<Triple>, i: nat)
    requires i < |order|
    ensures Concat(line, order) == Concat(line, order[..i]) + line(order[i]) + Concat(line, order[i + 1..])
  {
    ConcatTakeDrop(line, order, i + 1);
    ConcatLast(line, order, i);
  }

  /** Lines of one line break each give as many line breaks as triples. */
  lemma {:induction false} ConcatLines(line: Triple -> string, order: seq<Triple>)
    requires forall i :: 0 <= i < |order| ==> Occurrences(line(order[i]), '\n') == 1
    ensures Occurrences(Concat(line, order), '\n') == |order|
  {
    if |order| > 0 {
      assert forall i :: 0 <= i < |order| - 1 ==> order[1..][i] == order[i + 1];
      ConcatLines(line, order[1..]);
      OccurrencesAppend(line(order[0]), Concat(line, order[1..]), '\n');
    }
  }

  /** With single-line names, the edges are exactly `|order|` lines. */
  lemma EdgesLines(order: seq<Triple>)
    requires forall i :: 0 <= i < |order| ==> SingleLine(order[i])
    ensures Occurrences(Edges(order), '\n') == |order|
  {
    forall i | 0 <= i < |order|
      ensures Occurrences(EdgeLine(order[i]), '\n') == 1
    {
      EdgeLineSingle(order[i]);
    }
    ConcatLines(EdgeLine, order);
  }

  /** The middle piece of a three-piece string sits right after the first piece. */
  lemma PieceAt(x: string, y: string, z: string)
    ensures (x + y + z)[|x|..|x| + |y|] == y
  {
  }

  /** Regrouping five pieces around the third. */
  lemma Regroup(a: string, b: string, c: string, d: string, e: string)
    ensures a + (b + c + d) + e == (a + b) + c + (d + e)
  {
  }

  /** Every triple of the relation is printed as its edge line between header and footer. */
  lemma RenderHasEveryEdge(rel: set<Triple>, order: seq<Triple>, t: Triple) returns (p: nat)
    requires Enumerates(order, rel) && t in rel
    ensures var doc := Render(rel, order);
      && |Header| <= p && p + |EdgeLine(t)| <= |doc| - |Footer|
      && doc[p..p + |EdgeLine(t)|] == EdgeLine(t)
  {
    var i :| 0 <= i < |order| && order[i] == t;
    var line := EdgeLine(t);
    var before, after := Edges(order[..i]), Edges(order[i + 1..]);
    assert Edges(order) == before + line + after by {
      ConcatSplit(EdgeLine, order, i);
    }
    var doc := Render(rel, order);
    assert doc == (Header + before) + line + (after + Footer) by {
      assert doc == Header + Edges(order) + Footer;
      Regroup(Header, before, line, after, Footer);
    }
    p := |Header| + |before|;
    PieceAt(Header + before, line, after + Footer);
  }

  /** With single-line names, header and footer enclose exactly one line per triple of the relation. */
  lemma RenderLineCount(rel: set<Triple>, order: seq<Triple>)
    requires Enumerates(order, rel)
    requires forall t :: t in rel ==> SingleLine(t)
    ensures var doc := Render(rel, order);
      Occurrences(doc[|Header|..|doc| - |Footer|], '\n') == |rel|
  {
    EnumerationSize(order, rel);
    EdgesLines(order);
  }

  lemma {:induction false} EnumerationSize(order: seq<Triple>, rel: set<Triple>)
    requires Enumerates(order, rel)
    ensures |order| == |rel|
    decreases |order|
  {
    if |order| > 0 {
      var rest := order[1..];
      assert Enumerates(rest, rel - {order[0]}) by {
        forall t | t in rel - {order[0]}
          ensures t in rest
        {
          var i :| 0 <= i < |order| && order[i] == t;
          assert i != 0;
          assert rest[i - 1] == t;
        }
        forall i | 0 <= i < |rest|
          ensures rest[i] in rel - {order[0]}
        {
          assert order[i + 1] == rest[i];
        }
      }
      EnumerationSize(rest, rel - {order[0]});
    }
  }

  // ---------------------------------------------------------------------------
  // Properties of the scan
  // ---------------------------------------------------------------------------

  /** A line of the given shape, as the patterns would report it. */
  function StateLine(text: string): RawLine { RawLine(Some(text), None, None) }
  function EventLine(text: string): RawLine { RawLine(None, Some(text), None) }
  function RuleLine(rule: Rule): RawLine { RawLine(None, None, Some(rule)) }

  /** Before any line: the three built-in states, no events, no triples. */
  lemma RunEmpty()
    ensures Run([]).states == {"init", "done", "invalid"}
    ensures Run([]).events == {} && Run([]).transitions == {}
  {
  }

  /**
   * Each line changes at most one accumulator, chosen by the priority state
   * declaration, event declaration, transition record; other lines change
   * nothing.
   */
  lemma StepPriority(sc: Scan, raw: RawLine)
    ensures raw.statesMatch.Some? ==>
      Step(sc, raw) == sc.(states := sc.states + DeclaredNames(raw.statesMatch.value))
    ensures raw.statesMatch.None? && raw.eventsMatch.Some? ==>
      Step(sc, raw) == sc.(events := sc.events + DeclaredNames(raw.eventsMatch.value))
    ensures raw.statesMatch.None? && raw.eventsMatch.None? && raw.transitionMatch.Some? ==>
      Step(sc, raw) == sc.(transitions := sc.transitions + Expand(raw.transitionMatch.value, sc.states, sc.events))
    ensures raw.statesMatch.None? && raw.eventsMatch.None? && raw.transitionMatch.None? ==>
      Step(sc, raw) == sc
  {
  }

  /** Declaring names already known changes nothing. */
  lemma RedeclarationIsNoOp(sc: Scan, text: string)
    requires DeclaredNames(text) <= sc.states
    ensures Step(sc, StateLine(text)) == sc
  {
  }

  /** Declaring the same list twice is the same as declaring it once. */
  lemma DeclarationIdempotent(sc: Scan, text: string)
    ensures Step(Step(sc, StateLine(text)), StateLine(text)) == Step(sc, StateLine(text))
    ensures Step(Step(sc, EventLine(text)), EventLine(text)) == Step(sc, EventLine(text))
  {
  }

  /** The accumulators only grow. */
  lemma {:induction false} FoldMonotone(sc: Scan, lines: seq<RawLine>)
    ensures sc.states <= Fold(sc, lines).states
    ensures sc.events <= Fold(sc, lines).events
    ensures sc.transitions <= Fold(sc, lines).transitions
    decreases |lines|
  {
    if |lines| > 0 {
      FoldMonotone(Step(sc, lines[0]), lines[1..]);
    }
  }

  /** Scanning `a + b` is scanning `a`, then `b` from where `a` left off. */
  lemma {:induction false} FoldAppend(sc: Scan, a: seq<RawLine>, b: seq<RawLine>)
    ensures Fold(sc, a + b) == Fold(Fold(sc, a), b)
    decreases |a|
  {
    if |a| > 0 {
      assert (a + b)[1..] == a[1..] + b;
      FoldAppend(Step(sc, a[0]), a[1..], b);
    } else {
      assert a + b == b;
    }
  }

  /**
   * A rule expands against the vocabulary as it stands when the rule is
   * read: the triples the last line adds are computed from the scan of the
   * lines before it.
   */
  lemma ExpansionUsesCurrentVocabulary(lines: seq<RawLine>, rule: Rule)
    ensures Run(lines + [RuleLine(rule)]).transitions
         == Run(lines).transitions + Expand(rule, Run(lines).states, Run(lines).events)
    ensures Run(lines + [RuleLine(rule)]).states == Run(lines).states
  {
    FoldAppend(Initial, lines, [RuleLine(rule)]);
  }

  /** Lines that are not transition records never add a triple. */
  lemma {:induction false} DeclarationsAddNoTriples(sc: Scan, lines: seq<RawLine>)
    requires forall i :: 0 <= i < |lines| ==> !Classify(lines[i]).Trans?
    ensures Fold(sc, lines).transitions == sc.transitions
    decreases |lines|
  {
    if |lines| > 0 {
      assert !Classify(lines[0]).Trans?;
      DeclarationsAddNoTriples(Step(sc, lines[0]), lines[1..]);
    }
  }

  /** So a declaration read after a rule never adds triples for that rule. */
  lemma LaterDeclarationsDoNotReachBack(earlier: seq<RawLine>, later: seq<RawLine>)
    requires forall i :: 0 <= i < |later| ==> !Classify(later[i]).Trans?
    ensures Run(earlier + later).transitions == Run(earlier).transitions
  {
    FoldAppend(Initial, earlier, later);
    DeclarationsAddNoTriples(Run(earlier), later);
  }

  /** A piece without separators splits into itself. */
  lemma {:induction false} SplitNoSeparator(s: string, sep: char)
    requires sep !in s
    ensures Split(s, sep) == [s]
  {
    if |s| > 0 {
      assert sep !in s[1..];
      SplitNoSeparator(s[1..], sep);
      assert [s[0]] + s[1..] == s;
      assert Split(s, sep) == [[s[0]] + s[1..]] + [s[1..]][1..];
    }
  }

  /** A separator-free head splits off as the first piece. */
  lemma {:induction false} SplitFirst(a: string, b: string, sep: char)
    requires sep !in a
    ensures Split(a + [sep] + b, sep) == [a] + Split(b, sep)
  {
    if |a| == 0 {
      assert a + [sep] + b == [sep] + b;
      assert ([sep] + b)[1..] == b;
    } else {
      assert (a + [sep] + b)[1..] == a[1..] + [sep] + b;
      assert sep !in a[1..];
      SplitFirst(a[1..], b, sep);
      assert [a[0]] + a[1..] == a;
    }
  }

  /** The names of `a, b` where neither contains a comma. */
  lemma NamesOfPairText(a: string, b: string)
    requires ',' !in a && ',' !in b
    ensures DeclaredNames(a + "," + b) == {Strip(a), Strip(b)}
  {
    SplitNoSeparator(b, ',');
    SplitFirst(a, b, ',');
    var parts := Split(a + "," + b, ',');
    assert parts == [a, b];
    assert parts[1..] == [b];
    assert StripAll([b]) == {Strip(b)} by {
      assert [b][1..] == [];
    }
  }

  /** A plain name declares exactly itself. */
  lemma NamesOfOne(a: string)
    requires ',' !in a
    requires |a| > 0 && !IsSpace(a[0]) && !IsSpace(a[|a| - 1])
    ensures DeclaredNames(a) == {a}
  {
    SplitNoSeparator(a, ',');
    StripPlain(a);
    assert [a][1..] == [];
    assert StripAll([a]) == {Strip(a)} + StripAll([]);
  }

  /** Two steps of the scan from the initial state. */
  lemma RunTwo(a: RawLine, b: RawLine)
    ensures Run([a, b]) == Step(Step(Initial, a), b)
  {
    var one := Step(Initial, a);
    var two := Step(one, b);
    assert [a, b][1..] == [b];
    assert Fold(two, []) == two;
    assert Fold(one, [b]) == Fold(two, []);
    assert Fold(Initial, [a, b]) == Fold(one, [b]);
  }

  lemma RunThree(a: RawLine, b: RawLine, c: RawLine)
    ensures Run([a, b, c]) == Step(Step(Step(Initial, a), b), c)
  {
    var one := Step(Initial, a);
    var two := Step(one, b);
    var three := Step(two, c);
    assert [a, b, c][1..] == [b, c];
    assert [b, c][1..] == [c];
    assert Fold(three, []) == three;
    assert Fold(two, [c]) == Fold(three, []);
    assert Fold(one, [b, c]) == Fold(two, [c]);
    assert Fold(Initial, [a, b, c]) == Fold(one, [b, c]);
  }

  /**
   * Order matters: a wildcard-source rule covers a new state declared
   * before it, and does not cover the same state declared after it.
   */
  lemma OrderMatters(x: Name, e: Name, t: Name)
    requires ',' !in x && |x| > 0 && !IsSpace(x[0]) && !IsSpace(x[|x| - 1])
    requires x !in Initial.states
    requires e != Wildcard && t != Wildcard
    ensures Triple(x, e, t) in Run([StateLine(x), RuleLine(Rule(Wildcard, e, Some(t)))]).transitions
    ensures Triple(x, e, t) !in Run([RuleLine(Rule(Wildcard, e, Some(t))), StateLine(x)]).transitions
  {
    NamesOfOne(x);
    var rule := Rule(Wildcard, e, Some(t));
    RunTwo(StateLine(x), RuleLine(rule));
    RunTwo(RuleLine(rule), StateLine(x));
    assert Run([StateLine(x), RuleLine(rule)]).transitions == Expand(rule, Initial.states + {x}, {});
    assert Run([RuleLine(rule), StateLine(x)]).transitions == Expand(rule, Initial.states, {});
  }

  // ---------------------------------------------------------------------------
  // Properties of the expansion
  // ---------------------------------------------------------------------------

  /** A rule without wildcards denotes exactly its one triple. */
  lemma LiteralRule(s: Name, e: Name, t: Name, states: set<Name>, events: set<Name>)
    requires s != Wildcard && e != Wildcard && t != Wildcard
    ensures Expand(Rule(s, e, Some(t)), states, events) == {Triple(s, e, t)}
  {
  }

  /** Without `next`, a literal rule is the self-loop on its source. */
  lemma MissingTargetIsSelfLoop(s: Name, e: Name, states: set<Name>, events: set<Name>)
    requires s != Wildcard && e != Wildcard
    ensures Expand(Rule(s, e, None), states, events) == {Triple(s, e, s)}
  {
  }

  /** A wildcard source never stands for `done` or `invalid`. */
  lemma WildcardSourceSkipsTerminals(rule: Rule, states: set<Name>, events: set<Name>)
    requires rule.source == Wildcard
    ensures forall t :: t in Expand(rule, states, events) ==> t.source in states && t.source !in Terminals
  {
  }

  /** A wildcard target does stand for `done` and `invalid`. */
  lemma WildcardTargetKeepsTerminals(s: Name, e: Name, states: set<Name>, events: set<Name>)
    requires s != Wildcard && e != Wildcard
    ensures forall x :: x in states ==> Triple(s, e, x) in Expand(Rule(s, e, Some(Wildcard)), states, events)
    ensures forall t :: t in Expand(Rule(s, e, Some(Wildcard)), states, events) ==> t.target in states
  {
  }

  /** A wildcard event stands for nothing while no event is declared. */
  lemma WildcardEventBeforeEvents(rule: Rule, states: set<Name>)
    requires rule.event == Wildcard
    ensures Expand(rule, states, {}) == {}
  {
  }

  /** The same triple from two rules is one element of the relation. */
  lemma DuplicateRulesCollapse(sc: Scan, s: Name, e: Name, t: Name)
    requires s != Wildcard && e != Wildcard && t != Wildcard
    requires sc.transitions == {}
    ensures Fold(sc, [RuleLine(Rule(s, e, Some(t))), RuleLine(Rule(s, e, Some(t)))]).transitions
         == {Triple(s, e, t)}
  {
    var line := RuleLine(Rule(s, e, Some(t)));
    LiteralRule(s, e, t, sc.states, sc.events);
    var once := Step(sc, line);
    LiteralRule(s, e, t, once.states, once.events);
    var twice := Step(once, line);
    assert [line, line][1..] == [line];
    assert Fold(twice, []) == twice;
    assert Fold(once, [line]) == Fold(twice, []);
    assert Fold(sc, [line, line]) == Fold(once, [line]);
  }

  /** A name with no outer white space strips to itself, also after one blank. */
  lemma StripPlain(s: string)
    requires |s| > 0 && !IsSpace(s[0]) && !IsSpace(s[|s| - 1])
    ensures Strip(s) == s
    ensures Strip([' '] + s) == s
  {
    assert StripLeft(s) == s;
    assert StripRight(s) == s;
    assert ([' '] + s)[1..] == s;
    assert StripLeft([' '] + s) == s;
  }

  /** `a, b` declares exactly `a` and `b` when both are plain names. */
  lemma NamesOfPair(a: string, b: string)
    requires ',' !in a && ',' !in b
    requires |a| > 0 && !IsSpace(a[0]) && !IsSpace(a[|a| - 1])
    requires |b| > 0 && !IsSpace(b[0]) && !IsSpace(b[|b| - 1])
    ensures DeclaredNames(a + ", " + b) == {a, b}
  {
    StripPlain(a);
    StripPlain(b);
    assert ',' !in [' '] + b;
    NamesOfPairText(a, [' '] + b);
    assert a + "," + ([' '] + b) == a + ", " + b;
  }

  /** A name the patterns can capture whole: no comma, no outer white space. */
  predicate Plain(a: Name) {
    ',' !in a && |a| > 0 && !IsSpace(a[0]) && !IsSpace(a[|a| - 1])
  }

  /**
   * Two declarations and one wildcard-source rule: every non-terminal state
   * gets an edge to the rule's target, labelled with its event.
   */
  lemma DeclareThenWildcard(stateText: string, eventText: string, a: Name, b: Name, ev: Name, ev2: Name)
    requires DeclaredNames(stateText) == {a, b} && DeclaredNames(eventText) == {ev, ev2}
    requires a !in Initial.states && b !in Initial.states
    requires ev != Wildcard && a != Wildcard
    ensures Run([StateLine(stateText), EventLine(eventText),
                 RuleLine(Rule(Wildcard, ev, Some(a)))]).transitions
         == {Triple("init", ev, a), Triple(a, ev, a), Triple(b, ev, a)}
  {
    var rule := Rule(Wildcard, ev, Some(a));
    var states := Initial.states + {a, b};
    var s1 := Step(Initial, StateLine(stateText));
    assert s1 == Scan(states, {}, {});
    var s2 := Step(s1, EventLine(eventText));
    assert s2 == Scan(states, {ev, ev2}, {});
    var s3 := Step(s2, RuleLine(rule));
    assert s3.transitions == Expand(rule, states, {ev, ev2});
    RunThree(StateLine(stateText), EventLine(eventText), RuleLine(rule));
    assert Sources(rule, states) == {"init", a, b};
    var want := {Triple("init", ev, a), Triple(a, ev, a), Triple(b, ev, a)};
    forall t | t in s3.transitions
      ensures t in want
    {
      assert t.source in {"init", a, b};
    }
    forall t | t in want
      ensures t in s3.transitions
    {
    }
  }

  /**
   * The input `state = running, stopped;`, `event = start, stop;`,
   * `{ tst = "*"; tev = "start"; next = "running"; }` gives the edges from
   * init, running and stopped to running, labelled start.
   */
  lemma EndToEndExample()
    ensures Run([StateLine("running" + ", " + "stopped"), EventLine("start" + ", " + "stop"),
                 RuleLine(Rule("*", "start", Some("running")))]).transitions
         == {Triple("init", "start", "running"), Triple("running", "start", "running"),
             Triple("stopped", "start", "running")}
  {
    NamesOfPair("running", "stopped");
    NamesOfPair("start", "stop");
    DeclareThenWildcard("running" + ", " + "stopped", "start" + ", " + "stop",
                        "running", "stopped", "start", "stop");
  }

  // ---------------------------------------------------------------------------
  // Properties of the output
  // ---------------------------------------------------------------------------

  /** No triples: the document is the header followed by the footer. */
  lemma RenderEmpty()
    ensures Render({}, []) == Header + Footer
  {
  }

  /** An input without any declaration renders as header and footer only. */
  lemma {:induction false} NoDeclarationsRenderEmpty(lines: seq<RawLine>)
    requires forall i :: 0 <= i < |lines| ==> Classify(lines[i]) == Noise
    ensures Run(lines) == Initial
    ensures Render(Run(lines).transitions, []) == Header + Footer
  {
    NoiseFold(Initial, lines);
  }

  lemma {:induction false} NoiseFold(sc: Scan, lines: seq<RawLine>)
    requires forall i :: 0 <= i < |lines| ==> Classify(lines[i]) == Noise
    ensures Fold(sc, lines) == sc
    decreases |lines|
  {
    if |lines| > 0 {
      assert Classify(lines[0]) == Noise;
      NoiseFold(sc, lines[1..]);
    }
  }

  /**
   * The underscore-to-space change is display only: two different triples
   * may print the same edge line, and the relation keeps both.
   */
  lemma DisplayDoesNotDeduplicate()
    ensures Triple("a_b", "e", "t") != Triple("a b", "e", "t")
    ensures EdgeLine(Triple("a_b", "e", "t")) == EdgeLine(Triple("a b", "e", "t"))
    ensures |Expand(Rule("a_b", "e", Some("t")), {}, {}) + Expand(Rule("a b", "e", Some("t")), {}, {})| == 2
  {
    assert Spaced("a_b") == "a b";
    assert Spaced("a b") == "a b";
    LiteralRule("a_b", "e", "t", {}, {});
    LiteralRule("a b", "e", "t", {}, {});
  }
}

=== FILE: handle.dfy ===
/**
 * The command handlers of src/handle.c, called by the session machine on
 * its transitions. Each consumes its command line from the input buffer,
 * updates the transaction and queues one reply (reply codes of section
 * 4.2 of RFC 5321), and reports how the transition went.
 *
 * The parsers of src/parse.c are not part of this model: what they
 * extract (a domain, a reverse-path, a forward-path, or nothing) is a
 * parameter. So are the outcomes of allocation and of the message write.
 */
module Handle {
  import opened Optional
  import B = Buffer
  import Q = ReplyQueue
  import T = Transaction
  import C = Context

  /** `transition_result_t`. */
  datatype TransitionResult = Succeed | Wait | Error | Failed

  /**
   * What the system reports during one handler call: whether allocations
   * succeed, the state of the message write, the descriptor of a new
   * message file, whether the write is submitted, the generated header,
   * and the outcomes of closing, moving and linking the message file.
   */
  datatype Outcomes = Outcomes(
    alloc: bool,
    aio: T.AioReport,
    created: Option<nat>,
    submitOk: bool,
    header: Option<string>,
    closeOk: bool,
    moveOk: bool,
    cloneOk: bool)

  /** A reply line: a three-digit code, a space, the text and CRLF. */
  function Reply(code: string, text: string): string {
    code + " " + text + B.CRLF
  }

  const ServiceReady: string := Reply("220", "Service ready")
  const Ok: string := Reply("250", "Ok")
  const NotImplemented: string := Reply("502", "Command not implemented")
  const BadReversePath: string := Reply("555", "Syntax error in reverse-path or not present")
  const BadForwardPath: string := Reply("555", "Syntax error in forward-path or not present")
  const StartMailInput: string := Reply("354", "Start mail input; end with <CRLF>.<CRLF>")
  const Closing: string := Reply("221", "Service closing transmission channel")
  const InternalError: string := Reply("451", "Requested action aborted: internal error")

  // ---------------------------------------------------------------------------
  // Steps shared by the handlers
  // ---------------------------------------------------------------------------

  /** The unread input of a session. */
  function Input(c: C.Context): seq<char>
    requires C.Valid(c)
  {
    B.Unread(c.inMessage)
  }

  /** The texts of the queued replies, oldest first. */
  function Sent(c: C.Context): seq<seq<char>>
    requires C.Valid(c)
  {
    Q.Replies(c.outQueue)
  }

  /**
   * `buffer_shift_read_after(in, CRLF)`: consume through the first CRLF;
   * `None` when no CRLF is buffered.
   */
  function ConsumeLine(c: C.Context): (r: Option<C.Context>)
    requires C.Valid(c)
    ensures r.None? <==> B.Find(c.inMessage, B.CRLF) == |c.inMessage.data|
    ensures r.Some? ==> C.Valid(r.value) && r.value == c.(inMessage := r.value.inMessage)
    ensures r.Some? ==> r.value.inMessage.readPos == B.Find(c.inMessage, B.CRLF) + 2
    ensures r.Some? ==> r.value.inMessage.writePos == c.inMessage.writePos
    ensures r.Some? ==> r.value.inMessage.data == c.inMessage.data
  {
    match B.ShiftReadAfter(c.inMessage, B.CRLF)
    case None => None
    case Some(b) => Some(c.(inMessage := b))
  }

  /** `if (buffer_space(in) == 0) buffer_drop_read(in)`. */
  function CompactIfFull(c: C.Context): (r: C.Context)
    requires C.Valid(c)
    ensures C.Valid(r) && Input(r) == Input(c) && r == c.(inMessage := r.inMessage)
    ensures |r.inMessage.data| == |c.inMessage.data|
  {
    if B.Space(c.inMessage) == 0 then c.(inMessage := B.DropRead(c.inMessage)) else c
  }

  /** `BUFFER_TAILQ_PUSH_BACK_STRING(out, text)`; `None` when allocation fails. */
  function Push(c: C.Context, text: string, alloc: bool): (r: Option<C.Context>)
    requires C.Valid(c)
    ensures r.Some? <==> alloc
    ensures r.Some? ==> C.Valid(r.value) && r.value == c.(outQueue := r.value.outQueue)
    ensures r.Some? ==> Sent(r.value) == Sent(c) + [text]
  {
    match Q.PushBack(c.outQueue, text, alloc, alloc)
    case None => None
    case Some(q) =>
      Q.PushBackAppends(c.outQueue, text);
      Some(c.(outQueue := q))
  }

  /**
   * The common tail of most handlers: consume the line, compact when the
   * buffer is full (if `compact`), and queue `reply`.
   */
  function Answer(c: C.Context, compact: bool, reply: string, alloc: bool, result: TransitionResult): (r: (TransitionResult, C.Context))
    requires C.Valid(c)
    ensures C.Valid(r.1)
    ensures r.0 == result <==> ConsumeLine(c).Some? && alloc
    ensures r.0 != result ==> r.0 == Error
    ensures r.0 == result ==> Sent(r.1) == Sent(c) + [reply]
    ensures r.0 == result ==> Input(r.1) == Input(ConsumeLine(c).value)
    ensures r.1.transaction == c.transaction && r.1.isWaitTransition == c.isWaitTransition
    requires result != Error
  {
    match ConsumeLine(c)
    case None => (Error, c)
    case Some(c1) =>
      var c2 := if compact then CompactIfFull(c1) else c1;
      match Push(c2, reply, alloc)
      case None => (Error, c2)
      case Some(c3) => (result, c3)
  }

  // ---------------------------------------------------------------------------
  // Handlers
  // ---------------------------------------------------------------------------

  /** `handle_begin`: greet the client. */
  function HandleBegin(c: C.Context, alloc: bool): (r: (TransitionResult, C.Context))
    requires C.Valid(c)
    ensures C.Valid(r.1)
    ensures r.0 == Succeed <==> alloc
    ensures r.0 != Succeed ==> r == (Error, c)
    ensures r.0 == Succeed ==> Sent(r.1) == Sent(c) + [ServiceReady] && Input(r.1) == Input(c)
  {
    match Push(c, ServiceReady, alloc)
    case None => (Error, c)
    case Some(c1) => (Succeed, c1)
  }

  /**
   * `handle_ehlo` (EHLO and HELO): an active transaction is rolled back,
   * the parsed domain (if any) replaces the stored one, the line is
   * consumed and "250 Ok" queued. `copyOk` is the outcome of the domain
   * copy, `alloc` that of the reply's allocation; the domain stays stored
   * when only the reply fails.
   */
  function HandleEhlo(c: C.Context, domain: Option<string>, copyOk: bool, alloc: bool): (r: (TransitionResult, C.Context))
    requires C.Valid(c)
    ensures C.Valid(r.1)
    ensures r.0 == Succeed || r.0 == Error
    ensures !T.IsActive(r.1.transaction)
    ensures r.0 == Succeed <==> (domain.None? || copyOk) && alloc && ConsumeLine(c).Some?
    ensures r.0 == Succeed ==> Sent(r.1) == Sent(c) + [Ok]
    ensures r.0 == Succeed ==> Input(r.1) == Input(ConsumeLine(c).value)
    ensures r.1.transaction.domain
      == (if domain.None? then c.transaction.domain else if copyOk then domain else None)
    ensures r.1.transaction.recipients == (if T.IsActive(c.transaction) then [] else c.transaction.recipients)
  {
    var c1 := if T.IsActive(c.transaction) then c.(transaction := T.Rollback(c.transaction)) else c;
    match domain
    case Some(d) =>
      var (ok, t) := T.SetDomain(c1.transaction, d, copyOk);
      var c2 := c1.(transaction := t);
      if !ok then (Error, c2)
      else Answer(c2, false, Ok, alloc, Succeed)
    case None =>
      Answer(c1, false, Ok, alloc, Succeed)
  }

  /** `handle_rset`: roll back an active transaction and queue "250 Ok". */
  function HandleRset(c: C.Context, alloc: bool): (r: (TransitionResult, C.Context))
    requires C.Valid(c)
    ensures C.Valid(r.1)
    ensures !T.IsActive(r.1.transaction) && r.1.transaction.domain == c.transaction.domain
    ensures r.1.transaction == (if T.IsActive(c.transaction) then T.Rollback(c.transaction) else c.transaction)
    ensures r.0 == Succeed <==> alloc && ConsumeLine(c).Some?
    ensures r.0 != Succeed ==> r.0 == Error
    ensures r.0 == Succeed ==> Sent(r.1) == Sent(c) + [Ok]
    ensures r.0 == Succeed ==> Input(r.1) == Input(ConsumeLine(c).value)
  {
    var c1 := if T.IsActive(c.transaction) then c.(transaction := T.Rollback(c.transaction)) else c;
    Answer(c1, false, Ok, alloc, Succeed)
  }

  /** `handle_vrfy`: VRFY is not implemented; queue 502. */
  function HandleVrfy(c: C.Context, alloc: bool): (r: (TransitionResult, C.Context))
    requires C.Valid(c)
    ensures C.Valid(r.1) && r.1.transaction == c.transaction
    ensures r.0 == Succeed <==> alloc && ConsumeLine(c).Some?
    ensures r.0 != Succeed ==> r.0 == Error
    ensures r.0 == Succeed ==> Sent(r.1) == Sent(c) + [NotImplemented]
    ensures r.0 == Succeed ==> Input(r.1) == Input(ConsumeLine(c).value)
  {
    Answer(c, true, NotImplemented, alloc, Succeed)
  }

  /**
   * `handle_mail`. Without a parsable reverse-path the line is consumed, 555
   * queued and the transition fails with the transaction untouched.
   * Otherwise a transaction begins (it must not be active) with that
   * reverse-path, the line is consumed and "250 Ok" queued. `copyOk` is
   * the outcome of the reverse-path copy, `alloc` that of the reply's
   * allocation; the transaction stays begun when only the reply fails.
   */
  function HandleMail(c: C.Context, reversePath: Option<string>, copyOk: bool, alloc: bool): (r: (TransitionResult, C.Context))
    requires C.Valid(c)
    requires reversePath.Some? ==> !T.IsActive(c.transaction)
    ensures C.Valid(r.1)
    ensures reversePath.None? ==> r.1.transaction == c.transaction
    ensures reversePath.None? ==> (r.0 == Failed <==> alloc && ConsumeLine(c).Some?)
    ensures r.0 == Failed ==> reversePath.None? && Sent(r.1) == Sent(c) + [BadReversePath]
    ensures r.0 == Succeed <==> reversePath.Some? && copyOk && alloc && ConsumeLine(c).Some?
    ensures r.0 == Succeed ==> Sent(r.1) == Sent(c) + [Ok]
    ensures reversePath.Some? ==> T.IsActive(r.1.transaction)
    ensures reversePath.Some? ==> r.1.transaction.reversePath == (if copyOk then reversePath else None)
    ensures reversePath.Some? ==> r.1.transaction.recipients == [] && r.1.transaction.domain == c.transaction.domain
    ensures reversePath.Some? ==> r.1.transaction.firstRecipient.None?
    ensures r.0 == Succeed || r.0 == Failed ==> Input(r.1) == Input(ConsumeLine(c).value)
    ensures r.0 != Succeed && r.0 != Failed ==> r.0 == Error
  {
    match reversePath
    case None => Answer(c, false, BadReversePath, alloc, Failed)
    case Some(p) =>
      var c1 := c.(transaction := T.Begin(c.transaction));
      var (ok, t) := T.SetReversePath(c1.transaction, p, copyOk);
      var c2 := c1.(transaction := t);
      if !ok then (Error, c2)
      else Answer(c2, true, Ok, alloc, Succeed)
  }

  /**
   * `handle_rcpt`. Without a parsable forward-path the line is consumed, 555
   * queued and the transition fails. Otherwise exactly one recipient is
   * added, the line consumed and "250 Ok" queued. `copyOk` is the outcome
   * of the recipient's allocations, `alloc` that of the reply's; the
   * recipient stays added when only the reply fails.
   */
  function HandleRcpt(c: C.Context, forwardPath: Option<string>, copyOk: bool, alloc: bool): (r: (TransitionResult, C.Context))
    requires C.Valid(c)
    ensures C.Valid(r.1)
    ensures forwardPath.None? ==> r.1.transaction == c.transaction
    ensures forwardPath.None? ==> (r.0 == Failed <==> alloc && ConsumeLine(c).Some?)
    ensures r.0 == Failed ==> forwardPath.None? && Sent(r.1) == Sent(c) + [BadForwardPath]
    ensures r.0 == Succeed <==> forwardPath.Some? && copyOk && alloc && ConsumeLine(c).Some?
    ensures r.0 == Succeed ==> Sent(r.1) == Sent(c) + [Ok]
    ensures forwardPath.Some? && !copyOk ==> r.0 == Error && r.1.transaction == c.transaction
    ensures forwardPath.Some? && copyOk ==>
      r.1.transaction.recipients == [forwardPath.value] + c.transaction.recipients
    ensures forwardPath.Some? && copyOk ==>
      r.1.transaction.firstRecipient
      == (if c.transaction.firstRecipient.None? then forwardPath else c.transaction.firstRecipient)
    ensures r.1.transaction.active == c.transaction.active
    ensures r.1.transaction.reversePath == c.transaction.reversePath
    ensures r.0 == Succeed || r.0 == Failed ==> Input(r.1) == Input(ConsumeLine(c).value)
    ensures r.0 != Succeed && r.0 != Failed ==> r.0 == Error
  {
    match forwardPath
    case None => Answer(c, false, BadForwardPath, alloc, Failed)
    case Some(p) =>
      var (ok, t) := T.AddForwardPath(c.transaction, p, copyOk, copyOk);
      var c1 := c.(transaction := t);
      if !ok then (Error, c1)
      else Answer(c1, true, Ok, alloc, Succeed)
  }

  /**
   * `handle_data_begin`, in two phases. The first call consumes the DATA
   * line, starts the message with its header and waits. A later call
   * (the wait flag set) asks how the header write went: done clears the
   * flag and queues 354, still running keeps waiting.
   */
  function HandleDataBegin(c: C.Context, io: Outcomes): (r: (TransitionResult, C.Context))
    requires C.Valid(c)
    ensures C.Valid(r.1)
    ensures !c.isWaitTransition ==> (r.0 == Wait <==>
      ConsumeLine(c).Some? && T.AddHeader(c.transaction, io.header, io.aio, io.created, io.submitOk).0)
    ensures !c.isWaitTransition && r.0 == Wait ==> r.1.isWaitTransition && Sent(r.1) == Sent(c)
    ensures !c.isWaitTransition && r.0 == Wait ==> Input(r.1) == Input(ConsumeLine(c).value)
    ensures !c.isWaitTransition ==> r.0 == Wait || r.0 == Error
    ensures !c.isWaitTransition && ConsumeLine(c).None? ==> r == (Error, c)
    ensures !c.isWaitTransition && ConsumeLine(c).Some? ==>
      r.1.transaction == T.AddHeader(c.transaction, io.header, io.aio, io.created, io.submitOk).1
    ensures c.isWaitTransition ==> r.1.transaction == c.transaction && Input(r.1) == Input(c)
    ensures c.isWaitTransition && T.AddDataStatus(c.transaction, io.aio) == T.Wait ==> r == (Wait, c)
    ensures c.isWaitTransition && T.AddDataStatus(c.transaction, io.aio) == T.Error ==> r == (Error, c)
    ensures c.isWaitTransition && T.AddDataStatus(c.transaction, io.aio) == T.Done ==>
      !r.1.isWaitTransition && (r.0 == Succeed <==> io.alloc)
    ensures r.0 == Succeed ==> c.isWaitTransition && Sent(r.1) == Sent(c) + [StartMailInput]
  {
    if c.isWaitTransition then
      match T.AddDataStatus(c.transaction, io.aio)
      case Done =>
        var c1 := c.(isWaitTransition := false);
        (match Push(c1, StartMailInput, io.alloc)
         case None => (Error, c1)
         case Some(c2) => (Succeed, c2))
      case Wait => (Wait, c)
      case Error => (Error, c)
    else
      match ConsumeLine(c)
      case None => (Error, c)
      case Some(c1) =>
        var c2 := CompactIfFull(c1);
        var (ok, t) := T.AddHeader(c2.transaction, io.header, io.aio, io.created, io.submitOk);
        var c3 := c2.(transaction := t);
        if !ok then (Error, c3)
        else (Wait, c3.(isWaitTransition := true))
  }

  /**
   * `handle_data`, for each line of message text. A first call hands the
   * line, CRLF included, to the message write and waits; a later call
   * waits for that write, and when it is done clears the flag.
   */
  function HandleData(c: C.Context, io: Outcomes): (r: (TransitionResult, C.Context))
    requires C.Valid(c)
    ensures C.Valid(r.1) && Sent(r.1) == Sent(c)
    ensures !c.isWaitTransition ==> r.0 == Wait || r.0 == Error
    ensures !c.isWaitTransition && r.0 == Wait ==>
      && r.1.isWaitTransition
      && ConsumeLine(c).Some?
      && Input(r.1) == Input(ConsumeLine(c).value)
      && T.DumpData(c.transaction, io.aio, io.created, io.submitOk).0 == T.Done
    ensures !c.isWaitTransition ==>
      (r.0 == Wait <==> ConsumeLine(c).Some? && T.DumpData(c.transaction, io.aio, io.created, io.submitOk).0 == T.Done)
    ensures !c.isWaitTransition && ConsumeLine(c).None? ==> r == (Error, c)
    ensures !c.isWaitTransition && ConsumeLine(c).Some? ==>
      r.1.transaction == T.DumpData(c.transaction, io.aio, io.created, io.submitOk).1
    ensures c.isWaitTransition ==> Input(r.1) == Input(c) && r.1.transaction == c.transaction
    ensures c.isWaitTransition ==> (r.0 == Succeed <==> T.AddDataStatus(c.transaction, io.aio) == T.Done)
    ensures c.isWaitTransition && r.0 == Succeed ==> !r.1.isWaitTransition
    ensures c.isWaitTransition && r.0 != Succeed ==> r == (if T.AddDataStatus(c.transaction, io.aio) == T.Wait then Wait else Error, c)
  {
    if c.isWaitTransition then
      match T.AddDataStatus(c.transaction, io.aio)
      case Done => (Succeed, CompactIfFull(c).(isWaitTransition := false))
      case Wait => (Wait, c)
      case Error => (Error, c)
    else
      var b := c.inMessage;
      var end := B.Find(b, B.CRLF);
      if end == |b.data| then (Error, c)
      else
        var size := end - b.readPos + 2;
        var (n, t) := T.AddData(c.transaction, size, io.aio, io.created, io.submitOk);
        var c1 := c.(transaction := t);
        if n != size then (Error, c1)
        else
          var c2 := c1.(inMessage := B.ShiftRead(b, size), isWaitTransition := true);
          assert ConsumeLine(c).value.inMessage == c2.inMessage;
          (Wait, c2)
  }

  /**
   * `handle_data_end`: commit the transaction. Done clears the wait flag,
   * consumes the "." line and queues "250 Ok"; a running write sets the
   * flag and waits; anything else is an error.
   */
  function HandleDataEnd(c: C.Context, io: Outcomes): (r: (TransitionResult, C.Context))
    requires C.Valid(c)
    ensures C.Valid(r.1)
    ensures var (status, t) := T.Commit(c.transaction, io.aio, io.closeOk, io.moveOk, io.cloneOk);
      && r.1.transaction == t
      && (status == T.Wait ==> r == (Wait, c.(transaction := t, isWaitTransition := true)))
      && (status == T.Error ==> r == (Error, c.(transaction := t)))
      && (status == T.Done ==> !r.1.isWaitTransition && !T.IsActive(r.1.transaction))
      && (r.0 == Succeed <==> status == T.Done && ConsumeLine(c).Some? && io.alloc)
    ensures r.0 == Succeed ==> Sent(r.1) == Sent(c) + [Ok] && Input(r.1) == Input(ConsumeLine(c).value)
    ensures r.0 in {Succeed, Wait, Error}
  {
    var (status, t) := T.Commit(c.transaction, io.aio, io.closeOk, io.moveOk, io.cloneOk);
    var c1 := c.(transaction := t);
    match status
    case Wait => (Wait, c1.(isWaitTransition := true))
    case Error => (Error, c1)
    case Done =>
      var c2 := c1.(isWaitTransition := false);
      Answer(c2, true, Ok, io.alloc, Succeed)
  }

  /** `handle_quit`: consume the line and queue 221. */
  function HandleQuit(c: C.Context, alloc: bool): (r: (TransitionResult, C.Context))
    requires C.Valid(c)
    ensures C.Valid(r.1) && r.1.transaction == c.transaction
    ensures r.0 == Succeed <==> alloc && ConsumeLine(c).Some?
    ensures r.0 != Succeed ==> r.0 == Error
    ensures r.0 == Succeed ==> Sent(r.1) == Sent(c) + [Closing]
    ensures r.0 == Succeed ==> Input(r.1) == Input(ConsumeLine(c).value)
  {
    Answer(c, true, Closing, alloc, Succeed)
  }

  /** `handle_invalid`: consume the line and queue 451. */
  function HandleInvalid(c: C.Context, alloc: bool): (r: (TransitionResult, C.Context))
    requires C.Valid(c)
    ensures C.Valid(r.1) && r.1.transaction == c.transaction
    ensures r.0 == Succeed <==> alloc && ConsumeLine(c).Some?
    ensures r.0 != Succeed ==> r.0 == Error
    ensures r.0 == Succeed ==> Sent(r.1) == Sent(c) + [InternalError]
    ensures r.0 == Succeed ==> Input(r.1) == Input(ConsumeLine(c).value)
  {
    Answer(c, true, InternalError, alloc, Succeed)
  }

  // ---------------------------------------------------------------------------
  // Properties
  // ---------------------------------------------------------------------------

  /** A three-digit reply code whose first digit is 1 to 5. */
  predicate IsCode(code: string) {
    |code| == 3 && '1' <= code[0] <= '5' && '0' <= code[1] <= '9' && '0' <= code[2] <= '9'
  }

  /** What a client can rely on of a reply line. */
  predicate IsReply(s: string) {
    |s| >= 6 && IsCode(s[..3]) && s[3] == ' ' && s[|s| - 2..] == B.CRLF
  }

  function Code(s: string): string
    requires |s| >= 3
  {
    s[..3]
  }

  /** A reply built from a code has that code and is a reply line. */
  lemma ReplyShape(code: string, text: string)
    requires IsCode(code)
    ensures IsReply(Reply(code, text)) && Code(Reply(code, text)) == code
  {
    var s := Reply(code, text);
    assert s[..3] == code;
    assert s[|s| - 2..] == B.CRLF;
  }

  /** Every reply the handlers queue is a well-formed reply line. */
  lemma RepliesWellFormed()
    ensures IsReply(ServiceReady) && Code(ServiceReady) == "220"
    ensures IsReply(Ok) && Code(Ok) == "250"
    ensures IsReply(NotImplemented) && Code(NotImplemented) == "502"
    ensures IsReply(BadReversePath) && Code(BadReversePath) == "555"
    ensures IsReply(BadForwardPath) && Code(BadForwardPath) == "555"
    ensures IsReply(StartMailInput) && Code(StartMailInput) == "354"
    ensures IsReply(Closing) && Code(Closing) == "221"
    ensures IsReply(InternalError) && Code(InternalError) == "451"
  {
    ReplyShape("220", "Service ready");
    ReplyShape("250", "Ok");
    ReplyShape("502", "Command not implemented");
    ReplyShape("555", "Syntax error in reverse-path or not present");
    ReplyShape("555", "Syntax error in forward-path or not present");
    ReplyShape("354", "Start mail input; end with <CRLF>.<CRLF>");
    ReplyShape("221", "Service closing transmission channel");
    ReplyShape("451", "Requested action aborted: internal error");
  }

  /**
   * With one CRLF-terminated line buffered, a handler that answers takes
   * exactly that line: what is left is the rest of the input.
   */
  lemma AnswerTakesOneLine(c: C.Context, line: seq<char>, rest: seq<char>)
    requires C.Valid(c) && Input(c) == line + B.CRLF + rest
    requires forall k :: 0 <= k < |line| - 1 ==> !(line[k] == '\r' && line[k + 1] == '\n')
    ensures ConsumeLine(c).Some? && Input(ConsumeLine(c).value) == rest
  {
    B.ConsumeLine(c.inMessage, line, rest);
  }

  /**
   * MAIL then DATA on a fresh transaction: the first DATA call starts the
   * header write and waits; once the write is done the second call queues
   * 354 and stops waiting.
   */
  lemma DataBeginTwoPhases(c: C.Context, io: Outcomes, io2: Outcomes)
    requires C.Valid(c) && !c.isWaitTransition
    requires HandleDataBegin(c, io).0 == Wait
    requires T.AddDataStatus(HandleDataBegin(c, io).1.transaction, io2.aio) == T.Done && io2.alloc
    ensures HandleDataBegin(c, io).1.isWaitTransition
    ensures var (r2, c2) := HandleDataBegin(HandleDataBegin(c, io).1, io2);
      && r2 == Succeed && !c2.isWaitTransition
      && Sent(c2) == Sent(c) + [StartMailInput]
  {
  }

  /** A line without CRLF inside it, so that its own CRLF is the first one. */
  predicate OneLine(line: seq<char>) {
    forall k :: 0 <= k < |line| - 1 ==> !(line[k] == '\r' && line[k + 1] == '\n')
  }

  /**
   * What a session needs for a message to be written and delivered: every
   * allocation and system call succeeds, each write finishes in full, and
   * linking for other recipients succeeds or is not needed.
   */
  predicate Smooth(io: Outcomes, t: T.Transaction) {
    && io.alloc && io.aio == T.Finished(true) && io.created.Some? && io.submitOk && io.header.Some?
    && io.closeOk && io.moveOk && (io.cloneOk || |t.recipients| <= 1)
  }

  /**
   * The first DATA call on a transaction with no write yet consumes the
   * DATA line, stores the header, opens the message file and waits.
   */
  lemma DataBeginOpensMessage(c: C.Context, io: Outcomes, line: seq<char>, rest: seq<char>)
    requires C.Valid(c) && !c.isWaitTransition && c.transaction.fd == -1 && Smooth(io, c.transaction)
    requires Input(c) == line + B.CRLF + rest && OneLine(line)
    ensures var (r, c1) := HandleDataBegin(c, io);
      && r == Wait && c1.isWaitTransition && Sent(c1) == Sent(c) && Input(c1) == rest
      && c1.transaction == c.transaction.(header := io.header, fd := io.created.value)
  {
    AnswerTakesOneLine(c, line, rest);
  }

  /** Once the header is written, the second DATA call queues 354 and stops waiting. */
  lemma DataBeginConfirms(c: C.Context, io: Outcomes)
    requires C.Valid(c) && c.isWaitTransition && c.transaction.fd != -1 && Smooth(io, c.transaction)
    ensures var (r, c1) := HandleDataBegin(c, io);
      && r == Succeed && !c1.isWaitTransition && c1.transaction == c.transaction
      && Sent(c1) == Sent(c) + [StartMailInput] && Input(c1) == Input(c)
  {
  }

  /**
   * A line of message text after a finished write is submitted, CRLF
   * included, to the same message file, and the session waits for it.
   */
  lemma MessageLineSubmitted(c: C.Context, io: Outcomes, line: seq<char>, rest: seq<char>)
    requires C.Valid(c) && !c.isWaitTransition && c.transaction.fd != -1 && Smooth(io, c.transaction)
    requires Input(c) == line + B.CRLF + rest && OneLine(line)
    ensures var (r, c1) := HandleData(c, io);
      && r == Wait && c1.isWaitTransition && c1.transaction == c.transaction
      && Sent(c1) == Sent(c) && Input(c1) == rest
  {
    AnswerTakesOneLine(c, line, rest);
  }

  /** Once that write is done, the second call for the line succeeds and stops waiting. */
  lemma MessageLineConfirmed(c: C.Context, io: Outcomes)
    requires C.Valid(c) && c.isWaitTransition && c.transaction.fd != -1 && Smooth(io, c.transaction)
    ensures var (r, c1) := HandleData(c, io);
      && r == Succeed && !c1.isWaitTransition && c1.transaction == c.transaction
      && Sent(c1) == Sent(c) && Input(c1) == Input(c)
  {
  }

  /**
   * The "." line commits a transaction whose write is done: the message is
   * delivered, the transaction ends with its file closed, the line is
   * consumed and "250 Ok" queued.
   */
  lemma DataEndCommits(c: C.Context, io: Outcomes, rest: seq<char>)
    requires C.Valid(c) && T.IsActive(c.transaction) && c.transaction.fd != -1 && Smooth(io, c.transaction)
    requires Input(c) == "." + B.CRLF + rest
    ensures var (r, c1) := HandleDataEnd(c, io);
      && r == Succeed && !c1.isWaitTransition
      && !T.IsActive(c1.transaction) && c1.transaction.fd == -1
      && c1.transaction.recipients == c.transaction.recipients
      && Sent(c1) == Sent(c) + [Ok] && Input(c1) == rest
  {
    AnswerTakesOneLine(c, ".", rest);
  }

  /**
   * MAIL and one RCPT on an inactive transaction leave an active
   * transaction with that one recipient, no header and no write yet.
   */
  lemma EnvelopeReadyForData(c: C.Context, from: string, to: string, a1: bool, a2: bool)
    requires C.Valid(c) && !T.IsActive(c.transaction)
    ensures var t := HandleRcpt(HandleMail(c, Some(from), true, a1).1, Some(to), true, a2).1.transaction;
      && T.IsActive(t) && t.fd == -1 && t.header.None? && t.recipients == [to]
  {
  }

  /** Appending two items one at a time appends both. */
  lemma AppendTwo<X>(s: seq<X>, a: X, b: X)
    ensures s + [a] + [b] == s + [a, b]
  {
  }

  /** The two DATA calls: the header goes to a new message file, then 354 is queued. */
  lemma DataPhase(c0: C.Context, io: Outcomes, command: seq<char>, rest: seq<char>)
    requires C.Valid(c0) && !c0.isWaitTransition && c0.transaction.fd == -1 && Smooth(io, c0.transaction)
    requires Input(c0) == command + B.CRLF + rest && OneLine(command)
    ensures var c2 := HandleDataBegin(HandleDataBegin(c0, io).1, io).1;
      && C.Valid(c2) && !c2.isWaitTransition && Input(c2) == rest
      && c2.transaction == c0.transaction.(header := io.header, fd := io.created.value)
      && Sent(c2) == Sent(c0) + [StartMailInput]
  {
    DataBeginOpensMessage(c0, io, command, rest);
    DataBeginConfirms(HandleDataBegin(c0, io).1, io);
  }

  /** The two calls for a line of text: it is written to the message file, and the session reads on. */
  lemma TextPhase(c2: C.Context, io: Outcomes, text: seq<char>, rest: seq<char>)
    requires C.Valid(c2) && !c2.isWaitTransition && c2.transaction.fd != -1 && Smooth(io, c2.transaction)
    requires Input(c2) == text + B.CRLF + rest && OneLine(text)
    ensures var c4 := HandleData(HandleData(c2, io).1, io).1;
      && C.Valid(c4) && !c4.isWaitTransition && Input(c4) == rest
      && c4.transaction == c2.transaction && Sent(c4) == Sent(c2)
  {
    MessageLineSubmitted(c2, io, text, rest);
    MessageLineConfirmed(HandleData(c2, io).1, io);
  }

  /**
   * DATA, one line of text and "." over an envelope with no write yet:
   * the header is written to a new message file, the text line goes to
   * the same file, and the commit delivers it and ends the transaction.
   * The client sees 354 and then "250 Ok", and exactly the three lines are
   * consumed.
   */
  lemma MessageSession(c0: C.Context, io: Outcomes, command: seq<char>, text: seq<char>, rest: seq<char>)
    requires C.Valid(c0) && !c0.isWaitTransition
    requires T.IsActive(c0.transaction) && c0.transaction.fd == -1 && Smooth(io, c0.transaction)
    requires Input(c0) == command + B.CRLF + text + B.CRLF + "." + B.CRLF + rest
    requires OneLine(command) && OneLine(text)
    ensures var c2 := HandleDataBegin(HandleDataBegin(c0, io).1, io).1;
      var c4 := HandleData(HandleData(c2, io).1, io).1;
      var r := HandleDataEnd(c4, io);
      && c2.transaction == c0.transaction.(header := io.header, fd := io.created.value)
      && c4.transaction == c2.transaction
      && r.0 == Succeed && !T.IsActive(r.1.transaction) && r.1.transaction.fd == -1
      && r.1.transaction.recipients == c0.transaction.recipients
      && Sent(r.1) == Sent(c0) + [StartMailInput, Ok] && Input(r.1) == rest
  {
    var afterText := "." + B.CRLF + rest;
    var afterCommand := text + B.CRLF + afterText;
    assert Input(c0) == command + B.CRLF + afterCommand;
    DataPhase(c0, io, command, afterCommand);
    var c2 := HandleDataBegin(HandleDataBegin(c0, io).1, io).1;
    TextPhase(c2, io, text, afterText);
    var c4 := HandleData(HandleData(c2, io).1, io).1;
    DataEndCommits(c4, io, rest);
    assert Sent(c4) == Sent(c0) + [StartMailInput];
    AppendTwo(Sent(c0), StartMailInput, Ok);
  }

  /**
   * RSET discards the envelope of an active transaction: the message write
   * is cancelled and header, reverse-path and recipients are dropped, so a
   * following MAIL starts from nothing but its own reverse-path. On an
   * inactive transaction RSET changes nothing.
   */
  lemma RsetDiscardsEnvelope(c: C.Context, from: string, a1: bool, a2: bool)
    requires C.Valid(c)
    ensures !T.IsActive(c.transaction) ==> HandleRset(c, a1).1.transaction == c.transaction
    ensures T.IsActive(c.transaction) ==>
      var t := HandleRset(c, a1).1.transaction;
      && t.header.None? && t.reversePath.None? && t.recipients == [] && t.fd == -1
    ensures var t := HandleMail(HandleRset(c, a1).1, Some(from), true, a2).1.transaction;
      && T.IsActive(t) && t.reversePath == Some(from) && t.recipients == [] && t.firstRecipient.None?
      && t.header.None? && t.fd == -1 && t.domain == c.transaction.domain
  {
  }

  /** A rejected MAIL or RCPT leaves the transaction as it was. */
  lemma RejectionsKeepTransaction(c: C.Context, copyOk: bool, alloc: bool)
    requires C.Valid(c)
    ensures HandleMail(c, None, copyOk, alloc).1.transaction == c.transaction
    ensures HandleRcpt(c, None, copyOk, alloc).1.transaction == c.transaction
  {
  }

  /**
   * MAIL then two RCPTs with every copy made: the transaction is active,
   * with both recipients, newest first, and the first one accepted as the
   * first recipient, whatever happened to the three replies.
   */
  lemma MailThenRecipients(c: C.Context, from: string, to1: string, to2: string, a1: bool, a2: bool, a3: bool)
    requires C.Valid(c) && !T.IsActive(c.transaction)
    ensures var c1 := HandleMail(c, Some(from), true, a1).1;
      var c2 := HandleRcpt(c1, Some(to1), true, a2).1;
      var t := HandleRcpt(c2, Some(to2), true, a3).1.transaction;
      && T.IsActive(t) && t.reversePath == Some(from)
      && t.recipients == [to2, to1] && t.firstRecipient == Some(to1)
  {
    var c1 := HandleMail(c, Some(from), true, a1).1;
    var c2 := HandleRcpt(c1, Some(to1), true, a2).1;
    var c3 := HandleRcpt(c2, Some(to2), true, a3).1;
    assert c2.transaction.recipients == [to1] && c2.transaction.firstRecipient == Some(to1);
    assert c3.transaction.recipients == [to2] + [to1];
  }
}

=== FILE: maildir.dfy ===
/**
 * The mailbox layout of src/maildir.c: each recipient `local@domain` gets a
 * Maildir under `<base>/<domain>/<local>/Maildir` with the subdirectories
 * `tmp`, `new` and `cur`. The file-system calls are represented by the
 * paths they are given and by an outcome oracle for `mkdir`.
 */
module Maildir {
  import opened Optional
  import opened CText

  /** `PATH_SIZE`: the bytes of every path buffer, NUL included. */
  const PathSize: nat := 256

  const MaildirSuffix: string := "/Maildir"

  /** The three subdirectories, in the order they are created. */
  const SubPaths: seq<string> := ["tmp", "new", "cur"]

  /** `maildir_t`: the directory path written into `__path`. */
  datatype Maildir = Maildir(path: string)

  /** What one `mkdir` call reports. */
  datatype MkdirOutcome = Created | AlreadyExists | Failed

  /** The file-system call a file operation issues. */
  datatype FsCall =
    | Open(path: string)
    | Remove(path: string)
    | Rename(from: string, to: string)
    | Link(from: string, to: string)

  // ---------------------------------------------------------------------------
  // make_path
  // ---------------------------------------------------------------------------

  /** Every proper prefix `t[..k]` with `from <= k` that ends just before a '/'. */
  function SlashPrefixes(t: string, from: nat): (r: seq<string>)
    decreases |t| - from
  {
    if from >= |t| then []
    else if t[from] == '/' then [t[..from]] + SlashPrefixes(t, from + 1)
    else SlashPrefixes(t, from + 1)
  }

  lemma SlashPrefixesSpec(t: string, from: nat)
    ensures forall p :: p in SlashPrefixes(t, from) <==>
      exists k :: from <= k < |t| && t[k] == '/' && p == t[..k]
    ensures forall i, j :: 0 <= i < j < |SlashPrefixes(t, from)| ==>
      |SlashPrefixes(t, from)[i]| < |SlashPrefixes(t, from)[j]|
    ensures forall i :: 0 <= i < |SlashPrefixes(t, from)| ==>
      from <= |SlashPrefixes(t, from)[i]| < |t|
  {
    var r := SlashPrefixes(t, from);
    SlashPrefixesSound(t, from);
    SlashPrefixesComplete(t, from);
    SlashPrefixesSorted(t, from);
    forall p | p in r ensures exists k :: from <= k < |t| && t[k] == '/' && p == t[..k] {
      var i :| 0 <= i < |r| && r[i] == p;
      assert from <= |p| < |t| && t[|p|] == '/' && p == t[..|p|];
    }
  }

  /** Every collected prefix ends just before a '/' at or after `from`. */
  lemma {:induction false} SlashPrefixesSound(t: string, from: nat)
    ensures forall i :: 0 <= i < |SlashPrefixes(t, from)| ==>
      var p := SlashPrefixes(t, from)[i];
      from <= |p| < |t| && t[|p|] == '/' && p == t[..|p|]
    decreases |t| - from
  {
    if from < |t| {
      SlashPrefixesSound(t, from + 1);
    }
  }

  /** Every prefix ending just before a '/' at or after `from` is collected. */
  lemma {:induction false} SlashPrefixesComplete(t: string, from: nat)
    ensures forall k :: from <= k < |t| && t[k] == '/' ==> t[..k] in SlashPrefixes(t, from)
    decreases |t| - from
  {
    if from < |t| {
      SlashPrefixesComplete(t, from + 1);
    }
  }

  /** The prefixes come shortest first. */
  lemma {:induction false} SlashPrefixesSorted(t: string, from: nat)
    ensures forall i, j :: 0 <= i < j < |SlashPrefixes(t, from)| ==>
      |SlashPrefixes(t, from)[i]| < |SlashPrefixes(t, from)[j]|
    decreases |t| - from
  {
    if from < |t| {
      SlashPrefixesSorted(t, from + 1);
      SlashPrefixesSound(t, from + 1);
    }
  }

  /** The path `make_path` works on: cut to the buffer, one trailing '/' dropped. */
  function Trimmed(path: string): (t: string)
    requires |path| > 0
    ensures |t| < PathSize && |t| <= |path| && t == path[..|t|]
    ensures |path| < PathSize ==> t == (if path[|path| - 1] == '/' then path[..|path| - 1] else path)
  {
    var tmp := Snprintf(path, PathSize);
    if tmp[|tmp| - 1] == '/' then tmp[..|tmp| - 1] else tmp
  }

  /**
   * `make_path`: the directories it passes to `mkdir`, in order. Every
   * prefix ending just before a '/' (other than the leading one), then the
   * whole path.
   */
  function MakePathTargets(path: string): (r: seq<string>)
    requires |path| > 0
    ensures |r| >= 1 && r[|r| - 1] == Trimmed(path)
  {
    SlashPrefixes(Trimmed(path), 1) + [Trimmed(path)]
  }

  /**
   * Running the `mkdir` calls: an earlier call failing for a reason other
   * than "exists" stops with failure; the last call's outcome is the result.
   */
  function RunMkdirs(targets: seq<string>, mkdir: string -> MkdirOutcome): (r: MkdirOutcome)
    requires |targets| >= 1
    ensures r == Failed <==> exists i :: 0 <= i < |targets| && mkdir(targets[i]) == Failed
    ensures r != Failed ==> r == mkdir(targets[|targets| - 1])
  {
    if |targets| == 1 then mkdir(targets[0])
    else if mkdir(targets[0]) == Failed then Failed
    else
      var r := RunMkdirs(targets[1..], mkdir);
      assert forall i :: 1 <= i < |targets| ==> targets[i] == targets[1..][i - 1];
      r
  }

  /** `make_path` with the outcome of each `mkdir` given by `mkdir`. */
  function MakePath(path: string, mkdir: string -> MkdirOutcome): (r: MkdirOutcome)
    requires |path| > 0
    ensures r == Failed <==> exists i :: 0 <= i < |MakePathTargets(path)| && mkdir(MakePathTargets(path)[i]) == Failed
    ensures r != Failed ==> r == mkdir(Trimmed(path))
  {
    RunMkdirs(MakePathTargets(path), mkdir)
  }

  // ---------------------------------------------------------------------------
  // maildir_init
  // ---------------------------------------------------------------------------

  /** `base/domain/local/Maildir` for the recipient `local@domain`. */
  function MaildirPath(base: string, recipient: string): (p: string)
    requires '@' in recipient
    ensures |p| == |base| + |recipient| + |MaildirSuffix| + 1
  {
    var at := Strchr(recipient, '@').value;
    base + "/" + recipient[at + 1..] + "/" + recipient[..at] + MaildirSuffix
  }

  /** The length test of `maildir_init`, as written. */
  predicate GuardAsWritten(base: string, recipient: string) {
    |base| + |recipient| + |MaildirSuffix| + 2 <= PathSize
  }

  /** A subdirectory path as `snprintf` leaves it in a `PATH_SIZE` buffer. */
  function SubPath(dir: string, sub: string): string {
    Snprintf(dir + "/" + sub, PathSize)
  }

  /** The `mkdir` loop over `tmp`, `new` and `cur` succeeded. */
  predicate SubdirsMade(dir: string, mkdir: string -> MkdirOutcome) {
    forall i :: 0 <= i < |SubPaths| ==> MakePath(SubPath(dir, SubPaths[i]), mkdir) != Failed
  }

  /**
   * `maildir_init` exactly as written: the guard, the '@' search, the path,
   * then the three subdirectories.
   */
  function MaildirInitAsWritten(base: string, recipient: string, mkdir: string -> MkdirOutcome): (r: Option<Maildir>)
    ensures r.Some? <==> GuardAsWritten(base, recipient) && '@' in recipient
                         && SubdirsMade(MaildirPath(base, recipient), mkdir)
    ensures r.Some? ==> r.value.path == MaildirPath(base, recipient)
  {
    if !GuardAsWritten(base, recipient) then None
    else if Strchr(recipient, '@').None? then None
    else
      var dir := MaildirPath(base, recipient);
      if SubdirsMade(dir, mkdir) then Some(Maildir(dir)) else None
  }

  /**
   * The length test with room for the longest subdirectory suffix `/tmp`
   * as well, so that the subdirectory paths are never cut.
   */
  predicate Guard(base: string, recipient: string) {
    |base| + |recipient| + |MaildirSuffix| + |"/tmp"| + 2 <= PathSize
  }

  /** `maildir_init` with the corrected length test. */
  function MaildirInit(base: string, recipient: string, mkdir: string -> MkdirOutcome): (r: Option<Maildir>)
    ensures r.Some? <==> Guard(base, recipient) && '@' in recipient
                         && SubdirsMade(MaildirPath(base, recipient), mkdir)
    ensures r.Some? ==> r.value.path == MaildirPath(base, recipient)
    ensures r.Some? ==> forall i :: 0 <= i < |SubPaths| ==> SubPath(r.value.path, SubPaths[i]) == r.value.path + "/" + SubPaths[i]
  {
    if !Guard(base, recipient) then None
    else if Strchr(recipient, '@').None? then None
    else
      var dir := MaildirPath(base, recipient);
      if SubdirsMade(dir, mkdir) then Some(Maildir(dir)) else None
  }

  // ---------------------------------------------------------------------------
  // File paths
  // ---------------------------------------------------------------------------

  /** `<dir>/<sub>/<filename>` as `snprintf` leaves it in a `PATH_SIZE` buffer. */
  function FilePath(m: Maildir, sub: string, filename: string): string {
    Snprintf(m.path + "/" + sub + "/" + filename, PathSize)
  }

  /** `maildir_create_file`: opens `tmp/<filename>`. */
  function CreateFile(m: Maildir, filename: string): (c: FsCall)
    ensures c.Open? && |c.path| < PathSize
    ensures |c.path| <= |m.path + "/tmp/" + filename| && c.path == (m.path + "/tmp/" + filename)[..|c.path|]
    ensures |m.path| + 5 + |filename| < PathSize ==> c.path == m.path + "/tmp/" + filename
  {
    Open(FilePath(m, "tmp", filename))
  }

  /** `maildir_remove_file`: removes `tmp/<filename>`. */
  function RemoveFile(m: Maildir, filename: string): (c: FsCall)
    ensures c.Remove? && c.path == CreateFile(m, filename).path
    ensures |m.path| + 5 + |filename| < PathSize ==> c.path == m.path + "/tmp/" + filename
  {
    Remove(FilePath(m, "tmp", filename))
  }

  /** `maildir_move_to_new`: renames `tmp/<filename>` to `new/<filename>`. */
  function MoveToNew(m: Maildir, filename: string): (c: FsCall)
    ensures c.Rename? && c.from == CreateFile(m, filename).path
    ensures c.to == FilePath(m, "new", filename)
  {
    Rename(FilePath(m, "tmp", filename), FilePath(m, "new", filename))
  }

  /** `maildir_clone_file`: links `src/new/<filename>` as `dst/new/<filename>`. */
  function CloneFile(src: Maildir, dst: Maildir, filename: string): (c: FsCall)
    ensures c.Link? && c.from == MoveToNew(src, filename).to
    ensures c.to == MoveToNew(dst, filename).to
  {
    Link(FilePath(src, "new", filename), FilePath(dst, "new", filename))
  }

  // ---------------------------------------------------------------------------
  // Properties
  // ---------------------------------------------------------------------------

  /** Whenever the length test passes, the Maildir path and its NUL fit. */
  lemma PathFits(base: string, recipient: string)
    requires GuardAsWritten(base, recipient) && '@' in recipient
    ensures |MaildirPath(base, recipient)| + 1 <= PathSize
  {
  }

  /** The recipient's two halves are recoverable from the path. */
  lemma PathLayout(base: string, recipient: string, local: string, domain: string)
    requires '@' !in local && recipient == local + "@" + domain
    ensures MaildirPath(base, recipient) == base + "/" + domain + "/" + local + "/Maildir"
  {
    var at := Strchr(recipient, '@').value;
    assert recipient[|local|] == '@';
    assert recipient[..|local|] == local;
    assert at == |local|;
    assert recipient[at + 1..] == domain;
  }

  /** A recipient without '@' never gets a Maildir. */
  lemma NoAtRejected(base: string, recipient: string, mkdir: string -> MkdirOutcome)
    requires '@' !in recipient
    ensures MaildirInitAsWritten(base, recipient, mkdir).None?
    ensures MaildirInit(base, recipient, mkdir).None?
  {
  }

  /**
   * `make_path` creates the parents before the child: its targets are
   * exactly the '/'-terminated prefixes of the path, shortest first, and
   * then the path itself.
   */
  lemma MakePathOrder(path: string)
    requires |path| > 0
    ensures var r := MakePathTargets(path);
      && (forall i, j :: 0 <= i < j < |r| ==> |r[i]| < |r[j]|)
      && (forall i :: 0 <= i < |r| ==> IsPrefix(r[i], Trimmed(path)))
      && (forall k :: 1 <= k < |Trimmed(path)| && Trimmed(path)[k] == '/' ==> Trimmed(path)[..k] in r)
  {
    var t := Trimmed(path);
    SlashPrefixesSpec(t, 1);
    var s := SlashPrefixes(t, 1);
    var r := MakePathTargets(path);
    assert r == s + [t];
    forall i | 0 <= i < |r|
      ensures IsPrefix(r[i], t)
    {
      if i < |s| {
        assert s[i] in s;
        var k :| 1 <= k < |t| && t[k] == '/' && s[i] == t[..k];
      }
    }
    forall k | 1 <= k < |t| && t[k] == '/'
      ensures t[..k] in r
    {
      assert t[..k] in s;
    }
  }

  /** A path with no inner '/' is made by a single `mkdir`. */
  lemma MakePathFlat(path: string)
    requires |path| > 0 && |path| < PathSize && '/' !in path
    ensures MakePathTargets(path) == [path]
  {
    var t := Trimmed(path);
    assert t == path;
    SlashPrefixesNone(t, 1);
  }

  lemma {:induction false} SlashPrefixesNone(t: string, from: nat)
    requires '/' !in t
    ensures SlashPrefixes(t, from) == []
    decreases |t| - from
  {
    if from < |t| {
      assert t[from] in t;
      SlashPrefixesNone(t, from + 1);
    }
  }

  /** Moving to `new` and cloning keep the file name when nothing is cut. */
  lemma FileNameKept(src: Maildir, dst: Maildir, filename: string)
    requires |src.path| + |"/tmp/"| + |filename| < PathSize
    requires |dst.path| + |"/new/"| + |filename| < PathSize
    ensures MoveToNew(src, filename) == Rename(src.path + "/tmp/" + filename, src.path + "/new/" + filename)
    ensures CloneFile(src, dst, filename) == Link(src.path + "/new/" + filename, dst.path + "/new/" + filename)
  {
    assert src.path + "/" + "tmp" + "/" + filename == src.path + "/tmp/" + filename;
    assert src.path + "/" + "new" + "/" + filename == src.path + "/new/" + filename;
    assert dst.path + "/" + "new" + "/" + filename == dst.path + "/new/" + filename;
  }

  /**
   * The length test as written admits paths within four bytes of the limit,
   * and then every subdirectory path is cut back to the Maildir path itself:
   * `tmp`, `new` and `cur` are never created.
   */
  lemma SubdirectoryCut(base: string, recipient: string)
    requires '@' in recipient
    requires |base| + |recipient| + |MaildirSuffix| + 2 == PathSize
    ensures GuardAsWritten(base, recipient) && !Guard(base, recipient)
    ensures forall i :: 0 <= i < |SubPaths| ==>
      SubPath(MaildirPath(base, recipient), SubPaths[i]) == MaildirPath(base, recipient)
  {
    var dir := MaildirPath(base, recipient);
    forall i | 0 <= i < |SubPaths|
      ensures SubPath(dir, SubPaths[i]) == dir
    {
      assert (dir + "/" + SubPaths[i])[..|dir|] == dir;
    }
  }

  /**
   * A concrete recipient for the cut: "a@b" under a 243-character base
   * gives a 255-character Maildir path. With every `mkdir` succeeding the
   * written version reports success, yet each subdirectory path is the
   * Maildir path itself; the corrected guard rejects the recipient.
   */
  lemma SubdirectoryCutExample(base: string, mkdir: string -> MkdirOutcome)
    requires |base| == 243
    ensures |MaildirPath(base, "a@b")| == PathSize - 1
    ensures (forall p :: mkdir(p) != Failed) ==>
      MaildirInitAsWritten(base, "a@b", mkdir) == Some(Maildir(MaildirPath(base, "a@b")))
    ensures MaildirInitAsWritten(base, "a@b", mkdir).Some? ==>
      SubPath(MaildirInitAsWritten(base, "a@b", mkdir).value.path, "tmp")
        == MaildirInitAsWritten(base, "a@b", mkdir).value.path
    ensures MaildirInit(base, "a@b", mkdir).None?
  {
    assert "a@b"[1] == '@';
    SubdirectoryCut(base, "a@b");
  }
}

=== FILE: optional.dfy ===
/** The Some/None datatype used for C's NULL returns and for oracle results. */
module Optional {

  datatype Option<+T> = None | Some(value: T)
}

=== FILE: protocol.dfy ===
/**
 * The session dispatcher of src/protocol.c: it extracts the command word
 * from the buffered line, looks it up in the table of the current state
 * (the command-ordering rules of section 4.1.4 of RFC 5321), and either
 * fires a machine event, answers locally, or rejects the command with 503
 * (out of sequence) or 500 (unrecognized).
 *
 * The machine step itself (`smtp_server_step`, generated from a state
 * table that is not part of this model) is a function parameter.
 */
module Protocol {
  import opened Optional
  import opened CText
  import F = Fsm
  import B = Buffer
  import C = Context
  import H = Handle
  import Time

  /** The command words of src/protocol.h. */
  datatype Word = Data | DataEnd | Ehlo | Helo | Mail | Noop | Quit | Rcpt | Rset | Vrfy

  /** The text of a word, lower-case as the extracted command is. */
  function Name(w: Word): (r: string)
    ensures 3 <= |r| < C.CommandSize
    ensures NUL !in r
  {
    match w
    case Data => "data"
    case DataEnd => ".\r\n"
    case Ehlo => "ehlo"
    case Helo => "helo"
    case Mail => "mail"
    case Noop => "noop"
    case Quit => "quit"
    case Rcpt => "rcpt"
    case Rset => "rset"
    case Vrfy => "vrfy"
  }

  const WrongSequenceReply: string := H.Reply("503", "Bad sequence of commands")
  const UnrecognizedReply: string := H.Reply("500", "Syntax error, command unrecognized")
  const StepErrorReply: string := "451" + B.CRLF

  /** The handler of an accepted command. */
  datatype Handler =
    | Fire(event: F.Event)   // a machine transition with this event
    | NoopReply              // `handle_noop`: "250 Ok"
    | VrfyReply              // `handle_vrfy`: 502

  /** What a command leads to in a state. */
  datatype Action =
    | Accept(handler: Handler)
    | WrongSequence          // 503
    | Unrecognized           // 500

  /**
   * The table a state looks commands up in: the `correct_commands` words in
   * order, and the `wrong_commands` words. Every table pairs a word with the
   * same handler, `HandlerOf`.
   */
  datatype Table = Table(correct: seq<Word>, wrong: seq<Word>)

  // ---------------------------------------------------------------------------
  // Tables and lookup
  // ---------------------------------------------------------------------------

  /** The `process_command_on_*` tables; `None` for states without one. */
  function TableOf(s: F.State): Option<Table> {
    match s
    case WaitEhlo => Some(Table([Ehlo, Helo, Noop, Rset], [Data, DataEnd, Mail, Quit, Rcpt, Vrfy]))
    case WaitMail => Some(Table([Ehlo, Helo, Mail, Noop, Quit, Rset, Vrfy], [Data, DataEnd, Rcpt]))
    case WaitRcpt => Some(Table([Ehlo, Helo, Noop, Quit, Rcpt, Rset, Vrfy], [Data, DataEnd, Mail]))
    case WaitRcptOrData => Some(Table([Data, Ehlo, Helo, Noop, Quit, Rcpt, Rset, Vrfy], [DataEnd, Mail]))
    case Error => Some(Table([Ehlo, Helo, Noop, Quit, Rset], [Data, DataEnd, Mail, Rcpt, Vrfy]))
    case _ => None
  }

  /**
   * The first word of `words` that starts `command` (`strncmp` over the
   * word's length, a prefix test by `CText.StrNEqualIsPrefix`).
   */
  function FirstMatch(command: string, words: seq<Word>): (r: Option<Word>)
    ensures r.None? <==> forall i :: 0 <= i < |words| ==> !IsPrefix(Name(words[i]), command)
    ensures r.Some? ==> r.value in words && IsPrefix(Name(r.value), command)
  {
    if |words| == 0 then None
    else if IsPrefix(Name(words[0]), command) then Some(words[0])
    else FirstMatch(command, words[1..])
  }

  /** Some word of `words` starts `command`. */
  predicate AnyPrefix(command: string, words: seq<Word>) {
    exists i :: 0 <= i < |words| && IsPrefix(Name(words[i]), command)
  }

  /** `process_command`: accepted rows first, then the out-of-sequence list. */
  function Lookup(command: string, t: Table): (r: Action)
    ensures r == Unrecognized <==> FirstMatch(command, t.correct).None? && !AnyPrefix(command, t.wrong)
    ensures r == WrongSequence ==> FirstMatch(command, t.correct).None? && AnyPrefix(command, t.wrong)
  {
    match FirstMatch(command, t.correct)
    case Some(w) => Accept(HandlerOf(w))
    case None => if AnyPrefix(command, t.wrong) then WrongSequence else Unrecognized
  }

  /**
   * What a command leads to in a state with a table, and in WAIT_MORE_DATA,
   * where a line starting with ".\r\n" ends the message and any other line
   * is message text.
   */
  function Dispatch(s: F.State, command: string): (r: Option<Action>)
    ensures r.None? <==> TableOf(s).None? && s != F.WaitMoreData
  {
    if s == F.WaitMoreData then
      Some(Accept(if IsPrefix(Name(DataEnd), command) then Fire(F.DataEnd) else Fire(F.MoreData)))
    else match TableOf(s)
      case None => None
      case Some(t) => Some(Lookup(command, t))
  }

  // ---------------------------------------------------------------------------
  // Command ordering
  // ---------------------------------------------------------------------------

  /** The words a state with a table accepts. */
  function Accepted(s: F.State): set<Word> {
    match s
    case WaitEhlo => {Ehlo, Helo, Noop, Rset}
    case WaitMail => {Ehlo, Helo, Mail, Noop, Quit, Rset, Vrfy}
    case WaitRcpt => {Ehlo, Helo, Noop, Quit, Rcpt, Rset, Vrfy}
    case WaitRcptOrData => {Data, Ehlo, Helo, Noop, Quit, Rcpt, Rset, Vrfy}
    case Error => {Ehlo, Helo, Noop, Quit, Rset}
    case _ => {}
  }

  /** The handler a word runs wherever it is accepted. */
  function HandlerOf(w: Word): Handler {
    match w
    case Data => Fire(F.Data)
    case DataEnd => Fire(F.DataEnd)
    case Ehlo => Fire(F.Ehlo)
    case Helo => Fire(F.Ehlo)
    case Mail => Fire(F.Mail)
    case Noop => NoopReply
    case Quit => Fire(F.Quit)
    case Rcpt => Fire(F.Rcpt)
    case Rset => Fire(F.Rset)
    case Vrfy => VrfyReply
  }

  /** The first two characters tell the command words apart. */
  lemma WordKeysDistinct(v: Word, w: Word)
    requires v != w
    ensures Name(v)[0] != Name(w)[0] || Name(v)[1] != Name(w)[1]
  {
  }

  /** No command starts with two different command words. */
  lemma WordsExclusive(command: string, v: Word, w: Word)
    requires v != w
    ensures !(IsPrefix(Name(v), command) && IsPrefix(Name(w), command))
  {
    WordKeysDistinct(v, w);
    assert IsPrefix(Name(v), command) ==> command[0] == Name(v)[0] && command[1] == Name(v)[1];
    assert IsPrefix(Name(w), command) ==> command[0] == Name(w)[0] && command[1] == Name(w)[1];
  }

  /** When `command` starts with the word `w`, a list matches it exactly when it holds `w`. */
  lemma MatchOfWord(command: string, words: seq<Word>, w: Word)
    requires IsPrefix(Name(w), command)
    requires forall v :: v != w ==> !IsPrefix(Name(v), command)
    ensures FirstMatch(command, words) == (if w in words then Some(w) else None)
    ensures AnyPrefix(command, words) <==> w in words
  {
    if w in words {
      var i :| 0 <= i < |words| && words[i] == w;
    }
  }

  /** A table's accepted list holds exactly the accepted words. */
  lemma AcceptedListed(s: F.State, w: Word)
    requires TableOf(s).Some?
    ensures w in TableOf(s).value.correct <==> w in Accepted(s)
  {
  }

  /** A table's out-of-sequence list holds exactly the other words. */
  lemma RejectedListed(s: F.State, w: Word)
    requires TableOf(s).Some?
    ensures w in TableOf(s).value.wrong <==> w !in Accepted(s)
  {
    match s
    case WaitEhlo =>
    case WaitMail =>
    case WaitRcpt =>
    case WaitRcptOrData =>
    case Error =>
  }

  /**
   * In every state with a table, a command starting with a known word is
   * either accepted, running that word's handler, or rejected as out of
   * sequence; it is never unrecognized.
   */
  lemma KnownWordsAreOrdered(s: F.State, command: string, w: Word)
    requires TableOf(s).Some? && IsPrefix(Name(w), command)
    ensures Dispatch(s, command) == Some(if w in Accepted(s) then Accept(HandlerOf(w)) else WrongSequence)
  {
    forall v | v != w
      ensures !IsPrefix(Name(v), command)
    {
      WordsExclusive(command, w, v);
    }
    var t := TableOf(s).value;
    AcceptedListed(s, w);
    RejectedListed(s, w);
    MatchOfWord(command, t.correct, w);
    MatchOfWord(command, t.wrong, w);
  }

  /** A known word is out of sequence in every table state but WAIT_RCPT_OR_DATA: DATA is accepted only there. */
  lemma DataOnlyAfterRecipient(s: F.State, command: string)
    requires TableOf(s).Some? && IsPrefix(Name(Data), command)
    ensures s == F.WaitRcptOrData ==> Dispatch(s, command) == Some(Accept(Fire(F.Data)))
    ensures s != F.WaitRcptOrData ==> Dispatch(s, command) == Some(WrongSequence)
  {
    var accepted := Data in Accepted(s);
    assert accepted <==> s == F.WaitRcptOrData;
    assert Dispatch(s, command) == Some(if accepted then Accept(Fire(F.Data)) else WrongSequence) by {
      KnownWordsAreOrdered(s, command, Data);
    }
  }

  /** Before the greeting only EHLO, HELO, NOOP and RSET are handled; every other known word gets 503. */
  lemma GreetingFirst(command: string, w: Word)
    requires IsPrefix(Name(w), command)
    ensures w in {Ehlo, Helo} ==> Dispatch(F.WaitEhlo, command) == Some(Accept(Fire(F.Ehlo)))
    ensures w == Noop ==> Dispatch(F.WaitEhlo, command) == Some(Accept(NoopReply))
    ensures w == Rset ==> Dispatch(F.WaitEhlo, command) == Some(Accept(Fire(F.Rset)))
    ensures w !in {Ehlo, Helo, Noop, Rset} ==> Dispatch(F.WaitEhlo, command) == Some(WrongSequence)
  {
    var accepted := w in Accepted(F.WaitEhlo);
    assert accepted <==> w in {Ehlo, Helo, Noop, Rset};
    assert Dispatch(F.WaitEhlo, command) == Some(if accepted then Accept(HandlerOf(w)) else WrongSequence) by {
      KnownWordsAreOrdered(F.WaitEhlo, command, w);
    }
  }

  /** A command starting with no known word is unrecognized in every state with a table. */
  lemma UnknownIsUnrecognized(s: F.State, command: string)
    requires TableOf(s).Some?
    requires forall w :: !IsPrefix(Name(w), command)
    ensures Dispatch(s, command) == Some(Unrecognized)
  {
  }

  /**
   * While message text is expected nothing is rejected: a line starting
   * with ".\r\n" ends the message, every other line is more text.
   */
  lemma MessageTextNeverRejected(command: string)
    ensures Dispatch(F.WaitMoreData, command) == Some(Accept(Fire(F.DataEnd))) <==> IsPrefix(Name(DataEnd), command)
    ensures Dispatch(F.WaitMoreData, command) == Some(Accept(Fire(F.MoreData))) <==> !IsPrefix(Name(DataEnd), command)
  {
  }

  // ---------------------------------------------------------------------------
  // Running a command
  // ---------------------------------------------------------------------------

  /**
   * `smtp_server_step`: the next state, and the context as the transition's
   * handlers leave it.
   */
  type Machine = (F.State, F.Event, C.Context) -> (F.State, C.Context)

  /** The handlers the machine runs keep a session's context well formed. */
  ghost predicate KeepsValid(step: Machine) {
    forall s, e, c :: C.Valid(c) ==> C.Valid(step(s, e, c).1)
  }

  /**
   * `handle`: run the machine on `event`. Landing in ERROR queues "451"
   * (whether that push succeeds is not checked) and fails with -1.
   */
  function HandleEvent(c: C.Context, event: F.Event, step: Machine, alloc: bool): (r: (int, C.Context))
    requires C.Valid(c) && C.Valid(step(c.state, event, c).1)
    ensures C.Valid(r.1)
    ensures var (next, after) := step(c.state, event, c);
      && r.1.state == next
      && (r.0 == -1 <==> next == F.Error)
      && (r.0 == 0 ==> r.1 == after.(state := next))
      && (r.0 == -1 ==> r.1 == after.(state := next, outQueue := r.1.outQueue))
      && (r.0 == -1 ==> H.Sent(r.1) == H.Sent(after) + (if alloc then [StepErrorReply] else []))
  {
    var (next, after) := step(c.state, event, c);
    var c1 := after.(state := next);
    if next == F.Error then
      match H.Push(c1, StepErrorReply, alloc)
      case None => (-1, c1)
      case Some(c2) => (-1, c2)
    else (0, c1)
  }

  /** The reply a locally answered action queues. */
  function LocalReply(a: Action): string
    requires !(a.Accept? && a.handler.Fire?)
  {
    match a
    case Accept(h) => if h == NoopReply then H.Ok else H.NotImplemented
    case WrongSequence => WrongSequenceReply
    case Unrecognized => UnrecognizedReply
  }

  /**
   * `process_command` once the action is known: fire the machine event, or
   * answer locally (`handle_noop`, `handle_vrfy`,
   * `handle_wrong_command_sequence`, `handle_unrecognized_command`): consume
   * the line, compact the buffer after VRFY, and queue the reply.
   */
  function RunAction(c: C.Context, a: Action, step: Machine, alloc: bool): (r: (int, C.Context))
    requires C.Valid(c) && KeepsValid(step)
    ensures C.Valid(r.1) && (r.0 == 0 || r.0 == -1)
    ensures a.Accept? && a.handler.Fire? ==> r == HandleEvent(c, a.handler.event, step, alloc)
    ensures !(a.Accept? && a.handler.Fire?) ==>
      && r.1.state == c.state && r.1.transaction == c.transaction
      && (r.0 == 0 <==> alloc && H.ConsumeLine(c).Some?)
      && (r.0 == 0 ==> H.Sent(r.1) == H.Sent(c) + [LocalReply(a)])
      && (r.0 == 0 ==> H.Input(r.1) == H.Input(H.ConsumeLine(c).value))
  {
    if a.Accept? && a.handler.Fire? then HandleEvent(c, a.handler.event, step, alloc)
    else
      var (result, c1) := H.Answer(c, a == Accept(VrfyReply), LocalReply(a), alloc, H.Succeed);
      (if result == H.Succeed then 0 else -1, c1)
  }

  // ---------------------------------------------------------------------------
  // Command extraction
  // ---------------------------------------------------------------------------

  /** The characters skipped before a command word. */
  predicate IsBlank(ch: char) {
    ch == ' ' || ch == '\t' || ch == '\r' || ch == '\n'
  }

  /** The first index from `from` that is `end` or holds no blank. */
  function SkipBlanks(data: seq<char>, from: nat, end: nat): (r: nat)
    requires from <= end <= |data|
    ensures from <= r <= end
    ensures forall i :: from <= i < r ==> IsBlank(data[i])
    ensures r < end ==> !IsBlank(data[r])
    decreases end - from
  {
    if from < end && IsBlank(data[from]) then SkipBlanks(data, from + 1, end) else from
  }

  function Min(a: int, b: int): int {
    if a <= b then a else b
  }

  /**
   * The command buffer after `strncpy` of the `|src|` characters at the
   * command's start, the terminating NUL, and `string_to_lower`.
   */
  function CommandBuffer(src: seq<char>): seq<char> {
    StringToLower(StrNCopy(src, |src|) + [NUL], |src|)
  }

  /**
   * The command string: `src` up to any NUL, lower-cased. The buffer
   * `CommandBuffer` builds holds exactly this (`CommandWordIsLowered`).
   */
  function CommandWord(src: seq<char>): (r: string)
    ensures |r| <= |src| && NUL !in r
    ensures forall i :: 0 <= i < |r| ==> !IsUpper(r[i])
  {
    LowerAll(CStr(src))
  }

  /** Copying, terminating and lowering leaves the lower-cased content of `src`. */
  lemma CommandWordIsLowered(src: seq<char>)
    ensures CStr(CommandBuffer(src)) == CommandWord(src)
  {
    var n := |src|;
    var copy := StrNCopy(src, n);
    var x := copy + [NUL];
    var k := Strlen(src);
    assert src[..n] == src;
    assert x[..k] == copy[..k] == src[..k];
    assert NUL !in x[..k];
    StrlenUnique(x, k);
    var r := StringToLower(x, n);
    assert r[..k] == LowerAll(x[..k]);
  }

  /**
   * How many characters of the command are copied: through the first space
   * or the CRLF ending at `end + 2`, whichever comes first, at most
   * `COMMAND_SIZE - 1`.
   */
  function CommandLength(b: B.Buffer, end: nat): (n: nat)
    requires B.Valid(b) && b.readPos <= end && end + 2 <= b.writePos
    ensures 1 <= n < C.CommandSize && b.readPos + n <= end + 2
  {
    var commandEnd := Min(B.Find(b, " ") + 1, end + 2);
    Min(commandEnd - b.readPos, C.CommandSize - 1)
  }

  /** With no space among the first `n` characters, `n` of them are copied. */
  lemma CommandLengthAt(b: B.Buffer, end: nat, n: nat)
    requires B.Valid(b) && b.readPos <= end && end + 2 <= b.writePos
    requires b.readPos + n <= end + 2 && B.Find(b, " ") >= b.readPos + n
    requires n == C.CommandSize - 1 || (n < C.CommandSize && b.readPos + n == end + 2)
    ensures CommandLength(b, end) == n
  {
  }

  /**
   * The parsing part of `process_client`. Nothing is parsed unless some
   * input is left and a CRLF is buffered. Otherwise blanks before the
   * command are consumed, and the command holds the lower-cased first
   * characters from there: up to and including the first space or the
   * CRLF, at most `COMMAND_SIZE - 1` of them.
   */
  function ExtractCommand(c: C.Context): (r: Option<C.Context>)
    requires C.Valid(c)
    ensures r.None? <==> B.Left(c.inMessage) == 0 || B.Find(c.inMessage, B.CRLF) == |c.inMessage.data|
    ensures r.Some? ==> C.Valid(r.value)
    ensures r.Some? ==> r.value == c.(inMessage := r.value.inMessage, command := r.value.command)
    ensures r.Some? ==> forall i :: 0 <= i < |r.value.command| ==> !IsUpper(r.value.command[i])
    ensures r.Some? ==> NUL !in r.value.command
    ensures r.Some? ==> var (b, b1) := (c.inMessage, r.value.inMessage);
      && b1.data == b.data && b1.writePos == b.writePos && b.readPos <= b1.readPos
      && forall i :: b.readPos <= i < b1.readPos ==> IsBlank(b.data[i])
  {
    var b := c.inMessage;
    if B.Left(b) == 0 then None
    else
      var end := B.Find(b, B.CRLF);
      if end == |b.data| then None
      else
        var begin := SkipBlanks(b.data, b.readPos, end);
        Some(Parsed(c, begin, CommandLength(B.ShiftRead(b, begin - b.readPos), end)))
  }

  /**
   * The session once the command start `begin` and the number `size` of
   * characters to copy are known: the read cursor at `begin` and the
   * command copied from there.
   */
  function Parsed(c: C.Context, begin: nat, size: nat): (r: C.Context)
    requires C.Valid(c) && c.inMessage.readPos <= begin && begin + size <= c.inMessage.writePos
    requires size < C.CommandSize
    ensures C.Valid(r) && r == c.(inMessage := r.inMessage, command := r.command)
    ensures r.inMessage == B.ShiftRead(c.inMessage, begin - c.inMessage.readPos)
    ensures r.command == LowerAll(CStr(c.inMessage.data[begin..begin + size]))
    ensures forall i :: 0 <= i < |r.command| ==> !IsUpper(r.command[i])
    ensures NUL !in r.command
  {
    c.(inMessage := B.ShiftRead(c.inMessage, begin - c.inMessage.readPos),
       command := CommandWord(c.inMessage.data[begin..begin + size]))
  }

  /** Skipping stops at the first character that is not blank. */
  lemma SkipBlanksAt(data: seq<char>, from: nat, end: nat, at: nat)
    requires from <= at < end <= |data|
    requires forall i :: from <= i < at ==> IsBlank(data[i])
    requires !IsBlank(data[at])
    ensures SkipBlanks(data, from, end) == at
  {
  }

  /** Spaces and tabs before a line without CRLF add no CRLF. */
  lemma BlanksKeepLine(blanks: seq<char>, line: seq<char>)
    requires forall i :: 0 <= i < |blanks| ==> blanks[i] == ' ' || blanks[i] == '\t'
    requires forall k :: 0 <= k < |line| - 1 ==> !(line[k] == '\r' && line[k + 1] == '\n')
    ensures var p := blanks + line;
      forall k :: 0 <= k < |p| - 1 ==> !(p[k] == '\r' && p[k + 1] == '\n')
  {
    var p := blanks + line;
    forall k | 0 <= k < |p| - 1
      ensures !(p[k] == '\r' && p[k + 1] == '\n')
    {
      if k < |blanks| {
        assert p[k] == blanks[k];
      } else {
        assert p[k] == line[k - |blanks|] && p[k + 1] == line[k + 1 - |blanks|];
      }
    }
  }

  /** No space among the `n` unread characters means the first space is further on. */
  lemma NoSpaceBefore(b: B.Buffer, n: nat)
    requires B.Valid(b) && b.readPos + n <= b.writePos
    requires forall i :: 0 <= i < n ==> B.Unread(b)[i] != ' '
    ensures B.Find(b, " ") >= b.readPos + n
  {
    forall i | b.readPos <= i < b.readPos + n
      ensures !B.MatchAt(b, " ", i)
    {
      assert b.data[i] == B.Unread(b)[i - b.readPos];
      assert b.data[i..i + 1] == [b.data[i]];
    }
  }

  /** Where the line ends and where its command starts. */
  lemma LineLayout(b: B.Buffer, blanks: seq<char>, line: seq<char>, rest: seq<char>)
    requires B.Valid(b) && B.Unread(b) == blanks + line + B.CRLF + rest
    requires forall i :: 0 <= i < |blanks| ==> blanks[i] == ' ' || blanks[i] == '\t'
    requires |line| > 0 && !IsBlank(line[0])
    requires forall k :: 0 <= k < |line| - 1 ==> !(line[k] == '\r' && line[k + 1] == '\n')
    ensures B.Find(b, B.CRLF) == b.readPos + |blanks| + |line|
    ensures SkipBlanks(b.data, b.readPos, b.readPos + |blanks| + |line|) == b.readPos + |blanks|
  {
    BlanksKeepLine(blanks, line);
    B.LineEnd(b, blanks + line, rest);
    var u := B.Unread(b);
    var begin := b.readPos + |blanks|;
    forall i | b.readPos <= i < begin
      ensures IsBlank(b.data[i])
    {
      assert b.data[i] == u[i - b.readPos] == blanks[i - b.readPos];
    }
    assert b.data[begin] == u[|blanks|] == line[0];
    SkipBlanksAt(b.data, b.readPos, begin + |line|, begin);
  }

  /** Where `ExtractCommand` leaves the input once the line end and the command start are known. */
  lemma ExtractedInput(c: C.Context, end: nat, begin: nat)
    requires C.Valid(c) && c.inMessage.readPos < c.inMessage.writePos
    requires B.Find(c.inMessage, B.CRLF) == end < |c.inMessage.data|
    requires SkipBlanks(c.inMessage.data, c.inMessage.readPos, end) == begin
    ensures ExtractCommand(c).Some?
    ensures ExtractCommand(c).value.inMessage == B.ShiftRead(c.inMessage, begin - c.inMessage.readPos)
  {
  }

  /** The command `ExtractCommand` copies once its start and length are known. */
  lemma ExtractedWord(c: C.Context, end: nat, begin: nat, n: nat, src: seq<char>)
    requires C.Valid(c) && c.inMessage.readPos < c.inMessage.writePos
    requires B.Find(c.inMessage, B.CRLF) == end < |c.inMessage.data|
    requires SkipBlanks(c.inMessage.data, c.inMessage.readPos, end) == begin
    requires CommandLength(B.ShiftRead(c.inMessage, begin - c.inMessage.readPos), end) == n
    requires begin + n <= |c.inMessage.data| && c.inMessage.data[begin..begin + n] == src
    ensures ExtractCommand(c).Some?
    ensures ExtractCommand(c).value.command == LowerAll(CStr(src))
  {
    ExtractedInput(c, end, begin);
    assert ExtractCommand(c).value.command == Parsed(c, begin, n).command;
  }

  /** Consuming the blanks leaves the rest unread, starting with the first `n` characters of `t`. */
  lemma ShiftPastBlanks(b: B.Buffer, blanks: seq<char>, t: seq<char>, rest: seq<char>, n: nat)
    requires B.Valid(b) && B.Unread(b) == blanks + t + rest && n <= |t|
    ensures var b1 := B.ShiftRead(b, |blanks|);
      && B.Valid(b1) && B.Unread(b1) == t + rest
      && b.data[b1.readPos..b1.readPos + n] == t[..n]
  {
    var b1 := B.ShiftRead(b, |blanks|);
    var p := b1.readPos;
    assert B.Unread(b1) == t + rest by {
      assert B.Unread(b1) == B.Unread(b)[|blanks|..];
      assert (blanks + t + rest)[|blanks|..] == t + rest;
    }
    assert b.data[p..p + n] == B.Unread(b1)[..n];
    assert (t + rest)[..n] == t[..n];
  }

  /**
   * A line of spaces and tabs, then text: the blanks are consumed and the
   * command is the lower-cased first `n` characters of the text with its
   * CRLF, `n` being four or the whole line when shorter, provided no space
   * comes earlier. So " \tEhLo example.org" gives "ehlo" and "." gives
   * ".\r\n".
   */
  lemma CommandOfLine(c: C.Context, blanks: seq<char>, line: seq<char>, rest: seq<char>)
    requires C.Valid(c) && H.Input(c) == blanks + line + B.CRLF + rest
    requires forall i :: 0 <= i < |blanks| ==> blanks[i] == ' ' || blanks[i] == '\t'
    requires |line| > 0 && !IsBlank(line[0])
    requires forall k :: 0 <= k < |line| - 1 ==> !(line[k] == '\r' && line[k + 1] == '\n')
    requires forall i :: 0 <= i < Min(|line + B.CRLF|, C.CommandSize - 1) ==> (line + B.CRLF)[i] != ' '
    ensures ExtractCommand(c).Some?
    ensures ExtractCommand(c).value.command == LowerAll(CStr((line + B.CRLF)[..Min(|line + B.CRLF|, C.CommandSize - 1)]))
    ensures H.Input(ExtractCommand(c).value) == line + B.CRLF + rest
  {
    var b := c.inMessage;
    var t := line + B.CRLF;
    var n := Min(|t|, C.CommandSize - 1);
    var begin := b.readPos + |blanks|;
    var end := begin + |line|;
    assert B.Find(b, B.CRLF) == end && SkipBlanks(b.data, b.readPos, end) == begin by {
      LineLayout(b, blanks, line, rest);
    }
    var b1 := B.ShiftRead(b, |blanks|);
    assert |t| == |line| + 2 && n <= |t|;
    assert B.Unread(b1) == t + rest && b.data[begin..begin + n] == t[..n] by {
      ShiftPastBlanks(b, blanks, t, rest, n);
    }
    assert B.Find(b1, " ") >= b1.readPos + n by {
      assert forall i :: 0 <= i < n ==> B.Unread(b1)[i] == t[i];
      NoSpaceBefore(b1, n);
    }
    assert CommandLength(b1, end) == n by {
      CommandLengthAt(b1, end, n);
    }
    ExtractedInput(c, end, begin);
    assert ExtractCommand(c).value.inMessage == b1;
    ExtractedWord(c, end, begin, n, t[..n]);
  }

  /**
   * A word without NUL that starts the lower-cased text still starts it
   * after copying `n` characters, cutting at the first NUL and lower-casing.
   */
  lemma PrefixSurvivesCopy(t: seq<char>, n: nat, name: string)
    requires |name| <= n <= |t| && NUL !in name && IsPrefix(name, LowerAll(t))
    ensures IsPrefix(name, LowerAll(CStr(t[..n])))
  {
    assert NUL !in t[..|name|] by {
      forall i | 0 <= i < |name|
        ensures t[i] != NUL
      {
        assert LowerAll(t)[i] == name[i];
        assert name[i] in name;
      }
    }
    assert Strlen(t[..n]) >= |name| by {
      assert forall i :: 0 <= i < |name| ==> t[..n][i] == t[..|name|][i];
    }
    var command := LowerAll(CStr(t[..n]));
    forall i | 0 <= i < |name|
      ensures command[i] == name[i]
    {
      assert CStr(t[..n])[i] == t[i];
      assert LowerAll(t)[i] == name[i];
    }
  }

  /**
   * A line whose lower-cased start spells a known word is dispatched as that
   * word: accepted in the states whose table lists it, otherwise answered
   * "503".
   */
  lemma LineDispatched(c: C.Context, blanks: seq<char>, line: seq<char>, rest: seq<char>, w: Word)
    requires C.Valid(c) && H.Input(c) == blanks + line + B.CRLF + rest
    requires forall i :: 0 <= i < |blanks| ==> blanks[i] == ' ' || blanks[i] == '\t'
    requires |line| > 0 && !IsBlank(line[0])
    requires forall k :: 0 <= k < |line| - 1 ==> !(line[k] == '\r' && line[k + 1] == '\n')
    requires forall i :: 0 <= i < Min(|line + B.CRLF|, C.CommandSize - 1) ==> (line + B.CRLF)[i] != ' '
    requires TableOf(c.state).Some? && IsPrefix(Name(w), LowerAll(line + B.CRLF))
    ensures ExtractCommand(c).Some?
    ensures Dispatch(c.state, ExtractCommand(c).value.command)
         == Some(if w in Accepted(c.state) then Accept(HandlerOf(w)) else WrongSequence)
  {
    var t := line + B.CRLF;
    var n := Min(|t|, C.CommandSize - 1);
    var name := Name(w);
    CommandOfLine(c, blanks, line, rest);
    var command := ExtractCommand(c).value.command;
    assert command == LowerAll(CStr(t[..n]));
    PrefixSurvivesCopy(t, n, name);
    KnownWordsAreOrdered(c.state, command, w);
  }

  // ---------------------------------------------------------------------------
  // Processing a client
  // ---------------------------------------------------------------------------

  /** A session that reads commands: it has started and has not finished. */
  predicate Running(c: C.Context) {
    c.state != F.Init && c.state != F.Done
  }

  /** The clock could be read and the last action is longer ago than the timeout. */
  predicate TimedOut(c: C.Context, clock: Option<Time.Timeval>) {
    Running(c) && clock.Some? && Time.MtimevalDiff(c.lastActionTime, clock.value) > c.settings.timeout
  }

  /** The clock could be read and the session has not timed out. */
  predicate InTime(c: C.Context, clock: Option<Time.Timeval>) {
    Running(c) && clock.Some? && !TimedOut(c, clock)
  }

  /**
   * `process_client`: one step of a session. A new session fires BEGIN and
   * a finished one does nothing. Otherwise a session idle for longer than
   * its timeout fires TIMEOUT; else the next complete line is taken as a
   * command (kept from before during a wait transition), the time of the
   * last action is renewed and the command is dispatched on the state.
   * `clock` and `stamp` are the two `gettimeofday` readings, `None` when
   * the call fails; a failing first reading ends the step with 0 and a
   * failing second one with -1.
   */
  function ProcessClient(c: C.Context, step: Machine, clock: Option<Time.Timeval>,
                         stamp: Option<Time.Timeval>, alloc: bool): (r: (int, C.Context))
    requires C.Valid(c) && KeepsValid(step)
    ensures C.Valid(r.1) && (r.0 == 0 || r.0 == -1)
    ensures c.state == F.Init ==> r == HandleEvent(c, F.Begin, step, alloc)
    ensures c.state == F.Done ==> r == (0, c)
    ensures Running(c) && clock.None? ==> r == (0, c)
    ensures TimedOut(c, clock) ==> r == HandleEvent(c, F.Timeout, step, alloc)
    ensures InTime(c, clock) && !c.isWaitTransition && ExtractCommand(c).None? ==> r == (0, c)
    ensures InTime(c, clock) && (c.isWaitTransition || ExtractCommand(c).Some?) && stamp.None? ==> r.0 == -1
    ensures (InTime(c, clock) && (c.isWaitTransition || ExtractCommand(c).Some?) && stamp.Some?
             && TableOf(c.state).None? && c.state != F.WaitMoreData) ==> r.0 == -1
    ensures (InTime(c, clock) && (c.isWaitTransition || ExtractCommand(c).Some?) && stamp.Some?
             && (TableOf(c.state).Some? || c.state == F.WaitMoreData)) ==>
      var p := if c.isWaitTransition then c else ExtractCommand(c).value;
      r == RunAction(p.(lastActionTime := stamp.value), Dispatch(c.state, p.command).value, step, alloc)
  {
    if c.state == F.Init then HandleEvent(c, F.Begin, step, alloc)
    else if c.state == F.Done then (0, c)
    else if clock.None? then (0, c)
    else if Time.MtimevalDiff(c.lastActionTime, clock.value) > c.settings.timeout then
      HandleEvent(c, F.Timeout, step, alloc)
    else
      var parsed := if c.isWaitTransition then Some(c) else ExtractCommand(c);
      match parsed
      case None => (0, c)
      case Some(c1) =>
        if stamp.None? then (-1, c1)
        else
          var c2 := c1.(lastActionTime := stamp.value);
          match Dispatch(c2.state, c2.command)
          case None => (-1, c2)
          case Some(a) => RunAction(c2, a, step, alloc)
  }

  /**
   * A session waiting for a command, in time, given a line that starts
   * with a known word: `process_client` takes the word off the line and
   * runs it, or answers "503" where the state does not accept it.
   */
  lemma ReceivedLineRuns(c: C.Context, blanks: seq<char>, line: seq<char>, rest: seq<char>, w: Word,
                         step: Machine, clock: Option<Time.Timeval>, stamp: Time.Timeval, alloc: bool)
    requires C.Valid(c) && KeepsValid(step) && H.Input(c) == blanks + line + B.CRLF + rest
    requires forall i :: 0 <= i < |blanks| ==> blanks[i] == ' ' || blanks[i] == '\t'
    requires |line| > 0 && !IsBlank(line[0])
    requires forall k :: 0 <= k < |line| - 1 ==> !(line[k] == '\r' && line[k + 1] == '\n')
    requires forall i :: 0 <= i < Min(|line + B.CRLF|, C.CommandSize - 1) ==> (line + B.CRLF)[i] != ' '
    requires TableOf(c.state).Some? && IsPrefix(Name(w), LowerAll(line + B.CRLF))
    requires InTime(c, clock) && !c.isWaitTransition
    ensures ExtractCommand(c).Some?
    ensures var e := ExtractCommand(c).value;
      && H.Input(e) == line + B.CRLF + rest
      && ProcessClient(c, step, clock, Some(stamp), alloc)
         == RunAction(e.(lastActionTime := stamp),
                      if w in Accepted(c.state) then Accept(HandlerOf(w)) else WrongSequence, step, alloc)
  {
    CommandOfLine(c, blanks, line, rest);
    LineDispatched(c, blanks, line, rest, w);
  }

  /**
   * While message text is expected, the line taken (or kept during a wait
   * transition) fires DATA_END when it starts with ".\r\n" and MORE_DATA
   * otherwise.
   */
  lemma MessageLineRuns(c: C.Context, step: Machine, clock: Option<Time.Timeval>, stamp: Time.Timeval, alloc: bool)
    requires C.Valid(c) && KeepsValid(step)
    requires c.state == F.WaitMoreData && InTime(c, clock)
    requires c.isWaitTransition || ExtractCommand(c).Some?
    ensures var p := if c.isWaitTransition then c else ExtractCommand(c).value;
      ProcessClient(c, step, clock, Some(stamp), alloc)
      == HandleEvent(p.(lastActionTime := stamp),
                     if IsPrefix(Name(DataEnd), p.command) then F.DataEnd else F.MoreData, step, alloc)
  {
    var p := if c.isWaitTransition then c else ExtractCommand(c).value;
    MessageTextNeverRejected(p.command);
  }

  /**
   * In a state with a table, a fresh line that starts with no known word
   * is answered "500" and consumed; state and transaction stay.
   */
  lemma UnknownLineAnswered(c: C.Context, step: Machine, clock: Option<Time.Timeval>, stamp: Time.Timeval, alloc: bool)
    requires C.Valid(c) && KeepsValid(step)
    requires TableOf(c.state).Some? && InTime(c, clock) && !c.isWaitTransition
    requires ExtractCommand(c).Some?
    requires forall w :: !IsPrefix(Name(w), ExtractCommand(c).value.command)
    ensures var e := ExtractCommand(c).value;
      var r := ProcessClient(c, step, clock, Some(stamp), alloc);
      && r.1.state == c.state && r.1.transaction == c.transaction
      && (r.0 == 0 <==> alloc && H.ConsumeLine(e).Some?)
      && (r.0 == 0 ==> H.Sent(r.1) == H.Sent(c) + [UnrecognizedReply])
  {
    var e := ExtractCommand(c).value;
    var e2 := e.(lastActionTime := stamp);
    assert Dispatch(c.state, e.command) == Some(Unrecognized) by {
      UnknownIsUnrecognized(c.state, e.command);
    }
    assert H.ConsumeLine(e2).Some? <==> H.ConsumeLine(e).Some?;
    assert H.Sent(e2) == H.Sent(c);
  }
}

=== FILE: reply_queue.dfy ===
/**
 * The outgoing reply queue of src/buffer_tailq.c: a FIFO of buffers, each
 * holding one reply exactly as large as its text.
 */
module ReplyQueue {
  import opened Optional
  import opened CText
  import B = Buffer

  /** `buffer_tailq_t`; the head of the sequence is `TAILQ_FIRST`. */
  type Queue = seq<B.Buffer>

  /** Every entry keeps its cursor order. */
  predicate Valid(q: Queue) {
    forall i :: 0 <= i < |q| ==> B.Valid(q[i])
  }

  /** The unread text of every queued reply, front first. */
  function Replies(q: Queue): (r: seq<seq<char>>)
    requires Valid(q)
    ensures |r| == |q|
    ensures forall i :: 0 <= i < |q| ==> r[i] == B.Unread(q[i])
  {
    if q == [] then [] else [B.Unread(q[0])] + Replies(q[1..])
  }

  /** `buffer_tailq_init`. */
  function Init(): (q: Queue)
    ensures Valid(q) && Replies(q) == []
  {
    []
  }

  /** `buffer_tailq_empty`. */
  predicate Empty(q: Queue) {
    |q| == 0
  }

  /**
   * `buffer_tailq_push_back`: a new entry whose buffer is allocated with the
   * size of `data` and filled with it, appended at the tail. The two
   * allocation outcomes are parameters; either failing is the -1 return.
   */
  function PushBack(q: Queue, data: seq<char>, entryAllocOk: bool, dataAllocOk: bool): (r: Option<Queue>)
    ensures r.Some? <==> entryAllocOk && dataAllocOk
    ensures r.Some? ==> |r.value| == |q| + 1 && r.value[..|q|] == q
    ensures r.Some? ==> B.Valid(r.value[|q|]) && B.Unread(r.value[|q|]) == data
    ensures r.Some? ==> B.Space(r.value[|q|]) == 0
  {
    if !entryAllocOk then None
    else match B.Allocate(|data|, dataAllocOk)
      case None => None
      case Some(buf) =>
        var full := B.Write(buf, data);
        assert B.Unread(full) == data by { B.InitIsEmpty(|data|); }
        Some(q + [full])
  }

  /**
   * `buffer_tailq_push_back_string`: the bytes of a C string up to its NUL.
   * The `BUFFER_TAILQ_PUSH_BACK_STRING` macro that every reply goes through
   * passes the literal's length without its terminator, which for the
   * NUL-free reply literals is the same text.
   */
  function PushBackString(q: Queue, s: seq<char>, entryAllocOk: bool, dataAllocOk: bool): (r: Option<Queue>)
    ensures r.Some? <==> entryAllocOk && dataAllocOk
    ensures r.Some? ==> |r.value| == |q| + 1 && r.value[..|q|] == q
    ensures r.Some? ==> B.Valid(r.value[|q|]) && B.Unread(r.value[|q|]) == CStr(s)
  {
    PushBack(q, CStr(s), entryAllocOk, dataAllocOk)
  }

  /**
   * `buffer_tailq_front`: the first entry's buffer; on an empty queue the
   * address computed from the NULL first entry is NULL, here `None`.
   */
  function Front(q: Queue): (r: Option<B.Buffer>)
    ensures r.None? <==> Empty(q)
    ensures r.Some? ==> r.value == q[0]
  {
    if |q| == 0 then None else Some(q[0])
  }

  /** `buffer_tailq_pop_front`: remove the first entry; asserts non-empty. */
  function PopFront(q: Queue): (r: Queue)
    requires !Empty(q)
    ensures |r| == |q| - 1
    ensures forall i :: 0 <= i < |r| ==> r[i] == q[i + 1]
  {
    q[1..]
  }

  /** `buffer_tailq_destroy`: every entry removed and freed. */
  function Destroy(q: Queue): (r: Queue)
    ensures Empty(r)
  {
    if |q| == 0 then [] else Destroy(PopFront(q))
  }

  // ---------------------------------------------------------------------------
  // Properties
  // ---------------------------------------------------------------------------

  /** A push appends its text to the replies and keeps the queue valid. */
  lemma PushBackAppends(q: Queue, data: seq<char>)
    requires Valid(q)
    ensures Valid(PushBack(q, data, true, true).value)
    ensures Replies(PushBack(q, data, true, true).value) == Replies(q) + [data]
  {
    var r := PushBack(q, data, true, true).value;
    assert forall i :: 0 <= i < |q| ==> r[i] == q[i];
  }

  /** A pop removes the oldest reply's text. */
  lemma PopFrontRemovesOldest(q: Queue)
    requires Valid(q) && !Empty(q)
    ensures Valid(PopFront(q))
    ensures Replies(PopFront(q)) == Replies(q)[1..]
    ensures B.Unread(Front(q).value) == Replies(q)[0]
  {
  }

  /** Pushing onto a non-empty queue and popping commute. */
  lemma PushPopCommute(q: Queue, data: seq<char>)
    requires !Empty(q)
    ensures PopFront(PushBack(q, data, true, true).value)
         == PushBack(PopFront(q), data, true, true).value
  {
    var r := PushBack(q, data, true, true).value;
    var p := PushBack(PopFront(q), data, true, true).value;
    assert r[|q|] == p[|q| - 1];
  }

  /** Replies leave in the order they were queued. */
  lemma FirstInFirstOut(a: seq<char>, b: seq<char>)
    ensures var q := PushBack(PushBack(Init(), a, true, true).value, b, true, true).value;
      && B.Unread(Front(q).value) == a
      && B.Unread(Front(PopFront(q)).value) == b
      && Empty(PopFront(PopFront(q)))
  {
    var q1 := PushBack(Init(), a, true, true).value;
    var q := PushBack(q1, b, true, true).value;
    assert q[0] == q1[0];
  }
}

=== FILE: server.dfy ===
/**
 * The worker pool and small helpers of src/server.c: the first-signal
 * latch, the bind-address wildcard rule, pool initialisation and the
 * round-robin choice of the worker that receives the next client.
 *
 * Workers are the child processes of src/worker.c; what `worker_init`
 * and `worker_send_socket` achieve is given as parameters.
 */
module Server {
  import opened Optional

  // ---------------------------------------------------------------------------
  // set_done
  // ---------------------------------------------------------------------------

  /** Linux signal numbers. */
  const SIGINT: int := 2
  const SIGTERM: int := 15

  /** `set_done`: the first SIGTERM or SIGINT is latched; nothing else is. */
  function SetDone(done: int, signum: int): (r: int)
    ensures done != 0 ==> r == done
    ensures done == 0 && signum in {SIGINT, SIGTERM} ==> r == signum
    ensures done == 0 && signum !in {SIGINT, SIGTERM} ==> r == 0
  {
    if done == 0 && (signum == SIGTERM || signum == SIGINT) then signum else done
  }

  /** The latch after a run of signals, starting from 0. */
  function Deliver(done: int, signals: seq<int>): (r: int)
    ensures done != 0 ==> r == done
    ensures r == done || r in signals
    decreases |signals|
  {
    if signals == [] then done else Deliver(SetDone(done, signals[0]), signals[1..])
  }

  /** The first stopping signal of a run, or 0 when there is none. */
  function FirstStop(signals: seq<int>): (r: int)
    ensures r == 0 || r in signals
  {
    if signals == [] then 0
    else if signals[0] in {SIGINT, SIGTERM} then signals[0]
    else FirstStop(signals[1..])
  }

  /** Only the first SIGTERM/SIGINT is remembered, whatever follows. */
  lemma {:induction false} LatchKeepsFirst(signals: seq<int>)
    ensures Deliver(0, signals) == FirstStop(signals)
    decreases |signals|
  {
    if signals != [] {
      if signals[0] !in {SIGINT, SIGTERM} {
        LatchKeepsFirst(signals[1..]);
      }
    }
  }

  // ---------------------------------------------------------------------------
  // wildcard
  // ---------------------------------------------------------------------------

  /** First characters that make a configured address mean "any address". */
  const AsNull: seq<char> := ['\0', '-', '?', '*', ':']

  /**
   * `wildcard`: NULL stays NULL; an address whose first character (the NUL
   * of an empty string included) is in `AsNull` becomes NULL; any other
   * address is kept.
   */
  function Wildcard(address: Option<string>): (r: Option<string>)
    ensures r.Some? ==> r == address
    ensures r.None? <==> address.None? || |address.value| == 0 || address.value[0] in AsNull
  {
    match address
    case None => None
    case Some(a) =>
      var first := if |a| == 0 then '\0' else a[0];
      if first in AsNull then None else address
  }

  /** The addresses "*", "-", "" and "::1" all bind to any address; "0.0.0.0" is kept. */
  lemma WildcardExamples()
    ensures Wildcard(Some("*")).None? && Wildcard(Some("-")).None?
    ensures Wildcard(Some("")).None? && Wildcard(Some("::1")).None?
    ensures Wildcard(Some("0.0.0.0")) == Some("0.0.0.0")
  {
  }

  // ---------------------------------------------------------------------------
  // Worker pool
  // ---------------------------------------------------------------------------

  /** `worker_status_t`: RUNNING is 0, so a zero-filled worker reads as running. */
  datatype WorkerStatus = Running | Broken

  /** `worker_t`: the child's pid, the socket to it and its status. */
  datatype Worker = Worker(pid: int, sock: int, status: WorkerStatus)

  /** A worker slot as `calloc` leaves it. */
  const Zeroed: Worker := Worker(0, 0, Running)

  /** `worker_pool_t`: the workers and the index of the last one chosen. */
  datatype Pool = Pool(workers: seq<Worker>, current: nat)

  predicate ValidPool(p: Pool) {
    0 < |p.workers| && p.current < |p.workers|
  }

  predicate IsRunning(p: Pool, i: nat) {
    i < |p.workers| && p.workers[i].status == Running
  }

  predicate NoneRunning(p: Pool) {
    forall i :: 0 <= i < |p.workers| ==> !IsRunning(p, i)
  }

  /** The index `k + 1` places after `current`, wrapping around. */
  function Offset(p: Pool, k: nat): (i: nat)
    requires ValidPool(p) && k < |p.workers|
    ensures i < |p.workers|
    ensures i == (p.current + 1 + k) % |p.workers|
  {
    var n := |p.workers|;
    var s := p.current + 1 + k;
    if s < n then s else s - n
  }

  /** How many places after `current` index `i` lies (0 for the next one). */
  function Distance(p: Pool, i: nat): (k: nat)
    requires ValidPool(p) && i < |p.workers|
    ensures k < |p.workers| && Offset(p, k) == i
  {
    if i > p.current then i - p.current - 1 else i + |p.workers| - p.current - 1
  }

  /** Distance undoes Offset. */
  lemma DistanceOffset(p: Pool, k: nat)
    requires ValidPool(p) && k < |p.workers|
    ensures Distance(p, Offset(p, k)) == k
  {
  }

  /** The first running worker among offsets `k`, `k + 1`, ... `|workers| - 1`. */
  function Scan(p: Pool, k: nat): (r: Option<nat>)
    requires ValidPool(p)
    ensures r.Some? ==> IsRunning(p, r.value) && k <= Distance(p, r.value)
    ensures r.Some? ==> forall j :: k <= j < Distance(p, r.value) ==> !IsRunning(p, Offset(p, j))
    ensures r.None? ==> forall j :: k <= j < |p.workers| ==> !IsRunning(p, Offset(p, j))
    decreases |p.workers| - k
  {
    if k >= |p.workers| then None
    else if IsRunning(p, Offset(p, k)) then
      assert Distance(p, Offset(p, k)) == k by { DistanceOffset(p, k); }
      Some(Offset(p, k))
    else Scan(p, k + 1)
  }

  /**
   * `select_worker`: the first running worker in cyclic order after
   * `current`, `current` itself last; it becomes the new `current`. With
   * no worker running the result is NULL and `current` goes back to the
   * last index, so the next search starts at index 0.
   */
  function SelectWorker(p: Pool): (r: (Option<nat>, Pool))
    requires ValidPool(p)
    ensures ValidPool(r.1) && r.1.workers == p.workers
    ensures r.0.None? <==> NoneRunning(p)
    ensures r.0.Some? ==> IsRunning(p, r.0.value) && r.1.current == r.0.value
    ensures r.0.Some? ==> forall j :: 0 <= j < Distance(p, r.0.value) ==> !IsRunning(p, Offset(p, j))
    ensures r.0.None? ==> r.1.current == |p.workers| - 1
  {
    match Scan(p, 0)
    case Some(i) => (Some(i), p.(current := i))
    case None =>
      assert NoneRunning(p) by {
        forall i | 0 <= i < |p.workers|
          ensures !IsRunning(p, i)
        {
          assert Offset(p, Distance(p, i)) == i;
        }
      }
      (None, p.(current := |p.workers| - 1))
  }

  /** `select_worker` as written in C: a wrapping scan that stops at `current`. */
  method SelectWorkerLoop(p: Pool) returns (chosen: Option<nat>, p': Pool)
    requires ValidPool(p)
    ensures (chosen, p') == SelectWorker(p)
  {
    var n := |p.workers|;
    var end := p.current;
    Wrap(end + 1, n);
    var next := (end + 1) % n;
    var k := 0;
    if end != next {
      while end != next && !IsRunning(p, next)
        invariant 0 <= k < n && next == Offset(p, k)
        invariant Scan(p, 0) == Scan(p, k)
        decreases n - k
      {
        LastOffset(p, k);
        Wrap(next + 1, n);
        k := k + 1;
        next := (next + 1) % n;
      }
    }
    LastOffset(p, k);
    if IsRunning(p, next) {
      return Some(next), p.(current := next);
    }
    return None, p.(current := n - 1);
  }

  /** The wrap-around step of the C loop. */
  lemma Wrap(x: nat, n: nat)
    requires 0 < n && x <= n
    ensures x % n == if x < n then x else 0
  {
    if x == n {
      assert x % n == 0;
    }
  }

  /** The scan reaches `current` itself only at its last offset. */
  lemma LastOffset(p: Pool, k: nat)
    requires ValidPool(p) && k < |p.workers|
    ensures Offset(p, k) == p.current <==> k == |p.workers| - 1
  {
  }

  /** With every worker running, selection visits them in turn. */
  lemma RoundRobin(p: Pool)
    requires ValidPool(p)
    requires forall i :: 0 <= i < |p.workers| ==> IsRunning(p, i)
    ensures SelectWorker(p).0 == Some((p.current + 1) % |p.workers|)
  {
    assert IsRunning(p, Offset(p, 0));
    DistanceOffset(p, 0);
  }

  // ---------------------------------------------------------------------------
  // init_worker_pool
  // ---------------------------------------------------------------------------

  /**
   * What `init_worker_pool` ends with: a pool, or -1 after destroying the
   * listed worker slots.
   */
  datatype PoolInit = Ready(pool: Pool) | Failed(destroyed: seq<nat>)

  /** A started child, as `worker_init` leaves the slot on success. */
  predicate Started(w: Worker) {
    w.status == Running && w.pid > 0
  }

  /**
   * The initialisation loop as written from slot `i` on. `started[i]` is
   * the worker `worker_init` starts in slot `i`, `None` for its -1. A
   * failure at slot 0 falls through the `case -1` into `case 0`, because
   * the clean-up loop runs zero times, and the slot stays zero-filled; a
   * later failure destroys slot `i` (not slot `j`) once and returns.
   */
  function InitSlotsAsWritten(ws: seq<Worker>, started: seq<Option<Worker>>, i: nat): (r: PoolInit)
    requires |ws| == |started| && i <= |ws| && |ws| > 0
    ensures r.Ready? <==> forall j :: i <= j < |ws| && j != 0 ==> started[j].Some?
    ensures r.Ready? ==> |r.pool.workers| == |ws| && r.pool.current == |ws| - 1
    ensures r.Failed? ==> |r.destroyed| == 1 && 0 < r.destroyed[0] < |ws| && started[r.destroyed[0]].None?
    decreases |ws| - i
  {
    if i == |ws| then Ready(Pool(ws, |ws| - 1))
    else match started[i]
      case Some(w) => InitSlotsAsWritten(ws[i := w], started, i + 1)
      case None =>
        if i == 0 then InitSlotsAsWritten(ws, started, i + 1)
        else Failed([i])
  }

  /** `init_worker_pool` as written; `allocOk` is the outcome of `calloc`. */
  function InitPoolAsWritten(size: nat, allocOk: bool, started: seq<Option<Worker>>): (r: PoolInit)
    requires |started| == size
    ensures size == 0 || !allocOk ==> r == Failed([])
  {
    if size == 0 || !allocOk then Failed([])
    else InitSlotsAsWritten(seq(size, _ => Zeroed), started, 0)
  }

  /**
   * When the first worker fails to start, the pool is still reported
   * ready, with a zero-filled slot that reads as a running worker on
   * socket 0.
   */
  lemma FirstFailureIgnored(w: Worker)
    requires Started(w)
    ensures InitPoolAsWritten(2, true, [None, Some(w)]) == Ready(Pool([Zeroed, w], 1))
    ensures IsRunning(Pool([Zeroed, w], 1), 0) && !Started(Zeroed)
  {
    var ws := seq(2, _ => Zeroed);
    var started := [None, Some(w)];
    assert ws == [Zeroed, Zeroed];
    assert ws[1 := w] == [Zeroed, w];
    calc {
      InitPoolAsWritten(2, true, started);
      InitSlotsAsWritten(ws, started, 0);
      InitSlotsAsWritten(ws, started, 1);
      InitSlotsAsWritten(ws[1 := w], started, 2);
    }
  }

  /**
   * When the second worker fails, only its own (empty) slot is destroyed;
   * the running first worker is left behind.
   */
  lemma LaterFailureLeaksStarted(w: Worker)
    requires Started(w)
    ensures InitPoolAsWritten(2, true, [Some(w), None]) == Failed([1])
  {
    var ws := seq(2, _ => Zeroed);
    var started := [Some(w), None];
    calc {
      InitPoolAsWritten(2, true, started);
      InitSlotsAsWritten(ws, started, 0);
      InitSlotsAsWritten(ws[0 := w], started, 1);
    }
  }

  function Range(n: nat): (r: seq<nat>)
    ensures |r| == n && forall j :: 0 <= j < n ==> r[j] == j
  {
    seq(n, j => j)
  }

  /**
   * The initialisation loop as intended: a failure at slot `i` destroys
   * every worker started before it, slots 0 to `i - 1`, and returns -1.
   */
  function InitSlots(ws: seq<Worker>, started: seq<Option<Worker>>, i: nat): (r: PoolInit)
    requires |ws| == |started| && i <= |ws| && |ws| > 0
    ensures r.Ready? <==> forall j :: i <= j < |ws| ==> started[j].Some?
    ensures r.Failed? ==> i <= |r.destroyed| < |ws| && started[|r.destroyed|].None? && r.destroyed == Range(|r.destroyed|)
    decreases |ws| - i
  {
    if i == |ws| then Ready(Pool(ws, |ws| - 1))
    else match started[i]
      case Some(w) => InitSlots(ws[i := w], started, i + 1)
      case None => Failed(Range(i))
  }

  /** `init_worker_pool` with the clean-up loop destroying `workers[j]`. */
  function InitPool(size: nat, allocOk: bool, started: seq<Option<Worker>>): (r: PoolInit)
    requires |started| == size
    ensures size == 0 || !allocOk ==> r == Failed([])
  {
    if size == 0 || !allocOk then Failed([])
    else InitSlots(seq(size, _ => Zeroed), started, 0)
  }

  /**
   * The intended contract, proved by induction over the slots: the pool is
   * ready exactly when every worker started, it then holds exactly those
   * workers with the cursor on the last slot, and otherwise every slot
   * before the first failure is destroyed.
   */
  lemma {:induction false} InitSlotsSpec(ws: seq<Worker>, started: seq<Option<Worker>>, i: nat)
    requires |ws| == |started| && i <= |ws| && |ws| > 0
    requires forall j :: 0 <= j < i ==> started[j] == Some(ws[j])
    ensures var r := InitSlots(ws, started, i);
      && (r.Ready? <==> forall j :: i <= j < |ws| ==> started[j].Some?)
      && (r.Ready? ==>
            && ValidPool(r.pool) && |r.pool.workers| == |ws| && r.pool.current == |ws| - 1
            && (forall j :: 0 <= j < |ws| ==> started[j] == Some(r.pool.workers[j])))
      && (r.Failed? ==>
            exists f :: && i <= f < |ws| && started[f].None? && r.destroyed == Range(f)
                        && (forall j :: i <= j < f ==> started[j].Some?))
    decreases |ws| - i
  {
    if i < |ws| {
      match started[i]
      case Some(w) =>
        InitSlotsSpec(ws[i := w], started, i + 1);
      case None =>
    }
  }

  /** `init_worker_pool`: a ready pool is full of started workers, so the first selection looks at slot 0. */
  lemma InitPoolReady(size: nat, started: seq<Option<Worker>>)
    requires |started| == size > 0
    requires forall j :: 0 <= j < size ==> started[j].Some? && Started(started[j].value)
    ensures InitPool(size, true, started).Ready?
    ensures var p := InitPool(size, true, started).pool;
      && ValidPool(p) && |p.workers| == size
      && (forall j :: 0 <= j < |p.workers| ==> Started(p.workers[j]))
      && SelectWorker(p).0 == Some(0)
  {
    InitSlotsSpec(seq(size, _ => Zeroed), started, 0);
    var p := InitPool(size, true, started).pool;
    RoundRobin(p);
  }

  /** `init_worker_pool` as intended: on failure, every started worker is destroyed. */
  lemma InitPoolFailureCleansUp(size: nat, started: seq<Option<Worker>>)
    requires |started| == size > 0
    requires exists j :: 0 <= j < size && started[j].None?
    ensures InitPool(size, true, started).Failed?
    ensures forall j :: 0 <= j < size && started[j].None? ==>
      |InitPool(size, true, started).destroyed| <= j
    ensures forall j :: 0 <= j < |InitPool(size, true, started).destroyed| ==>
      started[j].Some? && InitPool(size, true, started).destroyed[j] == j
  {
    InitSlotsSpec(seq(size, _ => Zeroed), started, 0);
  }

  // ---------------------------------------------------------------------------
  // delegate_client
  // ---------------------------------------------------------------------------

  function RunningCount(ws: seq<Worker>): (n: nat)
    ensures n <= |ws|
  {
    if ws == [] then 0 else (if ws[0].status == Running then 1 else 0) + RunningCount(ws[1..])
  }

  /** Marking a running worker broken lowers the count of running workers. */
  lemma {:induction false} BreakLowersCount(ws: seq<Worker>, i: nat)
    requires i < |ws| && ws[i].status == Running
    ensures RunningCount(ws[i := ws[i].(status := Broken)]) == RunningCount(ws) - 1
    decreases |ws|
  {
    var ws' := ws[i := ws[i].(status := Broken)];
    if i > 0 {
      assert ws'[1..] == ws[1..][i - 1 := ws[i].(status := Broken)];
      BreakLowersCount(ws[1..], i - 1);
    } else {
      assert ws'[1..] == ws[1..];
    }
  }

  /**
   * `delegate_client`: hand the client to the next running worker; a
   * worker whose `worker_send_socket` fails (`sendOk` is false for it) is
   * marked broken and the next one is tried. Ends with 0 and the worker
   * that took the client, or with -1 when no worker is running. The client
   * socket is closed in both cases (not modelled).
   */
  method DelegateClient(p: Pool, sendOk: nat -> bool) returns (result: int, taker: Option<nat>, p': Pool)
    requires ValidPool(p)
    ensures ValidPool(p') && |p'.workers| == |p.workers|
    ensures result == 0 <==> taker.Some?
    ensures result == 0 || result == -1
    ensures taker.Some? ==> IsRunning(p', taker.value) && sendOk(taker.value) && p'.current == taker.value
    ensures taker.None? ==> NoneRunning(p')
    ensures forall i :: 0 <= i < |p.workers| && p'.workers[i] != p.workers[i] ==>
      IsRunning(p, i) && !sendOk(i) && p'.workers[i] == p.workers[i].(status := Broken)
  {
    p' := p;
    while true
      invariant ValidPool(p') && |p'.workers| == |p.workers|
      invariant forall i :: 0 <= i < |p.workers| && p'.workers[i] != p.workers[i] ==>
        IsRunning(p, i) && !sendOk(i) && p'.workers[i] == p.workers[i].(status := Broken)
      decreases RunningCount(p'.workers)
    {
      var chosen;
      var before := p';
      chosen, p' := SelectWorkerLoop(p');
      assert p'.workers == before.workers;
      if chosen.None? {
        assert NoneRunning(before);
        assert forall i :: IsRunning(p', i) == IsRunning(before, i);
        return -1, None, p';
      }
      var i := chosen.value;
      if sendOk(i) {
        return 0, Some(i), p';
      }
      BreakLowersCount(p'.workers, i);
      p' := p'.(workers := p'.workers[i := p'.workers[i].(status := Broken)]);
    }
  }
}

=== FILE: time.dfy ===
/**
 * The time arithmetic of src/time.c on `struct timeval` values: a difference
 * with one borrow, and conversions to microseconds and (rounded up)
 * milliseconds.
 */
module Time {
  const MicrosecondsInMillisecond: int := 1000
  const MillisecondsInSecond: int := 1000
  const MicrosecondsInSecond: int := MicrosecondsInMillisecond * MillisecondsInSecond

  /** `struct timeval`. */
  datatype Timeval = Timeval(sec: int, usec: int)

  /** What `gettimeofday` produces: the microseconds below one second. */
  predicate Normal(t: Timeval) {
    0 <= t.usec < MicrosecondsInSecond
  }

  /** Division rounded toward positive infinity, for a positive divisor. */
  function CeilDiv(a: int, d: int): (q: int)
    requires d > 0
    ensures (q - 1) * d < a <= q * d
  {
    -((-a) / d)
  }

  /**
   * `timeval_diff`: `end - start` field by field, borrowing one second when
   * the microseconds go negative.
   */
  function Diff(start: Timeval, end: Timeval): (d: Timeval)
    ensures d.usec == end.usec - start.usec || d.usec == end.usec - start.usec + MicrosecondsInSecond
    ensures Normal(start) && Normal(end) ==> Normal(d)
  {
    var sec := end.sec - start.sec;
    var usec := end.usec - start.usec;
    if usec < 0 then Timeval(sec - 1, usec + MicrosecondsInSecond)
    else Timeval(sec, usec)
  }

  /** `timeval_to_usec`: a normal value is recovered by division and remainder. */
  function ToUsec(t: Timeval): (r: int)
    ensures Normal(t) ==> r / MicrosecondsInSecond == t.sec && r % MicrosecondsInSecond == t.usec
  {
    t.sec * MicrosecondsInSecond + t.usec
  }

  /** `timeval_to_msec`: the microseconds are rounded up to milliseconds. */
  function ToMsec(t: Timeval): (r: int)
    ensures (r - 1) * MicrosecondsInMillisecond < ToUsec(t) <= r * MicrosecondsInMillisecond
  {
    CeilDivShift(t.usec, t.sec * MillisecondsInSecond);
    t.sec * MillisecondsInSecond + CeilDiv(t.usec, MicrosecondsInMillisecond)
  }

  /** `utimeval_diff`: the borrow never changes the value, so the difference is exact. */
  function UtimevalDiff(start: Timeval, end: Timeval): (r: int)
    ensures r == ToUsec(end) - ToUsec(start)
  {
    ToUsec(Diff(start, end))
  }

  /** `mtimeval_diff`: the elapsed microseconds rounded up to whole milliseconds. */
  function MtimevalDiff(start: Timeval, end: Timeval): (r: int)
    ensures (r - 1) * MicrosecondsInMillisecond < ToUsec(end) - ToUsec(start) <= r * MicrosecondsInMillisecond
  {
    ToMsec(Diff(start, end))
  }

  // ---------------------------------------------------------------------------
  // Properties
  // ---------------------------------------------------------------------------

  /** Shifting by whole thousands commutes with rounding up. */
  lemma CeilDivShift(a: int, m: int)
    ensures CeilDiv(a + 1000 * m, 1000) == CeilDiv(a, 1000) + m
  {
    var q := CeilDiv(a, 1000);
    var q' := CeilDiv(a + 1000 * m, 1000);
    assert (q' - m - 1) * 1000 < a <= (q' - m) * 1000;
  }

  /** The millisecond difference is the microsecond difference rounded up. */
  lemma MillisecondsRoundUp(start: Timeval, end: Timeval)
    ensures MtimevalDiff(start, end) == CeilDiv(UtimevalDiff(start, end), 1000)
  {
    var d := Diff(start, end);
    CeilDivShift(d.usec, d.sec * 1000);
    assert d.usec + 1000 * (d.sec * 1000) == ToUsec(d);
  }

  /**
   * The idle check `mtimeval_diff(...) > timeout` fires exactly when more
   * than `timeout` whole milliseconds' worth of microseconds have passed.
   */
  lemma TimeoutThreshold(start: Timeval, end: Timeval, timeout: int)
    ensures MtimevalDiff(start, end) > timeout
        <==> ToUsec(end) - ToUsec(start) > timeout * MicrosecondsInMillisecond
  {
    MillisecondsRoundUp(start, end);
    var u := UtimevalDiff(start, end);
    var q := CeilDiv(u, 1000);
    if q > timeout {
      assert (q - 1) * 1000 >= timeout * 1000;
    } else {
      assert q * 1000 <= timeout * 1000;
    }
  }

  /** Between two clock readings in order, no negative time elapses. */
  lemma ElapsedNonNegative(start: Timeval, end: Timeval)
    requires Normal(start) && Normal(end)
    requires start.sec < end.sec || (start.sec == end.sec && start.usec <= end.usec)
    ensures Diff(start, end).sec >= 0 && MtimevalDiff(start, end) >= 0
  {
  }
}

=== FILE: transaction.dfy ===
/**
 * The mail transaction of src/transaction.c: the active flag, the
 * client's domain, the reverse-path, the recipient list with its first
 * recipient, and the status of the asynchronous message write.
 *
 * The AIO write, the file it goes to and the header text are outside the
 * model: what the kernel reports about the write is an `AioReport`
 * parameter, and each allocation or system call that can fail is a boolean
 * or optional parameter naming its outcome.
 */
module Transaction {
  import opened Optional

  /** `write_status_t`. */
  datatype WriteStatus = WriteNotStarted | WriteDone | WriteWait | WriteError

  /** `transaction_status_t`. */
  datatype Status = Done | Wait | Error

  /**
   * What `aio_error`/`aio_return` report about the submitted write:
   * still running, finished (with every byte written or not), or failed.
   */
  datatype AioReport = InProgress | Finished(complete: bool) | AioFailed

  /**
   * `transaction_t`. `recipients` is the list from its head, so the most
   * recently added recipient comes first; `fd` is `__aiocb.aio_fildes`,
   * -1 when no write has started.
   */
  datatype Transaction = Transaction(
    active: bool,
    domain: Option<string>,
    header: Option<string>,
    reversePath: Option<string>,
    recipients: seq<string>,
    firstRecipient: Option<string>,
    fd: int,
    sock: int)

  /** `__first_recipient` names the earliest recipient still in the list. */
  predicate FirstIsEarliest(t: Transaction) {
    && (t.recipients == [] <==> t.firstRecipient.None?)
    && (t.recipients != [] ==> t.firstRecipient == Some(t.recipients[|t.recipients| - 1]))
  }

  /** `transaction_init`: nothing set, inactive, no write; never fails. */
  function Init(sock: int): (t: Transaction)
    ensures !t.active && t.sock == sock && t.fd == -1
    ensures t.domain.None? && t.header.None? && t.reversePath.None?
    ensures t.recipients == [] && FirstIsEarliest(t)
  {
    Transaction(false, None, None, None, [], None, -1, sock)
  }

  /**
   * `transaction_reset_data`: a started write is aborted and the write
   * channel is reset.
   */
  function ResetData(t: Transaction): (r: Transaction)
    ensures r.fd == -1
    ensures r.active == t.active && r.domain == t.domain && r.header == t.header && r.sock == t.sock
    ensures r.reversePath == t.reversePath && r.recipients == t.recipients && r.firstRecipient == t.firstRecipient
  {
    t.(fd := -1)
  }

  /** `transaction_is_active`. */
  predicate IsActive(t: Transaction) {
    t.active
  }

  /**
   * `transaction_begin`: asserts the transaction is inactive; clears the
   * header, reverse-path and recipients and activates it. The domain from
   * EHLO stays.
   */
  function Begin(t: Transaction): (r: Transaction)
    requires !IsActive(t)
    ensures IsActive(r) && r.fd == -1
    ensures r.header.None? && r.reversePath.None? && r.recipients == []
    ensures FirstIsEarliest(r)
    ensures r.domain == t.domain && r.sock == t.sock
  {
    var cleared := t.(header := None, reversePath := None, recipients := []);
    ResetData(cleared).(firstRecipient := None, active := true)
  }

  /**
   * `transaction_rollback`: the write is cancelled, header, reverse-path
   * and recipients dropped and the transaction deactivated. The domain
   * stays, and so does `__first_recipient`, which then points at a freed
   * list entry until the next `transaction_begin`.
   */
  function Rollback(t: Transaction): (r: Transaction)
    ensures !IsActive(r) && r.fd == -1
    ensures r.header.None? && r.reversePath.None? && r.recipients == []
    ensures r.domain == t.domain && r.firstRecipient == t.firstRecipient && r.sock == t.sock
  {
    ResetData(t.(header := None, reversePath := None, recipients := [])).(active := false)
  }

  /**
   * `transaction_destroy`: `cancel_dump_data` cancels a pending write and
   * aborts a pending or finished one, closing its file (`fd` becomes -1);
   * it does nothing for a write that failed, whose descriptor stays open.
   * Then header, domain, reverse-path and recipients are freed. Unlike a
   * rollback, neither the active flag nor `__first_recipient` is touched.
   */
  function Destroy(t: Transaction, aio: AioReport): (r: Transaction)
    ensures r.header.None? && r.domain.None? && r.reversePath.None? && r.recipients == []
    ensures r.fd == -1 <==> GetWriteStatus(t, aio) != WriteError
    ensures r.fd != -1 ==> r.fd == t.fd
    ensures r.active == t.active && r.firstRecipient == t.firstRecipient && r.sock == t.sock
  {
    var cancelled := match GetWriteStatus(t, aio)
      case WriteWait => t.(fd := -1)
      case WriteDone => t.(fd := -1)
      case _ => t;
    cancelled.(header := None, domain := None, reversePath := None, recipients := [])
  }

  /**
   * `transaction_set_domain`: the old domain is freed first, so a failed
   * copy leaves no domain at all.
   */
  function SetDomain(t: Transaction, value: string, allocOk: bool): (r: (bool, Transaction))
    ensures r.0 <==> allocOk
    ensures r.1.domain == (if allocOk then Some(value) else None)
    ensures r.1 == t.(domain := r.1.domain)
  {
    (allocOk, t.(domain := if allocOk then Some(value) else None))
  }

  /**
   * `transaction_set_reverse_path`: asserts none is set; a failed copy
   * changes nothing.
   */
  function SetReversePath(t: Transaction, value: string, allocOk: bool): (r: (bool, Transaction))
    requires t.reversePath.None?
    ensures r.0 <==> allocOk
    ensures r.0 ==> r.1 == t.(reversePath := Some(value))
    ensures !r.0 ==> r.1 == t
  {
    if allocOk then (true, t.(reversePath := Some(value))) else (false, t)
  }

  /**
   * `transaction_add_forward_path`: the recipient goes to the head of the
   * list; it becomes the first recipient only when there is none. Either
   * allocation failing changes nothing.
   */
  function AddForwardPath(t: Transaction, value: string, entryAllocOk: bool, copyAllocOk: bool): (r: (bool, Transaction))
    ensures r.0 <==> entryAllocOk && copyAllocOk
    ensures !r.0 ==> r.1 == t
    ensures r.0 ==> r.1.recipients == [value] + t.recipients
    ensures r.0 ==> r.1.firstRecipient == (if t.firstRecipient.None? then Some(value) else t.firstRecipient)
    ensures r.1.active == t.active && r.1.domain == t.domain && r.1.reversePath == t.reversePath
    ensures r.1.fd == t.fd && r.1.header == t.header
  {
    if !entryAllocOk || !copyAllocOk then (false, t)
    else
      var first := if t.firstRecipient.None? then Some(value) else t.firstRecipient;
      (true, t.(recipients := [value] + t.recipients, firstRecipient := first))
  }

  /** `get_write_status`: no descriptor means no write has started. */
  function GetWriteStatus(t: Transaction, aio: AioReport): (s: WriteStatus)
    ensures s == WriteNotStarted <==> t.fd == -1
    ensures t.fd != -1 ==> (s == WriteWait <==> aio == InProgress)
    ensures t.fd != -1 ==> (s == WriteDone <==> aio == Finished(true))
  {
    if t.fd == -1 then WriteNotStarted
    else match aio
      case InProgress => WriteWait
      case Finished(complete) => if complete then WriteDone else WriteError
      case AioFailed => WriteError
  }

  /** `transaction_add_data_status`. */
  function AddDataStatus(t: Transaction, aio: AioReport): (s: Status)
    ensures s == Done <==> GetWriteStatus(t, aio) in {WriteNotStarted, WriteDone}
    ensures s == Wait <==> GetWriteStatus(t, aio) == WriteWait
    ensures s == Error <==> GetWriteStatus(t, aio) == WriteError
  {
    match GetWriteStatus(t, aio)
    case WriteNotStarted => Done
    case WriteDone => Done
    case WriteWait => Wait
    case WriteError => Error
  }

  /**
   * `async_dump_data`: the first chunk opens the message file (`created`
   * is the descriptor `create_file` returns, `None` for its -1) and
   * submits a write; a later chunk is submitted once the previous write
   * is done. `submitOk` is the outcome of `aio_write`. A failed previous
   * write is aborted.
   */
  function DumpData(t: Transaction, aio: AioReport, created: Option<nat>, submitOk: bool): (r: (Status, Transaction))
    ensures GetWriteStatus(t, aio) == WriteWait ==> r == (Wait, t)
    ensures GetWriteStatus(t, aio) == WriteError ==> r == (Error, t.(fd := -1))
    ensures GetWriteStatus(t, aio) == WriteDone ==> r == (if submitOk then Done else Error, t)
    ensures GetWriteStatus(t, aio) == WriteNotStarted && created.None? ==> r == (Error, t)
    ensures GetWriteStatus(t, aio) == WriteNotStarted && created.Some? ==>
      r == (if submitOk then Done else Error, t.(fd := created.value))
  {
    match GetWriteStatus(t, aio)
    case WriteNotStarted =>
      if created.None? then (Error, t)
      else (if submitOk then Done else Error, t.(fd := created.value))
    case WriteDone => (if submitOk then Done else Error, t)
    case WriteWait => (Wait, t)
    case WriteError => (Error, t.(fd := -1))
  }

  /**
   * `transaction_add_data`: the bytes accepted, `size` when the chunk was
   * submitted, 0 while the previous write is running and -1 on error.
   */
  function AddData(t: Transaction, size: nat, aio: AioReport, created: Option<nat>, submitOk: bool): (r: (int, Transaction))
    ensures DumpData(t, aio, created, submitOk).0 == Done ==> r.0 == size
    ensures r.0 == -1 <==> DumpData(t, aio, created, submitOk).0 == Error
    ensures DumpData(t, aio, created, submitOk).0 == Wait ==> r.0 == 0
    ensures r.1 == DumpData(t, aio, created, submitOk).1
  {
    var (status, t') := DumpData(t, aio, created, submitOk);
    match status
    case Done => (size as int, t')
    case Wait => (0, t')
    case Error => (-1, t')
  }

  /**
   * `transaction_add_header`: `generated` is the header `generate_header`
   * builds, `None` for its NULL; the header is stored and written as the
   * first chunk of the message.
   */
  function AddHeader(t: Transaction, generated: Option<string>, aio: AioReport, created: Option<nat>, submitOk: bool): (r: (bool, Transaction))
    ensures generated.None? ==> r == (false, t)
    ensures generated.Some? ==> r.1.header == generated
    ensures generated.Some? ==> r.1 == DumpData(t, aio, created, submitOk).1.(header := generated)
    ensures generated.Some? ==> (r.0 <==> DumpData(t, aio, created, submitOk).0 != Error)
  {
    match generated
    case None => (false, t)
    case Some(h) =>
      var withHeader := t.(header := Some(h));
      var (n, t') := AddData(withHeader, |h|, aio, created, submitOk);
      assert DumpData(withHeader, aio, created, submitOk).0 == DumpData(t, aio, created, submitOk).0;
      (n >= 0, t')
  }

  /**
   * `transaction_commit`. An inactive transaction is an error. A finished
   * write closes the file (`closeOk`), moves it into the first recipient's
   * `new` (`moveOk`) and links it for every other recipient (`cloneOk`,
   * which does not matter when there is no other recipient); only then
   * does the transaction end. A running write is waited for;
   * anything else aborts the write.
   */
  function Commit(t: Transaction, aio: AioReport, closeOk: bool, moveOk: bool, cloneOk: bool): (r: (Status, Transaction))
    ensures !IsActive(t) ==> r == (Error, t)
    ensures r.0 == Done <==>
      IsActive(t) && GetWriteStatus(t, aio) == WriteDone && closeOk && moveOk && (cloneOk || |t.recipients| <= 1)
    ensures r.0 == Wait <==> IsActive(t) && GetWriteStatus(t, aio) == WriteWait
    ensures r.0 == Done ==> !IsActive(r.1) && r.1.fd == -1
    ensures r.0 != Done ==> IsActive(r.1) == IsActive(t)
    ensures r.1.recipients == t.recipients && r.1.domain == t.domain
  {
    if !t.active then (Error, t)
    else match GetWriteStatus(t, aio)
      case WriteDone =>
        if !closeOk then (Error, t)
        else
          var closed := t.(fd := -1);
          if !moveOk || (!cloneOk && |t.recipients| > 1) then (Error, closed)
          else (Done, closed.(active := false))
      case WriteWait => (Wait, t)
      case WriteNotStarted => (Error, t.(fd := -1))
      case WriteError => (Error, t.(fd := -1))
  }

  // ---------------------------------------------------------------------------
  // Properties
  // ---------------------------------------------------------------------------

  /** Adding recipients one by one, as RCPT commands do. */
  function AddAll(t: Transaction, values: seq<string>): (r: Transaction)
    decreases |values|
  {
    if values == [] then t
    else AddAll(AddForwardPath(t, values[0], true, true).1, values[1..])
  }

  function Reverse(s: seq<string>): (r: seq<string>)
    ensures |r| == |s|
    decreases |s|
  {
    if s == [] then [] else Reverse(s[1..]) + [s[0]]
  }

  /**
   * The recipient list holds the added recipients newest first, and the
   * first recipient stays the earliest one added since `transaction_begin`.
   */
  lemma {:induction false} AddAllKeepsFirst(t: Transaction, values: seq<string>)
    requires FirstIsEarliest(t)
    ensures AddAll(t, values).recipients == Reverse(values) + t.recipients
    ensures FirstIsEarliest(AddAll(t, values))
    decreases |values|
  {
    if values != [] {
      var t1 := AddForwardPath(t, values[0], true, true).1;
      assert FirstIsEarliest(t1);
      AddAllKeepsFirst(t1, values[1..]);
      assert Reverse(values) == Reverse(values[1..]) + [values[0]];
    }
  }

  /** After MAIL and a run of RCPTs the first recipient is the first RCPT. */
  lemma FirstRecipientOfTransaction(t: Transaction, values: seq<string>)
    requires !IsActive(t) && values != []
    ensures AddAll(Begin(t), values).firstRecipient == Some(values[0])
  {
    AddAllKeepsFirst(Begin(t), values);
    var r := AddAll(Begin(t), values);
    assert r.recipients == Reverse(values);
    ReverseLast(values);
  }

  lemma {:induction false} ReverseLast(s: seq<string>)
    requires s != []
    ensures Reverse(s)[|s| - 1] == s[0]
  {
  }

  /**
   * Rollback followed by a new transaction gives the same transaction as
   * beginning from scratch, apart from the remembered domain.
   */
  lemma RollbackThenBegin(t: Transaction)
    ensures Begin(Rollback(t)) == Begin(Init(t.sock)).(domain := t.domain)
  {
  }

  /**
   * After a rollback of a transaction with recipients, the first recipient
   * no longer belongs to the (empty) list; only `transaction_begin` clears it.
   */
  lemma RollbackLeavesStaleFirst(t: Transaction)
    requires FirstIsEarliest(t) && t.recipients != []
    ensures !FirstIsEarliest(Rollback(t))
    ensures FirstIsEarliest(Begin(Rollback(t)))
  {
  }

  /** The domain survives every operation except `set_domain` and `destroy`. */
  lemma DomainKept(t: Transaction, aio: AioReport)
    requires !IsActive(t)
    ensures Begin(t).domain == t.domain
    ensures Rollback(t).domain == t.domain
    ensures Commit(Begin(t), aio, true, true, true).1.domain == t.domain
  {
  }

  /**
   * Destroying differs from rolling back only in what it leaves behind:
   * the domain is freed too, the active flag is kept, and the descriptor of
   * a failed write is not closed.
   */
  lemma DestroyAgreesWithRollback(t: Transaction, aio: AioReport)
    ensures GetWriteStatus(t, aio) != WriteError ==>
      Destroy(t, aio) == Rollback(t).(domain := None, active := t.active)
    ensures GetWriteStatus(t, aio) == WriteError ==>
      Destroy(t, aio) == Rollback(t).(domain := None, active := t.active, fd := t.fd)
  {
  }

  /**
   * A successful commit ends the transaction, so the next MAIL may begin a
   * new one; a commit never activates a transaction.
   */
  lemma CommitThenBegin(t: Transaction, aio: AioReport, closeOk: bool, moveOk: bool, cloneOk: bool)
    requires Commit(t, aio, closeOk, moveOk, cloneOk).0 == Done
    ensures !IsActive(Commit(t, aio, closeOk, moveOk, cloneOk).1)
    ensures IsActive(Begin(Commit(t, aio, closeOk, moveOk, cloneOk).1))
  {
  }

  /** Until a write has started, every status query reports done. */
  lemma NoWriteIsDone(t: Transaction, aio: AioReport)
    requires t.fd == -1
    ensures AddDataStatus(t, aio) == Done
    ensures AddDataStatus(Begin(Init(t.sock)), aio) == Done
  {
  }
}
